=== FILE: README.md ===
# MemoraAI core in Dafny

MemoraAI is a chat assistant with long-term memory. The backend is a FastAPI service.

- **Memory manager:** keeps a list of memory records per user and detects memory-worthy messages with a small set of phrase patterns. It retrieves records by keyword overlap with a query.
- **Conversation handler:** builds the prompt for the language model, with the user's retrieved memories as context, and stores a worthy message after the reply.
- **Endpoints:** `/chat`, `/enhance`, `/remember`, `/recall` and `/status`. They validate request bodies with pydantic models and turn failures into HTTP errors.
- **Configuration:** read from the environment.

The frontend is a React application with three parts:

- **Chat hook:** keeps the conversation in browser storage.
- **Memory hook:** calls the memory endpoints.
- **Theme provider:** keeps the appearance settings in browser storage and writes them to the document's root element as CSS properties and attributes.

The model follows the program's own structure, one module per source file:

| module | file | models |
|---|---|---|
| `Wrappers` | `wrappers.dfy` | `Option` and `Result` |
| `Text` | `text.dfy` | Python's `lower`, `split()`, `strip`, `split(",")` and slicing, plus decimal rendering of integers |
| `Json` | `json.dfy` | dynamic JavaScript and Python values |
| `JsonCodec`, `JsonRoundTrip`, `JsonParseWellFormed` | `json_codec.dfy` | `JSON.stringify` and `JSON.parse`, and the proof that parsing what was written gives it back |
| `Config` | `config.dfy` | `backend/config.py` |
| `Models` | `models.dfy` | the pydantic request and response models of `backend/models.py` |
| `MemoryStore` | `memory_manager.dfy` | `backend/memory_manager.py` |
| `Conversation` | `conversation_handler.dfy` | `backend/conversation_handler.py` |
| `Endpoints` | `main_endpoints.dfy` | the handlers of `backend/main.py` |
| `Browser` | `browser.dfy` | `localStorage` and the root element, as classes with map fields |
| `ApiClient` | `api_client.dfy` | the request bodies of `frontend/src/services/api.js` and what the backend makes of them |
| `ChatHook` | `use_chat.dfy` | `frontend/src/hooks/useChat.js` |
| `MemoryHook` | `use_memory.dfy` | `frontend/src/hooks/useMemory.js` |
| `Theme` | `theme.dfy` | `frontend/src/contexts/ThemeContext.jsx` and the settings panel that drives it |

In `Json`, an object is a sequence of key/value pairs in insertion order. This is because both JavaScript object spread (`{...a, ...b}`) and Python dictionary unpacking (`{**a, **b}`) keep the position of a key that is already present and append new keys. Key order is visible in what `JSON.stringify` writes.

Several things the program gets from outside become parameters:

- record identifiers (`uuid4`, `Date.now()`);
- clock readings (`utcnow`, `toISOString`);
- the language model;
- the frontend's HTTP calls.

A parameter is a plain value or a function. A failing call returns `Err`.

Where the program changes state, the model has classes:

- `MemoryManager` holds its record list.
- `ConversationHandler` holds its manager.
- `Storage` and `DocumentRoot` stand for the browser objects.
- `ChatSession`, `MemoryStatus` and `ThemeStore` hold the state of the two hooks and the provider.

Each method is specified by a function of the old state, and the lemmas state what the program promises about those functions.

## Model

| member | source | states |
|---|---|---|
| `MemoryStore.MemoryManager.constructor` | backend/memory_manager.py:13-16 | the manager starts with the records loaded from storage, given as the argument |
| `MemoryStore.MemoryManager.DetectMemoryWorthyContent` | backend/memory_manager.py:37-59 | true exactly when the lower-cased message contains one of the 22 phrases of the five pattern groups, with a word boundary at both ends |
| `MemoryStore.LowerIdempotent` | backend/memory_manager.py:55 | lower-casing twice is lower-casing once |
| `MemoryStore.WorthinessIgnoresCase` | backend/memory_manager.py:55-58 | a message and its lower-cased form are equally memory-worthy |
| `MemoryStore.NameIsWorthy` | backend/memory_manager.py:51 | "My name is Alice" is memory-worthy (the personal-information group) |
| `MemoryStore.RememberIsWorthy` | backend/memory_manager.py:49 | "Please REMEMBER this" is memory-worthy, whatever the case |
| `MemoryStore.MemoryManager.StoreMemory` | backend/memory_manager.py:61-95 | exactly one record is appended, with the given id, content, user and time; a missing source becomes "" and missing metadata becomes {}; the id is returned |
| `MemoryStore.UserMemories` | backend/memory_manager.py:115 | the user filter keeps no more records than it was given |
| `MemoryStore.UserMemoriesMembers` | backend/memory_manager.py:115 | the user filter keeps exactly the records whose owner is the user |
| `MemoryStore.UserMemoriesAppend` | backend/memory_manager.py:115 | filtering a list with one more record gives the old result, plus that record when the user owns it |
| `MemoryStore.Scored` | backend/memory_manager.py:122-130 | there are no more candidates than records scored |
| `MemoryStore.ScoredStep` | backend/memory_manager.py:123-130 | one more loop step appends the record with its overlap exactly when it shares a word with the query or contains the query |
| `MemoryStore.ScoredMembers` | backend/memory_manager.py:118-130 | the candidates are exactly the records that share a word with the query or contain the query, each paired with its word-overlap count |
| `MemoryStore.InsertPermutes` | backend/memory_manager.py:133 | insertion into the ranking is a permutation that adds exactly the new entry |
| `MemoryStore.SortPermutes` | backend/memory_manager.py:133 | the ranking is a permutation of the candidates |
| `MemoryStore.SortedCons` | backend/memory_manager.py:133 | a ranked list stays ranked when an entry scoring at least every element is put in front |
| `MemoryStore.InsertBound` | backend/memory_manager.py:133 | insertion does not raise the largest score |
| `MemoryStore.InsertSorted` | backend/memory_manager.py:133 | inserting into a ranked list gives a ranked list |
| `MemoryStore.SortSorted` | backend/memory_manager.py:133 | the ranking is in non-increasing score order, as `sort(reverse=True)` leaves it |
| `MemoryStore.WithScoreAppend` | backend/memory_manager.py:133 | the entries with one given score, taken from a concatenation, are the concatenation of the entries taken from each part |
| `MemoryStore.InsertWithScore` | backend/memory_manager.py:133 | insertion puts a new entry in front of every older entry with the same score |
| `MemoryStore.SortStable` | backend/memory_manager.py:133 | the sort is stable: entries with equal score keep their storage order |
| `MemoryStore.Take` | backend/memory_manager.py:134 | `[:limit]` is a prefix of length min(limit, n) for a non-negative limit, and drops the last -limit entries for a negative one |
| `MemoryStore.MemoriesOf` | backend/memory_manager.py:134 | the records are extracted from the ranked pairs in order |
| `MemoryStore.MemoryManager.RetrieveMemories` | backend/memory_manager.py:97-134 | the scoring loop and the sort return the specified retrieval |
| `MemoryStore.RetrieveSound` | backend/memory_manager.py:114-134 | every record returned is stored, belongs to the user and qualifies for the query |
| `MemoryStore.RetrieveOrdered` | backend/memory_manager.py:133-134 | records come best overlap first |
| `MemoryStore.RetrieveCount` | backend/memory_manager.py:134 | as many records come back as the slice keeps of the candidates |
| `MemoryStore.CutKeepsBest` | backend/memory_manager.py:134 | when `[:limit]` of a ranked list leaves out an entry's record, the slice is full and every entry kept scores at least as high |
| `MemoryStore.RetrieveTopRanked` | backend/memory_manager.py:133-134 | a qualifying record of the user that is left out lost to `limit` records whose overlap is at least its own |
| `MemoryStore.RetrieveTiesInStorageOrder` | backend/memory_manager.py:133-134 | among equal scores, the records returned are the first ones in storage order |
| `MemoryStore.ConversationMemoryBounds` | backend/memory_manager.py:153 | the source starts with "User: ", continues with a prefix of the message and is at most 109 characters long |
| `MemoryStore.ConversationMetadataBounds` | backend/memory_manager.py:154-157 | the metadata keeps at most the first 200 characters of the reply and is a well-formed object |
| `MemoryStore.MemoryManager.ProcessConversationForMemory` | backend/memory_manager.py:136-165 | a worthy message appends exactly the conversation record and returns its id; otherwise nothing changes and None is returned |
| `MemoryStore.MemoryManager.GetMemoryStats` | backend/memory_manager.py:167-186 | the statistics have keys total_memories, user_id and status; the count is the user's records, or all records when the user is missing or empty; user_id echoes the given id, or null; the status is "operational" |
| `MemoryStore.StoreCountsForOwner` | backend/memory_manager.py:177-178 | storing a record raises its owner's count by one and leaves every other user's count alone |
| `Config.ParseInt` | backend/config.py:27 | `int()` accepts a text exactly when, once stripped, it is an optionally signed, non-empty run of ASCII digits |
| `Text.Strip` | backend/config.py:38 | `strip` gives text that neither starts nor ends with whitespace, no longer than the input, and empty exactly when the input is all whitespace |
| `Text.StripInfix` | backend/config.py:38 | `strip` removes only whitespace: the input is a whitespace prefix, the result and a whitespace suffix |
| `Config.StripNoSpace` | backend/config.py:38 | `strip` leaves a string with no surrounding whitespace unchanged |
| `Config.ParseIntToString` | backend/config.py:27 | `int()` reads back every integer's decimal form |
| `Config.LoadDefaults` | backend/config.py:12-33 | with no environment variables the settings are "", "", ./memories.json, the two localhost origins, 0.0.0.0, port 8000, the flash-lite model and 5 results |
| `Config.DefaultPortValue` | backend/config.py:27 | the default port text reads as 8000 |
| `Config.LoadPort` | backend/config.py:27 | loading fails exactly when PORT is set to text that `int()` rejects; a PORT holding a number's decimal form gives that port |
| `Config.CorsOriginsList` | backend/config.py:35-38 | one origin more than there are commas; entry i is the i-th comma-separated segment, stripped, in the setting's order, so it holds no comma and is empty or starts and ends with a non-space |
| `Config.CorsOriginsOfSegments` | backend/config.py:35-38 | for any comma-free segments whose comma-join is the setting, the list has one entry per segment, and entry i is segment i stripped |
| `Config.SplitJoin` | backend/config.py:38 | `split(",")` of comma-free pieces joined by "," gives back the pieces |
| `Config.CorsOriginsRoundTrip` | backend/config.py:35-38 | when no origin carries surrounding whitespace, joining the list with "," gives back the configured string |
| `Config.DefaultCorsOriginsList` | backend/config.py:23-38 | the default setting gives the origins http://localhost:5173 and http://localhost:3000 |
| `Config.TwoOrigins` | backend/config.py:35-38 | two stripped origins separated by one comma give a two-element list |
| `Config.SplitAfter` | backend/config.py:38 | `split` of a separator-free part, the separator and a rest gives the part followed by the pieces of the rest |
| `Config.SplitWithout` | backend/config.py:38 | `split` of a string without the separator gives the string alone |
| `Config.ValidateLoaded` | backend/config.py:40-43 | validation fails exactly when GEMINI_API_KEY is unset or empty |
| `Models.StringField` | backend/models.py:9-40 | a string field is accepted exactly when present with at least the minimum length, or absent with a default; absent and required is a missing-field error |
| `Models.BoolField` | backend/models.py:11 | a boolean field is the value given, or the default when absent; any other JSON type is an error |
| `Models.BoundedIntField` | backend/models.py:41 | an integer field is accepted exactly within its bounds; an absent field takes the default |
| `Models.OptionalStringField` | backend/models.py:12 | an absent or null optional string is None; a string is kept |
| `Models.OptionalObjectField` | backend/models.py:27 | an absent or null optional object is None; an object is kept |
| `Models.ParseChatRequest` | backend/models.py:7-12 | an accepted chat request has a message of at least one character, taken from the body; a body without a message is rejected as missing |
| `Models.ChatRequestOf` | backend/models.py:7-12 | a body with a non-empty message, a user, a boolean memory switch and no voice data is accepted with exactly those fields |
| `Models.ChatRequestDefaults` | backend/models.py:7-12 | a body with only a message gets user default_user, memory on and no voice data |
| `Models.ParseRememberRequest` | backend/models.py:22-27 | an accepted remember request has a non-empty key and value, and metadata only when the body has an object there |
| `Models.RememberRequestOf` | backend/models.py:22-27 | a body with a non-empty key and value, a user and absent, null or object metadata is accepted with exactly those fields |
| `Models.RememberMetadataWellFormed` | backend/models.py:27 | metadata accepted from a well-formed body is well-formed |
| `Models.ParseRecallRequest` | backend/models.py:37-41 | an accepted recall has a non-empty query and a limit in 1..20; with no limit given, the limit is 5 |
| `Models.RecallLimitOutOfRange` | backend/models.py:41 | a limit outside 1..20 is rejected as out of range |
| `Models.MakeChatResponse` | backend/models.py:15-19 | the reply and time are kept; given memories are kept and missing ones default to the empty list |
| `Models.MakeStatusResponse` | backend/models.py:50-55 | a given status is kept and a missing one defaults to "operational"; the other fields are kept |
| `Conversation.ContextParts` | backend/conversation_handler.py:34-38 | the header, then one numbered line per memory in order |
| `Conversation.ContextOfOne` | backend/conversation_handler.py:34-40 | the context for one memory is the header, a newline and line 1 |
| `Conversation.ContextExtend` | backend/conversation_handler.py:35-40 | one more memory adds one more numbered line, after a newline |
| `Conversation.ContextLineUnknownTime` | backend/conversation_handler.py:37-38 | a memory without a timestamp shows "(from unknown ti)", the first ten characters of "unknown time" |
| `Conversation.PromptMentions` | backend/conversation_handler.py:60-66 | the prompt contains the user's message and the content of every memory used |
| `Conversation.LineMentions` | backend/conversation_handler.py:38 | a context line contains the memory's content |
| `Conversation.PromptMentionsMemory` | backend/conversation_handler.py:62-64 | the prompt contains each memory's content |
| `Conversation.ContainsTrans` | backend/conversation_handler.py:60-66 | containment of substrings is transitive |
| `Conversation.ConversationHandler.constructor` | backend/conversation_handler.py:12-17 | the handler works on the manager it is given |
| `Conversation.ConversationHandler.FormatMemoriesForContext` | backend/conversation_handler.py:29-40 | the loop builds the specified context: "" for no memories, else the header and the numbered lines joined by newlines |
| `Conversation.ConversationHandler.GenerateResponse` | backend/conversation_handler.py:42-80 | the reply, the memories used and the new record list are those of the specified turn |
| `Conversation.TurnWithoutMemory` | backend/conversation_handler.py:52-78 | with memory off, nothing is retrieved or stored, and the turn fails exactly when the model call on the memory-free prompt fails |
| `Conversation.TurnStorage` | backend/conversation_handler.py:69-78 | a failed model call stores nothing; a turn stores at most one record, and does so exactly when it succeeds, memory is on and the message is worthy |
| `Conversation.TurnContext` | backend/conversation_handler.py:52-57 | at most five memories are used; all are the user's own, stored before this turn, best overlap first |
| `Endpoints.ChatAnswer` | backend/main.py:103-111 | a successful turn answers with the reply, memories used and time; a failure gives a 500 "Error processing chat: ..." |
| `Endpoints.Chat` | backend/main.py:86-111 | the endpoint answers from one turn of the handler and leaves the manager's records as that turn leaves them |
| `Endpoints.EnhanceAsWritten` | backend/main.py:114-144 | as written, every failure, the intended 400 included, is a 500 |
| `Endpoints.BlankPromptAsWritten` | backend/main.py:124-144 | as written, the prompt "   " is answered 500 "Error enhancing prompt: 400: Prompt cannot be empty" |
| `Endpoints.EmptyPromptText` | backend/main.py:144 | the text of the caught 400 is "400: Prompt cannot be empty" |
| `Endpoints.BlankPromptRaises` | backend/main.py:122-125 | the handler body raises the 400 for a blank prompt |
| `Endpoints.EnhanceRejectsBlank` | backend/main.py:122-125 | corrected: the answer is 400 "Prompt cannot be empty" exactly when the prompt is missing or blank |
| `Endpoints.EnhanceRejectsNonString` | backend/main.py:124-144 | a prompt that is not a string fails in `strip` and gives a 500 |
| `Endpoints.EnhanceAnswer` | backend/main.py:128-140 | a successful answer has keys original and enhanced: the prompt as sent and the stripped model reply |
| `Endpoints.EnhanceOk` | backend/main.py:122-140 | success means a non-blank string prompt and a successful model call on the instruction; the answer is exactly the two-member object |
| `Endpoints.RememberMetadataGet` | backend/main.py:161-165 | the stored metadata has the request's key and type "explicit", overridden by any request metadata with the same key; every other metadata key is carried over |
| `Endpoints.Remember` | backend/main.py:147-177 | one record "key: value" from "Explicit user request" is appended, and the reply reports success with its id |
| `Endpoints.LowerAppend` | backend/main.py:159 | lower-casing distributes over concatenation |
| `Endpoints.RememberThenRecall` | backend/main.py:158-195 | a remembered record qualifies for its own key and is recalled, unless `limit` records overlap the key at least as much |
| `Endpoints.Recall` | backend/main.py:180-204 | the reply holds the retrieval for the request and its length |
| `Endpoints.RecallBounded` | backend/main.py:191-200 | a validated recall returns at most `limit` (so at most 20) of the user's qualifying records |
| `Endpoints.Status` | backend/main.py:207-227 | the status is "operational", with the statistics count, the time and storage status "operational" |
| `Endpoints.RememberRaisesStatusCount` | backend/main.py:147-222 | remembering for a non-empty user raises that user's status count by one |
| `Endpoints.StatusEmptyUser` | backend/main.py:208-216 | an empty user id counts every record; no user id counts default_user's |
| `Json.Get` | frontend/src/contexts/ThemeContext.jsx:36 | a key is found exactly when present, and the value found belongs to that key |
| `Json.AssignGet` | frontend/src/contexts/ThemeContext.jsx:49 | after one assignment, the key has the new value and every other key is unchanged |
| `Json.AssignNew` | frontend/src/contexts/ThemeContext.jsx:49 | assigning a key the object lacks appends it at the end |
| `Json.AssignAt` | frontend/src/contexts/ThemeContext.jsx:49 | assigning a key the object has replaces its value in place |
| `Json.MergeHasKey` | frontend/src/contexts/ThemeContext.jsx:49 | a spread has exactly the keys of both sides |
| `Json.MergeGet` | frontend/src/contexts/ThemeContext.jsx:49 | after a spread, a key has the right-hand value when it is there, else the left-hand one |
| `Json.MergeSpec` | frontend/src/contexts/ThemeContext.jsx:49 | a spread keeps the left keys in place and appends the new right keys in order |
| `Json.MergeCommutes` | frontend/src/components/SettingsPanel.jsx:52-129 | two updates of different existing settings can be applied in either order |
| `Json.MergeSameKeys` | frontend/src/contexts/ThemeContext.jsx:26 | spreading an object with exactly the defaults' keys over the defaults gives that object |
| `JsonRoundTrip.DecodeEncode` | frontend/src/hooks/useChat.js:17-27 | `JSON.parse(JSON.stringify(v))` gives back v for every value with distinct object keys |
| `JsonParseWellFormed.DecodeWellFormed` | frontend/src/hooks/useChat.js:17 | a parsed value is well-formed |
| `Browser.Storage.GetItem` | frontend/src/hooks/useChat.js:14 | `getItem` finds a value exactly when the key is stored, and returns it |
| `Browser.Storage.SetItem` | frontend/src/hooks/useChat.js:27 | `setItem` writes one key and nothing else |
| `Browser.Storage.RemoveItem` | frontend/src/hooks/useChat.js:73 | `removeItem` removes one key and nothing else |
| `Browser.DocumentRoot.SetProperty` | frontend/src/contexts/ThemeContext.jsx:39-40 | `style.setProperty` changes one property and no attribute |
| `Browser.DocumentRoot.SetAttribute` | frontend/src/contexts/ThemeContext.jsx:41-45 | `setAttribute` writes one attribute and no style property |
| `Browser.SetStyle` | frontend/src/contexts/ThemeContext.jsx:39-40 | null or an empty value removes the property, any other value sets it, and no other property changes |
| `Browser.SetStyleAgain` | frontend/src/contexts/ThemeContext.jsx:39-40 | setting two different properties again overwrites the first values |
| `Browser.OverwriteSameKeys` | frontend/src/contexts/ThemeContext.jsx:41-45 | writing the same attribute names twice leaves only the second values |
| `ApiClient.ErrorMessage` | frontend/src/hooks/useChat.js:61 | the message is the error's detail when it is truthy, else the fallback text, and never falsy with a non-empty fallback |
| `ApiClient.ChatBodyAccepted` | frontend/src/services/api.js:18-25 | the backend accepts the chat body exactly when the message is not empty, and reads back the same message, user and memory switch |
| `ApiClient.RememberBodyAccepted` | frontend/src/services/api.js:30-38 | with a non-empty key and value and null or object metadata, the backend reads back exactly what was sent |
| `ApiClient.RecallBodyAccepted` | frontend/src/services/api.js:43-50 | the backend accepts a recall exactly when the query is not empty and the limit is within 1..20, and reads it back unchanged |
| `ChatHook.NewMessageFields` | frontend/src/hooks/useChat.js:32-38 | a new message starts with id, role, content and timestamp in that order; metadata overrides a base field of the same name |
| `ChatHook.NewMessageWellFormed` | frontend/src/hooks/useChat.js:32-38 | messages built from well-formed metadata are well-formed |
| `ChatHook.Persisted` | frontend/src/hooks/useChat.js:25-29 | a non-empty list is saved whole under the key and an empty list writes nothing; other keys are untouched |
| `ChatHook.LoadedMessages` | frontend/src/hooks/useChat.js:13-22 | loading never brings in a malformed message |
| `ChatHook.SaveThenLoad` | frontend/src/hooks/useChat.js:17-27 | loading what the save effect wrote gives back the same messages in order |
| `ChatHook.ChatSession.constructor` | frontend/src/hooks/useChat.js:8-29 | on mount the list is the loaded one, the save effect writes it back when it is non-empty, and there is no error or loading |
| `ChatHook.ChatSession.AddMessage` | frontend/src/hooks/useChat.js:31-41 | exactly one message is appended and the whole list is saved |
| `ChatHook.ChatSession.SendChatMessage` | frontend/src/hooks/useChat.js:43-68 | the user message and then the reply (or a system "Error: ..." message) are appended; the error is cleared on success and set on failure; loading ends; the list is saved; the call's outcome is passed back |
| `ChatHook.ChatSession.ClearMessages` | frontend/src/hooks/useChat.js:70-74 | the list is emptied and only this user's stored entry is removed |
| `MemoryHook.RecallLimit` | frontend/src/hooks/useMemory.js:28 | the default limit is 5 |
| `MemoryHook.MemoryStatus.constructor` | frontend/src/hooks/useMemory.js:8-10 | no statistics, not loading, no error |
| `MemoryHook.MemoryStatus.FetchStatus` | frontend/src/hooks/useMemory.js:12-26 | success replaces the statistics and clears the error; failure keeps the statistics and records "Failed to fetch status" or the detail; loading ends |
| `MemoryHook.MemoryStatus.Recall` | frontend/src/hooks/useMemory.js:28-41 | the statistics never change; a failure records "Failed to recall memories" or the detail; loading ends |
| `MemoryHook.MemoryStatus.Remember` | frontend/src/hooks/useMemory.js:43-58 | a failed store keeps the statistics; a successful store refreshes them; a failed refresh fails the call with the store's fallback text; loading ends |
| `Theme.LoadedSettings` | frontend/src/contexts/ThemeContext.jsx:24-27 | nothing stored (or "") gives the defaults; loading fails only when the stored text does not parse |
| `Theme.DefaultsShaped` | frontend/src/contexts/ThemeContext.jsx:13-21 | the defaults have the seven settings, each once, with well-formed values |
| `Theme.DefaultsDistinct` | frontend/src/contexts/ThemeContext.jsx:13-21 | no setting name occurs twice in the defaults |
| `Theme.SaveThenLoad` | frontend/src/contexts/ThemeContext.jsx:26-30 | settings with the defaults' keys load back as saved |
| `Theme.StyleValue` | frontend/src/contexts/ThemeContext.jsx:39-40 | a property is only ever set to a non-empty text, and a non-empty string colour is set as itself |
| `Theme.AttributeMap` | frontend/src/contexts/ThemeContext.jsx:41-45 | the five attributes data-theme, data-bubble-style, data-view-density, data-font-size and data-bg-pattern are written |
| `Theme.AttributesWritten` | frontend/src/contexts/ThemeContext.jsx:41-45 | the five `setAttribute` calls together overwrite exactly those five attributes |
| `Theme.AttributeTokens` | frontend/src/contexts/ThemeContext.jsx:41-45 | the settings' attribute tokens name exactly the five attributes |
| `Theme.ReapplyReplaces` | frontend/src/contexts/ThemeContext.jsx:29-46 | applying one set of settings after another leaves the root as applying only the second |
| `Theme.RenderedAllLast` | frontend/src/contexts/ThemeContext.jsx:29-32 | after any sequence of applications, the root shows the last settings only |
| `Theme.DefaultKeys` | frontend/src/contexts/ThemeContext.jsx:13-21 | the defaults' keys are the seven setting names in order |
| `Theme.PayloadShape` | frontend/src/components/SettingsPanel.jsx:12-188 | every panel update names only known settings, each once |
| `Theme.ColorsFromFields` | frontend/src/contexts/ThemeContext.jsx:56-58 | the current colours depend only on customColors and colorTheme |
| `Theme.PresetsResolvable` | frontend/src/contexts/ThemeContext.jsx:5-11 | every key of the preset table names an entry whose primary and secondary colours are strings |
| `Theme.PresetSelected` | frontend/src/contexts/ThemeContext.jsx:36-58 | with no custom colours and a preset name selected, the current colours are that preset's |
| `Theme.DefaultsResolvable` | frontend/src/contexts/ThemeContext.jsx:13-36 | the defaults' current colours, Deep Space, have string primary and secondary members |
| `Theme.ActionKeepsShape` | frontend/src/contexts/ThemeContext.jsx:48-54 | no update or reset from the panel adds or removes a setting |
| `Theme.PickPresetResolvable` | frontend/src/components/SettingsPanel.jsx:75 | picking a preset always leaves resolvable colours |
| `Theme.ApplyCustomResolvable` | frontend/src/components/SettingsPanel.jsx:12-16 | applying custom colours always leaves resolvable colours |
| `Theme.OtherActionResolvable` | frontend/src/components/SettingsPanel.jsx:52-179 | the other panel updates keep resolvable colours resolvable |
| `Theme.ActionKeepsResolvable` | frontend/src/contexts/ThemeContext.jsx:48-54 | every panel action keeps the colours resolvable |
| `Theme.PanelKeepsResolvable` | frontend/src/contexts/ThemeContext.jsx:36-58 | from resolvable settings, any sequence of panel actions keeps the settings' shape and the current colours resolvable, so `applyTheme` never reads a colour of undefined |
| `Theme.ModeThenFontSize` | frontend/src/components/SettingsPanel.jsx:58-129 | light mode then large font changes exactly those two settings of the defaults, in place |
| `Theme.ModeFontSizeCommute` | frontend/src/components/SettingsPanel.jsx:58-129 | the two updates give the same settings in either order |
| `Theme.ThemeStore.constructor` | frontend/src/contexts/ThemeContext.jsx:24-32 | the provider starts with the loaded settings, saves them and applies them to the root |
| `Theme.ThemeStore.ApplyTheme` | frontend/src/contexts/ThemeContext.jsx:34-46 | when the current colours are neither undefined nor null, the root shows their two colour properties and the five attribute tokens; otherwise reading them throws before anything is written, and false is returned |
| `Theme.ThemeStore.Effect` | frontend/src/contexts/ThemeContext.jsx:29-32 | the settings are saved under memora_theme_settings and applied |
| `Theme.ThemeStore.UpdateSettings` | frontend/src/contexts/ThemeContext.jsx:48-50 | the settings become the old settings spread with the update, saved and applied |
| `Theme.ThemeStore.ResetSettings` | frontend/src/contexts/ThemeContext.jsx:52-54 | the settings become the defaults, saved and applied |

## Left out

- Memory file persistence is not modelled. `_load_memories` and `_save_memories` (`json.load`/`json.dump` of the record list) are file I/O. The constructor takes the loaded list instead, and the model does not follow a failed save.
- Logging (`logger`, `print`, `console`) is left out; it has no effect on state.
- Identifiers and clocks are caller parameters. The model does not require identifiers to be distinct. `Date.now()` can repeat within one millisecond, and the model does not exclude that either.
- The language model (`generate_content`) is a function parameter that returns the reply text or an error text.
- The HTTP layer, CORS middleware, application lifespan, the `/health` route and axios are not modelled. Frontend calls are function parameters.
- Lower-casing and word characters cover ASCII only. Python's Unicode `lower` and the Unicode `\w` of `re` are not modelled.
- JSON numbers are integers only.
- JsonCodec.Decode rejects every `\u` escape in the surrogate range D800 to DFFF, because a Dafny `char` cannot hold a surrogate. `JSON.parse` accepts both surrogate pairs and lone surrogates. Two consequences follow. ChatHook.LoadedMessages treats a stored chat list holding such an escape as unparsable and keeps the current list, where the hook would load it. Theme.ThemeStore.constructor's requires excludes stored settings text holding such an escape, although the provider would load it.
- Endpoints.Remember, Endpoints.Recall and Endpoints.Status have no error branch. The 500 answers "Error storing memory: ", "Error recalling memories: " and "Error getting status: " (backend/main.py:175-177, 202-204, 225-227) are not modelled. Nothing in their `try` bodies can raise in this model: `_save_memories` catches its own errors, requests arrive already validated, and `get_memory_stats` only counts.
- JavaScript puts integer-like object keys first. This ordering is not modelled: object keys keep insertion order.
- Pydantic is modelled as strict types only. Lax coercions (such as "5" for an int) are not modelled, and only the first validation error is reported.
- Config.ParseInt does not accept underscores or non-ASCII digits, which Python's `int()` does.
- MemoryStore.Retrieve compares `user_id` by value only. A record without `user_id` is not modelled, because every stored record has one.
- ChatHook.LoadedMessages keeps the current list when the stored value parses to something other than an array of objects. The hook would set such a value anyway, and later code would fail on it.
- The hooks' user id is fixed for the life of a session, as the application passes a constant. Switching users, which re-runs the load effect, is not modelled.
- Theme.ThemeStore.constructor requires the stored settings text to parse. The provider does not catch that `JSON.parse` failure and fails to mount.
- ApiClient.ChatReply always has a response text. A `/chat` reply without `response` is not modelled.
- Theme.CurrentColors looks presets up by the colour theme's string form. Keys inherited from the object prototype (such as "constructor") are not modelled.
- React's scheduling is not modelled. Each state update is applied at once, and the effects that follow a change are folded into the method that made it. React skips a re-render when the new state is the same object; the model applies the reset anyway, which writes the same values again.
- Browser.SetStyle stores every non-empty text as the property's value. The browser's `style.setProperty` ignores a value that does not parse for the property. For a custom property such as `--color-primary`, that is text with a top-level `;` or `!`, or an unmatched closing bracket, such as a custom colour typed as "#ff0000;". The browser then keeps the previous value. So Theme.ThemeStore.ApplyTheme, Theme.ReapplyReplaces and Theme.RenderedAllLast describe the root only for colour texts the browser accepts. The browser's parsing of CSS values is not modelled.
- Concurrency is not modelled. The backend's requests and the frontend's overlapping calls are taken one at a time.
- `web_search.py`, the presentational components, voice input, the model-listing script and the test scripts are not part of this model.

## Findings

| source | as written | input that shows it | evidently intended | confidence | as-written member | corrected member |
|---|---|---|---|---|---|---|
| backend/main.py:121-144 | the 400 raised for an empty prompt inside `try` is caught by `except Exception` and re-raised as 500 | body `{"prompt": "   "}` answers 500 "Error enhancing prompt: 400: Prompt cannot be empty" | a missing or blank prompt is answered 400 "Prompt cannot be empty" | high, not executed | `Endpoints.BlankPromptAsWritten` | `Endpoints.EnhanceRejectsBlank` |

=== FILE: api_client.dfy ===
/** What the frontend sends and receives (`frontend/src/services/api.js`). A call
    either resolves with the response body or rejects with an error that may carry
    the body's `detail`. The calls themselves are parameters of the hooks. */
module ApiClient {
  import opened Wrappers
  import opened Json
  import opened Models

  /** A JSON value every object of which has distinct keys. */
  type Value = v: Json | WellFormed(v) witness JNull

  /** A rejected call, with `err.response.data.detail` when there is one. */
  datatype ApiError = ApiError(detail: Option<Json>)

  /** The `/chat` reply as the hook reads it: the text and `memories_used`. */
  datatype ChatReply = ChatReply(response: string, memoriesUsed: Option<Value>)

  /** `err.response?.data?.detail || fallback`: a truthy detail, else the
      fallback text; with a non-empty fallback the message is never falsy. */
  function ErrorMessage(e: ApiError, fallback: string): (m: Json)
    ensures e.detail.Some? && Truthy(e.detail.value) ==> m == e.detail.value
    ensures (e.detail.None? || !Truthy(e.detail.value)) ==> m == JStr(fallback)
    ensures fallback != "" ==> Truthy(m)
  {
    OrElse(e.detail, JStr(fallback))
  }

  /** The body `sendMessage` posts to `/chat`. */
  function ChatBody(message: string, userId: string, memoryEnabled: bool): Obj
  {
    [("message", JStr(message)), ("user_id", JStr(userId)), ("memory_enabled", JBool(memoryEnabled))]
  }

  /** The backend accepts what `sendMessage` posts exactly when the message is not
      empty, and reads back the same message, user and memory switch. */
  lemma ChatBodyAccepted(message: string, userId: string, memoryEnabled: bool)
    ensures message != "" ==>
      ParseChatRequest(ChatBody(message, userId, memoryEnabled)) == Ok(ChatRequest(message, userId, memoryEnabled, None))
    ensures message == "" ==> ParseChatRequest(ChatBody(message, userId, memoryEnabled)) == Err(TooShort("message"))
  {
    var body := ChatBody(message, userId, memoryEnabled);
    assert Get(body, "message") == Some(JStr(message));
    assert Get(body, "user_id") == Some(JStr(userId));
    assert Get(body, "memory_enabled") == Some(JBool(memoryEnabled));
    assert Get(body, "voice_data") == None;
    if message != "" {
      ChatRequestOf(body, message, userId, memoryEnabled);
    }
  }

  /** The body `rememberInfo` posts to `/remember`. */
  function RememberBody(key: string, value: string, userId: string, metadata: Json): Obj
  {
    [("key", JStr(key)), ("value", JStr(value)), ("user_id", JStr(userId)), ("metadata", metadata)]
  }

  /** With a non-empty key and value and no metadata (`null`, the default) or an
      object, the backend stores exactly what was sent. */
  lemma RememberBodyAccepted(key: string, value: string, userId: string, metadata: Json)
    requires key != "" && value != ""
    requires metadata.JNull? || metadata.JObj?
    ensures ParseRememberRequest(RememberBody(key, value, userId, metadata))
         == Ok(RememberRequest(key, value, userId, if metadata.JObj? then Some(metadata.members) else None))
  {
    var body := RememberBody(key, value, userId, metadata);
    assert Get(body, "key") == Some(JStr(key));
    assert Get(body, "value") == Some(JStr(value));
    assert Get(body, "user_id") == Some(JStr(userId));
    GetSkip(body, 3, "metadata");
    assert body[3..] == [("metadata", metadata)];
    assert Get(body, "metadata") == Some(metadata);
    RememberRequestOf(body, key, value, userId);
  }

  /** The body `recallMemories` posts to `/recall`. */
  function RecallBody(query: string, userId: string, limit: int): Obj
  {
    [("query", JStr(query)), ("user_id", JStr(userId)), ("limit", JNum(limit))]
  }

  /** The backend accepts a recall exactly when the query is not empty and the
      limit lies in 1..20; the frontend's default limit of 5 is accepted. */
  lemma RecallBodyAccepted(query: string, userId: string, limit: int)
    ensures ParseRecallRequest(RecallBody(query, userId, limit)).Ok?
        <==> query != "" && MinRecallLimit <= limit <= MaxRecallLimit
    ensures ParseRecallRequest(RecallBody(query, userId, limit)).Ok? ==>
              ParseRecallRequest(RecallBody(query, userId, limit)).value == RecallRequest(query, userId, limit)
  {
    var body := RecallBody(query, userId, limit);
    assert Get(body, "query") == Some(JStr(query));
    assert Get(body, "user_id") == Some(JStr(userId));
    assert Get(body, "limit") == Some(JNum(limit));
  }
}

=== FILE: browser.dfy ===
/** The two browser objects the frontend changes: `localStorage` and the document's
    root element. */
module Browser {
  import opened Wrappers

  /** `localStorage`: a string-to-string table that outlives a page load. */
  class Storage {
    var entries: map<string, string>

    constructor (entries: map<string, string>)
      ensures this.entries == entries
    {
      this.entries := entries;
    }

    /** `getItem(key)`, with `null` as None. */
    function GetItem(key: string): (r: Option<string>)
      reads this
      ensures r.Some? <==> key in entries
      ensures r.Some? ==> r.value == entries[key]
    {
      if key in entries then Some(entries[key]) else None
    }

    method SetItem(key: string, value: string)
      modifies this
      ensures entries == old(entries)[key := value]
    {
      entries := entries[key := value];
    }

    method RemoveItem(key: string)
      modifies this
      ensures entries == old(entries) - {key}
    {
      entries := entries - {key};
    }
  }

  /** `document.documentElement`: its inline style properties and its attributes. */
  class DocumentRoot {
    var style: map<string, string>
    var attributes: map<string, string>

    constructor (style: map<string, string>, attributes: map<string, string>)
      ensures this.style == style && this.attributes == attributes
    {
      this.style := style;
      this.attributes := attributes;
    }

    /** `style.setProperty(name, value)`, where an empty value (None) removes the property. */
    method SetProperty(name: string, value: Option<string>)
      modifies this
      ensures style == SetStyle(old(style), name, value)
      ensures attributes == old(attributes)
    {
      style := SetStyle(style, name, value);
    }

    method SetAttribute(name: string, value: string)
      modifies this
      ensures attributes == old(attributes)[name := value]
      ensures style == old(style)
    {
      attributes := attributes[name := value];
    }
  }

  function SetStyle(style: map<string, string>, name: string, value: Option<string>): (r: map<string, string>)
    ensures value.None? ==> name !in r
    ensures value.Some? ==> name in r && r[name] == value.value
    ensures forall n :: n != name ==> (n in r <==> n in style) && (n in r ==> r[n] == style[n])
  {
    if value.None? then style - {name} else style[name := value.value]
  }

  /** Setting two properties again overwrites what the first two settings wrote. */
  lemma SetStyleAgain(m: map<string, string>, p: string, q: string, a1: Option<string>, b1: Option<string>,
                      a2: Option<string>, b2: Option<string>)
    requires p != q
    ensures SetStyle(SetStyle(SetStyle(SetStyle(m, p, a1), q, b1), p, a2), q, b2)
         == SetStyle(SetStyle(m, p, a2), q, b2)
  {
    var x := SetStyle(SetStyle(SetStyle(SetStyle(m, p, a1), q, b1), p, a2), q, b2);
    var y := SetStyle(SetStyle(m, p, a2), q, b2);
    assert forall n :: (n in x <==> n in y) && (n in x ==> x[n] == y[n]);
  }

  /** Writing the same keys again overwrites every earlier write to them. */
  lemma OverwriteSameKeys(m: map<string, string>, t1: map<string, string>, t2: map<string, string>)
    requires t1.Keys == t2.Keys
    ensures (m + t1) + t2 == m + t2
  {
    var x := (m + t1) + t2;
    var y := m + t2;
    assert forall n :: (n in x <==> n in y) && (n in x ==> x[n] == y[n]);
  }
}

=== FILE: config.dfy ===
/** The backend's settings (`backend/config.py`), read from the process environment,
    which is a parameter here. */
module Config {
  import opened Wrappers
  import opened Text

  /** How many memories a chat turn retrieves for its context. */
  const MaxMemoryResults: nat := 5
  const GeminiModel := "models/gemini-2.0-flash-lite"
  /** The development servers of the frontend (Vite, then Create React App). */
  const ViteOrigin := "http://localhost:5173"
  const ReactOrigin := "http://localhost:3000"
  const DefaultCorsOrigins := ViteOrigin + "," + ReactOrigin
  const DefaultPort := "8000"

  datatype Settings = Settings(
    geminiApiKey: string,
    tavilyApiKey: string,
    memoryFilePath: string,
    corsOrigins: string,
    host: string,
    port: int,
    geminiModel: string,
    maxMemoryResults: nat)

  /** `int(s)` raised `ValueError` on the text of `PORT`. */
  datatype ConfigError = InvalidPort(text: string)

  /** `os.getenv(name, default)`: a variable that is set wins, even when empty. */
  function GetEnv(env: map<string, string>, name: string, default: string): string
  {
    if name in env then env[name] else default
  }

  /** Python's `int(s)` on decimal text: whitespace around, an optional sign, digits. */
  function ParseInt(s: string): (r: Option<int>)
    ensures r.Some? <==> var t := Strip(s);
      t != [] && AllDigits(t[1..]) && (IsDigit(t[0]) || ((t[0] == '-' || t[0] == '+') && |t| > 1))
  {
    var t := Strip(s);
    if t == [] then None
    else
      var digits := if t[0] == '-' || t[0] == '+' then t[1..] else t;
      if digits == [] || !AllDigits(digits) then None
      else
        var magnitude: int := DigitsValue(digits);
        Some(if t[0] == '-' then -magnitude else magnitude)
  }

  lemma StripNoSpace(s: string)
    requires s != [] && !IsSpace(s[0]) && !IsSpace(s[|s| - 1])
    ensures Strip(s) == s
  {
  }

  /** `int(str(n)) == n`. */
  lemma ParseIntToString(n: int)
    ensures ParseInt(IntToString(n)) == Some(n)
  {
    var s := IntToString(n);
    var m: nat := if n < 0 then -n else n;
    var digits := NatToString(m);
    assert !IsSpace(s[0]) && !IsSpace(s[|s| - 1]) by {
      assert IsDigit(digits[|digits| - 1]);
      if n >= 0 { assert IsDigit(digits[0]); }
    }
    StripNoSpace(s);
    if n < 0 {
      assert s[1..] == digits;
    } else {
      assert s == digits;
    }
  }

  function LoadSettings(env: map<string, string>): (r: Result<Settings, ConfigError>)
  {
    var portText := GetEnv(env, "PORT", DefaultPort);
    match ParseInt(portText)
    case None => Err(InvalidPort(portText))
    case Some(port) =>
      Ok(Settings(
        GetEnv(env, "GEMINI_API_KEY", ""),
        GetEnv(env, "TAVILY_API_KEY", ""),
        GetEnv(env, "MEMORY_FILE_PATH", "./memories.json"),
        GetEnv(env, "CORS_ORIGINS", DefaultCorsOrigins),
        GetEnv(env, "HOST", "0.0.0.0"),
        port,
        GeminiModel,
        MaxMemoryResults))
  }

  /** With an empty environment every setting takes its default, port 8000 included. */
  lemma LoadDefaults()
    ensures LoadSettings(map[]) == Ok(Settings("", "", "./memories.json", DefaultCorsOrigins,
                                              "0.0.0.0", 8000, GeminiModel, 5))
  {
    DefaultPortValue();
  }

  lemma DefaultPortValue()
    ensures ParseInt(DefaultPort) == Some(8000)
  {
    StripNoSpace(DefaultPort);
    assert DigitsValue("8") == 8;
    assert DigitsValue("80") == 80 by { assert "80"[..1] == "8"; }
    assert DigitsValue("800") == 800 by { assert "800"[..2] == "80"; }
    assert DigitsValue("8000") == 8000 by { assert "8000"[..3] == "800"; }
  }

  /** Loading fails exactly when `PORT` is set to text `int` rejects, and a port given
      as a number's decimal text is that number. */
  lemma LoadPort(env: map<string, string>)
    ensures LoadSettings(env).Err? <==> "PORT" in env && ParseInt(env["PORT"]).None?
    ensures forall n: int :: "PORT" in env && env["PORT"] == IntToString(n) ==>
              LoadSettings(env).Ok? && LoadSettings(env).value.port == n
  {
    if "PORT" !in env {
      DefaultPortValue();
    }
    forall n: int | "PORT" in env && env["PORT"] == IntToString(n)
      ensures LoadSettings(env).Ok? && LoadSettings(env).value.port == n
    {
      ParseIntToString(n);
    }
  }

  /** `cors_origins_list`: the comma-separated origins, each stripped, in their
      order in the setting. */
  function CorsOriginsList(s: Settings): (origins: seq<string>)
    ensures |origins| == Count(s.corsOrigins, ',') + 1
    ensures forall i :: 0 <= i < |origins| ==> origins[i] == Strip(SplitOn(s.corsOrigins, ',')[i])
    ensures forall i :: 0 <= i < |origins| ==> ',' !in origins[i]
    ensures forall i :: 0 <= i < |origins| ==>
              origins[i] == [] || (!IsSpace(origins[i][0]) && !IsSpace(origins[i][|origins[i]| - 1]))
  {
    var pieces := SplitOn(s.corsOrigins, ',');
    seq(|pieces|, i requires 0 <= i < |pieces| =>
      assert ',' !in pieces[i];
      Strip(pieces[i]))
  }

  /** Whenever the setting is comma-free segments joined by commas, the list holds
      those segments stripped, one per segment and in the same order. */
  lemma CorsOriginsOfSegments(s: Settings, segments: seq<string>)
    requires segments != [] && forall i :: 0 <= i < |segments| ==> ',' !in segments[i]
    requires Join(segments, ",") == s.corsOrigins
    ensures |CorsOriginsList(s)| == |segments|
    ensures forall i :: 0 <= i < |segments| ==> CorsOriginsList(s)[i] == Strip(segments[i])
  {
    SplitJoin(segments, ',');
  }

  /** Origins written without spaces around the commas join back into the setting. */
  lemma CorsOriginsRoundTrip(s: Settings)
    requires forall p :: p in SplitOn(s.corsOrigins, ',') ==> Strip(p) == p
    ensures Join(CorsOriginsList(s), ",") == s.corsOrigins
  {
    var pieces := SplitOn(s.corsOrigins, ',');
    assert CorsOriginsList(s) == pieces by {
      forall i | 0 <= i < |pieces| ensures CorsOriginsList(s)[i] == pieces[i] {
        assert pieces[i] in pieces;
      }
    }
    JoinSplitOn(s.corsOrigins, ',');
  }

  /** The default allows the two local development servers. */
  lemma DefaultCorsOriginsList(s: Settings)
    requires s.corsOrigins == DefaultCorsOrigins
    ensures CorsOriginsList(s) == ["http://localhost:5173", "http://localhost:3000"]
  {
    OriginClean(ViteOrigin);
    OriginClean(ReactOrigin);
    TwoOrigins(s, ViteOrigin, ReactOrigin);
  }

  /** An origin that begins with "http" and ends in a digit has no surrounding
      whitespace; one without commas is a single origin. */
  lemma OriginClean(o: string)
    requires |o| > 4 && o[..4] == "http" && IsDigit(o[|o| - 1])
    requires forall i :: 0 <= i < |o| ==> o[i] != ','
    ensures ',' !in o && Strip(o) == o
  {
    StripNoSpace(o);
  }

  lemma TwoOrigins(s: Settings, a: string, b: string)
    requires s.corsOrigins == a + [','] + b
    requires ',' !in a && ',' !in b && Strip(a) == a && Strip(b) == b
    ensures CorsOriginsList(s) == [a, b]
  {
    SplitAfter(a, b, ',');
    SplitWithout(b, ',');
    var origins := CorsOriginsList(s);
    assert SplitOn(s.corsOrigins, ',') == [a, b];
    assert |origins| == 2 && origins[0] == a && origins[1] == b;
  }

  /** Splitting `a + sep + b` where `a` holds no separator: `a`, then the pieces of `b`. */
  lemma {:induction false} SplitAfter(a: string, b: string, sep: char)
    requires sep !in a
    ensures SplitOn(a + [sep] + b, sep) == [a] + SplitOn(b, sep)
  {
    if a == [] {
      assert [sep] + b == a + [sep] + b;
    } else {
      assert (a + [sep] + b)[1..] == a[1..] + [sep] + b;
      SplitAfter(a[1..], b, sep);
      assert [a[0]] + a[1..] == a;
    }
  }

  /** Splitting undoes joining separator-free pieces. */
  lemma {:induction false} SplitJoin(pieces: seq<string>, sep: char)
    requires pieces != [] && forall i :: 0 <= i < |pieces| ==> sep !in pieces[i]
    ensures SplitOn(Join(pieces, [sep]), sep) == pieces
  {
    if |pieces| == 1 {
      SplitWithout(pieces[0], sep);
    } else {
      SplitJoin(pieces[1..], sep);
      SplitAfter(pieces[0], Join(pieces[1..], [sep]), sep);
      assert [pieces[0]] + pieces[1..] == pieces;
    }
  }

  lemma {:induction false} SplitWithout(s: string, sep: char)
    requires sep !in s
    ensures SplitOn(s, sep) == [s]
  {
    if s != [] {
      SplitWithout(s[1..], sep);
      assert [s[0]] + s[1..] == s;
    }
  }

  /** `validate_settings`: the error it raises, if any. */
  function ValidateSettings(s: Settings): (error: Option<string>)
  {
    if s.geminiApiKey == "" then Some("GEMINI_API_KEY environment variable is required") else None
  }

  /** Start-up fails exactly when `GEMINI_API_KEY` is unset or empty. */
  lemma ValidateLoaded(env: map<string, string>)
    requires LoadSettings(env).Ok?
    ensures ValidateSettings(LoadSettings(env).value).Some?
        <==> "GEMINI_API_KEY" !in env || env["GEMINI_API_KEY"] == ""
  {
  }
}

=== FILE: conversation_handler.dfy ===
/** One chat turn (`backend/conversation_handler.py`): retrieve the user's relevant
    memories, build the prompt around them, ask the language model, and keep the
    message when it is memory-worthy. The language model is a parameter: a function
    from the prompt to the reply text or the text of the error it raised. */
module Conversation {
  import opened Wrappers
  import opened Text
  import opened MemoryStore
  import Config

  const SystemPrompt :=
    "You are Memora, a helpful AI assistant with long-term memory capabilities. \n"
    + "You can remember information about the user across conversations and use that context to provide \n"
    + "more personalized and relevant responses.\n\n"
    + "When relevant memories are provided, use them naturally in your responses. If you don't have \n"
    + "specific information in your memory, be honest about it rather than making assumptions.\n\n"
    + "Be conversational, friendly, and helpful."

  const ContextHeader := "Here's what I remember about our previous conversations:\n"

  /** The line for the memory numbered `index`: its content and the first ten
      characters of its timestamp, or of "unknown time" when it has none. */
  function ContextLine(index: nat, m: Memory): string
  {
    NatToString(index) + ". " + m.content + " (from " + Prefix(m.timestamp.GetOr("unknown time"), 10) + ")"
  }

  /** The header, then the memories numbered from 1 in the order given. */
  function ContextParts(ms: seq<Memory>): (parts: seq<string>)
    ensures |parts| == |ms| + 1 && parts[0] == ContextHeader
    ensures forall i :: 0 <= i < |ms| ==> parts[i + 1] == ContextLine(i + 1, ms[i])
  {
    [ContextHeader] + seq(|ms|, i requires 0 <= i < |ms| => ContextLine(i + 1, ms[i]))
  }

  /** The context block; empty when there are no memories. */
  function MemoryContext(ms: seq<Memory>): string
  {
    if ms == [] then "" else Join(ContextParts(ms), "\n")
  }

  /** The context for one memory is the header, a blank line and its line. */
  lemma ContextOfOne(m: Memory)
    ensures MemoryContext([m]) == ContextHeader + "\n" + ContextLine(1, m)
  {
    var parts := ContextParts([m]);
    assert parts == [ContextHeader, ContextLine(1, m)];
    assert parts[1..] == [ContextLine(1, m)];
    assert Join(parts[1..], "\n") == ContextLine(1, m);
  }

  lemma ContextPartsSnoc(ms: seq<Memory>, m: Memory)
    ensures ContextParts(ms + [m]) == ContextParts(ms) + [ContextLine(|ms| + 1, m)]
  {
    var l := ContextParts(ms + [m]);
    var r := ContextParts(ms) + [ContextLine(|ms| + 1, m)];
    forall i | 1 <= i < |l| ensures l[i] == r[i] {
      assert (ms + [m])[i - 1] == if i <= |ms| then ms[i - 1] else m;
    }
  }

  /** One more memory adds one line, numbered after the others. */
  lemma ContextExtend(ms: seq<Memory>, m: Memory)
    requires ms != []
    ensures MemoryContext(ms + [m]) == MemoryContext(ms) + "\n" + ContextLine(|ms| + 1, m)
  {
    ContextPartsSnoc(ms, m);
    JoinSnoc(ContextParts(ms), ContextLine(|ms| + 1, m), "\n");
  }

  /** A memory without a timestamp is dated "unknown ti". */
  lemma ContextLineUnknownTime(index: nat, m: Memory)
    requires m.timestamp.None?
    ensures ContextLine(index, m) == NatToString(index) + ". " + m.content + " (from unknown ti)"
  {
    assert Prefix("unknown time", 10) == "unknown ti";
  }

  /** The context block with the blank line that separates it from the instructions. */
  function ContextSection(ms: seq<Memory>): string
  {
    "\n\n" + MemoryContext(ms)
  }

  /** The user's message and the cue for the reply. */
  function UserSection(userMessage: string): string
  {
    "\n\nUser: " + userMessage + "\n\nAssistant:"
  }

  /** The prompt: instructions, the context block when there are memories, then
      the user's message. */
  function Prompt(userMessage: string, memoriesUsed: seq<Memory>): string
  {
    if memoriesUsed == [] then SystemPrompt + UserSection(userMessage)
    else SystemPrompt + ContextSection(memoriesUsed) + UserSection(userMessage)
  }

  /** The model sees the user's message and the content of every memory used. */
  lemma PromptMentions(userMessage: string, ms: seq<Memory>)
    ensures Contains(Prompt(userMessage, ms), userMessage)
    ensures forall i :: 0 <= i < |ms| ==> Contains(Prompt(userMessage, ms), ms[i].content)
  {
    ContainsSelf(userMessage);
    ContainsRight("\n\nUser: ", userMessage, userMessage);
    ContainsLeft("\n\nUser: " + userMessage, "\n\nAssistant:", userMessage);
    if ms == [] {
      ContainsRight(SystemPrompt, UserSection(userMessage), userMessage);
    } else {
      ContainsRight(SystemPrompt + ContextSection(ms), UserSection(userMessage), userMessage);
    }
    forall i | 0 <= i < |ms| ensures Contains(Prompt(userMessage, ms), ms[i].content) {
      PromptMentionsMemory(userMessage, ms, i);
    }
  }

  lemma LineMentions(index: nat, m: Memory)
    ensures Contains(ContextLine(index, m), m.content)
  {
    var head := NatToString(index) + ". ";
    var tail := " (from " + Prefix(m.timestamp.GetOr("unknown time"), 10) + ")";
    ContainsSelf(m.content);
    ContainsRight(head, m.content, m.content);
    ContainsLeft(head + m.content, " (from ", m.content);
    ContainsLeft(head + m.content + " (from ", Prefix(m.timestamp.GetOr("unknown time"), 10), m.content);
    ContainsLeft(head + m.content + " (from " + Prefix(m.timestamp.GetOr("unknown time"), 10), ")", m.content);
  }

  lemma PromptMentionsMemory(userMessage: string, ms: seq<Memory>, i: nat)
    requires i < |ms|
    ensures Contains(Prompt(userMessage, ms), ms[i].content)
  {
    var line := ContextLine(i + 1, ms[i]);
    LineMentions(i + 1, ms[i]);
    JoinContains(ContextParts(ms), "\n", i + 1);
    ContainsTrans(MemoryContext(ms), line, ms[i].content);
    ContainsRight("\n\n", MemoryContext(ms), ms[i].content);
    ContainsRight(SystemPrompt, ContextSection(ms), ms[i].content);
    ContainsLeft(SystemPrompt + ContextSection(ms), UserSection(userMessage), ms[i].content);
  }

  lemma ContainsTrans(big: string, mid: string, small: string)
    requires Contains(big, mid) && Contains(mid, small)
    ensures Contains(big, small)
  {
    var i :| 0 <= i <= |big| && MatchAt(big, mid, i);
    ContainsWithin(big[..i], mid, big[i + |mid|..], small);
    assert big[..i] + mid + big[i + |mid|..] == big;
  }

  /** What a turn returns (the reply and the memories used, or the error) and the
      memory list after it. */
  datatype Turn = Turn(outcome: Result<(string, seq<Memory>), string>, memories: seq<Memory>)

  /** The memories a turn puts in front of the model. */
  function MemoriesUsed(memories: seq<Memory>, userMessage: string, userId: string, memoryEnabled: bool): seq<Memory>
  {
    if memoryEnabled then Retrieve(memories, userMessage, userId, Config.MaxMemoryResults) else []
  }

  function ChatTurn(memories: seq<Memory>, userMessage: string, userId: string, memoryEnabled: bool,
                    generate: string -> Result<string, string>, id: string, timestamp: string): Turn
  {
    var used := MemoriesUsed(memories, userMessage, userId, memoryEnabled);
    match generate(Prompt(userMessage, used))
    case Err(e) => Turn(Err(e), memories)
    case Ok(text) =>
      var stored := if memoryEnabled && IsMemoryWorthy(userMessage)
                    then [ConversationMemory(userMessage, text, userId, id, timestamp)] else [];
      Turn(Ok((text, used)), memories + stored)
  }

  /** With memory off, nothing is retrieved and nothing is stored. */
  lemma TurnWithoutMemory(memories: seq<Memory>, userMessage: string, userId: string,
                          generate: string -> Result<string, string>, id: string, timestamp: string)
    ensures var t := ChatTurn(memories, userMessage, userId, false, generate, id, timestamp);
      t.memories == memories && (t.outcome.Ok? ==> t.outcome.value.1 == [])
      && generate(Prompt(userMessage, [])).Ok? == t.outcome.Ok?
  {
  }

  /** A turn whose model call fails stores nothing; a successful one stores at most
      the message, and only when memory is on and the message is worthy. */
  lemma TurnStorage(memories: seq<Memory>, userMessage: string, userId: string, memoryEnabled: bool,
                    generate: string -> Result<string, string>, id: string, timestamp: string)
    ensures var t := ChatTurn(memories, userMessage, userId, memoryEnabled, generate, id, timestamp);
      && memories <= t.memories
      && (t.outcome.Err? ==> t.memories == memories)
      && (|t.memories| == |memories| + 1 <==> t.outcome.Ok? && memoryEnabled && IsMemoryWorthy(userMessage))
      && (|t.memories| == |memories| + 1 ==>
            t.memories[|memories|] == ConversationMemory(userMessage, t.outcome.value.0, userId, id, timestamp))
  {
  }

  /** The context holds at most five of the user's own stored memories, best
      overlap first, retrieved before the message itself is stored. */
  lemma TurnContext(memories: seq<Memory>, userMessage: string, userId: string, memoryEnabled: bool,
                    generate: string -> Result<string, string>, id: string, timestamp: string)
    requires forall m :: m in memories ==> m.id != id
    ensures var t := ChatTurn(memories, userMessage, userId, memoryEnabled, generate, id, timestamp);
      t.outcome.Ok? ==>
        var used := t.outcome.value.1;
        && |used| <= Config.MaxMemoryResults
        && (forall m :: m in used ==> m in memories && m.userId == userId && m.id != id)
        && (forall i, j :: 0 <= i < j < |used| ==>
              Overlap(userMessage, used[i].content) >= Overlap(userMessage, used[j].content))
  {
    if memoryEnabled {
      RetrieveSound(memories, userMessage, userId, Config.MaxMemoryResults);
      RetrieveCount(memories, userMessage, userId, Config.MaxMemoryResults);
      RetrieveOrdered(memories, userMessage, userId, Config.MaxMemoryResults);
    }
  }

  class ConversationHandler {
    const memoryManager: MemoryManager

    constructor (memoryManager: MemoryManager)
      ensures this.memoryManager == memoryManager
    {
      this.memoryManager := memoryManager;
    }

    method FormatMemoriesForContext(memories: seq<Memory>) returns (context: string)
      ensures context == MemoryContext(memories)
    {
      if memories == [] {
        return "";
      }
      var parts := [ContextHeader];
      for i := 0 to |memories|
        invariant parts == ContextParts(memories[..i])
      {
        var timestamp := if memories[i].timestamp.Some? then memories[i].timestamp.value else "unknown time";
        var line := NatToString(i + 1) + ". " + memories[i].content + " (from " + Prefix(timestamp, 10) + ")";
        assert line == ContextLine(i + 1, memories[i]);
        parts := parts + [line];
        assert memories[..i + 1] == memories[..i] + [memories[i]];
        ContextPartsSnoc(memories[..i], memories[i]);
      }
      assert memories[..|memories|] == memories;
      context := Join(parts, "\n");
    }

    method GenerateResponse(userMessage: string, userId: string, memoryEnabled: bool,
                            generate: string -> Result<string, string>, id: string, timestamp: string)
      returns (outcome: Result<(string, seq<Memory>), string>)
      modifies memoryManager
      ensures var t := ChatTurn(old(memoryManager.memories), userMessage, userId, memoryEnabled, generate, id, timestamp);
        outcome == t.outcome && memoryManager.memories == t.memories
    {
      ghost var before := memoryManager.memories;
      var memoriesUsed := [];
      if memoryEnabled {
        memoriesUsed := memoryManager.RetrieveMemories(userMessage, userId, Config.MaxMemoryResults);
      }
      assert memoriesUsed == MemoriesUsed(before, userMessage, userId, memoryEnabled);
      var fullPrompt := SystemPrompt;
      if memoriesUsed != [] {
        var memoryContext := FormatMemoriesForContext(memoriesUsed);
        fullPrompt := fullPrompt + ("\n\n" + memoryContext);
      }
      fullPrompt := fullPrompt + ("\n\nUser: " + userMessage + "\n\nAssistant:");
      assert fullPrompt == Prompt(userMessage, memoriesUsed);
      var response := generate(fullPrompt);
      if response.Err? {
        return Err(response.error);
      }
      var responseText := response.value;
      if memoryEnabled {
        var _ := memoryManager.ProcessConversationForMemory(userMessage, responseText, userId, id, timestamp);
      }
      outcome := Ok((responseText, memoriesUsed));
    }
  }
}

=== FILE: json.dfy ===
/** The dynamic values the core passes around: JSON documents, JavaScript objects
    and Python dicts. An object is an association list in insertion order, which is
    the order both JavaScript and Python give to an object's keys. */
module Json {
  import opened Wrappers
  import Text

  datatype Json =
    | JNull
    | JBool(b: bool)
    | JNum(n: int)
    | JStr(s: string)
    | JArr(items: seq<Json>)
    | JObj(members: Obj)

  type Obj = seq<(string, Json)>

  function Keys(o: Obj): (ks: seq<string>)
    ensures |ks| == |o|
    ensures forall i :: 0 <= i < |o| ==> ks[i] == o[i].0
  {
    if o == [] then [] else [o[0].0] + Keys(o[1..])
  }

  lemma KeysAppend(a: Obj, b: Obj)
    ensures Keys(a + b) == Keys(a) + Keys(b)
  {
  }

  predicate DistinctKeys(o: Obj)
  {
    forall i, j :: 0 <= i < j < |o| ==> o[i].0 != o[j].0
  }

  /** Every object inside the value has distinct keys, as every object that
      JavaScript or Python can build does. */
  predicate WellFormed(v: Json)
  {
    match v
    case JArr(items) => forall i :: 0 <= i < |items| ==> WellFormed(items[i])
    case JObj(ms) => WellFormedObj(ms)
    case _ => true
  }

  predicate WellFormedObj(o: Obj)
    decreases o, 2
  {
    DistinctKeys(o) && ValuesWellFormed(o)
  }

  predicate ValuesWellFormed(o: Obj)
    decreases o, 1
  {
    forall i :: 0 <= i < |o| ==> WellFormedMember(o, i)
  }

  predicate WellFormedMember(o: Obj, i: nat)
    requires i < |o|
    decreases o, 0
  {
    var m := o[i];
    assert m in o;
    assert m.1 < m;
    WellFormed(m.1)
  }

  /** `o[k]` (`undefined` / `KeyError` as None). */
  function Get(o: Obj, k: string): (r: Option<Json>)
    ensures r.Some? <==> k in Keys(o)
    ensures r.Some? ==> (k, r.value) in o
  {
    if o == [] then None else if o[0].0 == k then Some(o[0].1) else Get(o[1..], k)
  }

  /** A value looked up in a well-formed object is well-formed. */
  lemma GetWellFormed(o: Obj, k: string)
    requires ValuesWellFormed(o) && Get(o, k).Some?
    ensures WellFormed(Get(o, k).value)
  {
    var i :| 0 <= i < |o| && o[i] == (k, Get(o, k).value);
    assert WellFormedMember(o, i);
  }

  /** `o[k] = v`: an existing key keeps its position and takes the new value,
      a new key goes at the end. */
  function Assign(o: Obj, k: string, v: Json): Obj
  {
    if o == [] then [(k, v)]
    else if o[0].0 == k then [(k, v)] + o[1..]
    else [o[0]] + Assign(o[1..], k, v)
  }

  /** A new key is appended. */
  lemma {:induction false} AssignNew(o: Obj, k: string, v: Json)
    requires k !in Keys(o)
    ensures Assign(o, k, v) == o + [(k, v)]
  {
    if o != [] {
      assert Keys(o)[0] == o[0].0;
      assert k !in Keys(o[1..]) by {
        forall i | 0 <= i < |o| - 1 ensures Keys(o[1..])[i] != k {
          assert Keys(o[1..])[i] == Keys(o)[i + 1];
        }
      }
      AssignNew(o[1..], k, v);
      assert [o[0]] + (o[1..] + [(k, v)]) == o + [(k, v)];
    }
  }

  lemma {:induction false} AssignGet(o: Obj, k: string, v: Json, k': string)
    ensures Get(Assign(o, k, v), k') == if k' == k then Some(v) else Get(o, k')
  {
    if o != [] && o[0].0 != k {
      AssignGet(o[1..], k, v, k');
    }
  }

  lemma {:induction false} AssignKeys(o: Obj, k: string, v: Json)
    ensures Keys(Assign(o, k, v)) == if k in Keys(o) then Keys(o) else Keys(o) + [k]
  {
    if o != [] && o[0].0 != k {
      AssignKeys(o[1..], k, v);
      KeysAppend([o[0]], Assign(o[1..], k, v));
    }
  }

  lemma KeysDistinct(o: Obj)
    ensures DistinctKeys(o) <==> forall i, j :: 0 <= i < j < |Keys(o)| ==> Keys(o)[i] != Keys(o)[j]
  {
    var ks := Keys(o);
    if DistinctKeys(o) {
      forall i, j | 0 <= i < j < |ks| ensures ks[i] != ks[j] {
        assert ks[i] == o[i].0 && ks[j] == o[j].0;
      }
    } else {
      var i, j :| 0 <= i < j < |o| && o[i].0 == o[j].0;
      assert i < j < |Keys(o)| && Keys(o)[i] == o[i].0 && Keys(o)[j] == o[j].0;
    }
  }

  lemma AssignKeepsDistinct(o: Obj, k: string, v: Json)
    requires DistinctKeys(o)
    ensures DistinctKeys(Assign(o, k, v))
  {
    AssignKeys(o, k, v);
    KeysDistinct(o);
    KeysDistinct(Assign(o, k, v));
  }

  /** `{...a, ...b}` in JavaScript and `{**a, **b}` in Python: the keys of `b`
      assigned one by one over `a`. */
  function Merge(a: Obj, b: Obj): Obj
    decreases |b|
  {
    if b == [] then a else Merge(Assign(a, b[0].0, b[0].1), b[1..])
  }

  /** A key is in a merge exactly when it is in one of the two objects. */
  lemma {:induction false} MergeHasKey(a: Obj, b: Obj, k: string)
    ensures k in Keys(Merge(a, b)) <==> k in Keys(a) || k in Keys(b)
    decreases |b|
  {
    if b != [] {
      MergeHasKey(Assign(a, b[0].0, b[0].1), b[1..], k);
      AssignKeys(a, b[0].0, b[0].1);
      assert Keys(b) == [b[0].0] + Keys(b[1..]);
    }
  }

  /** The keys of `a` open the keys of a merge, in their order. */
  lemma {:induction false} MergeKeysPrefix(a: Obj, b: Obj)
    ensures Keys(a) <= Keys(Merge(a, b))
    decreases |b|
  {
    if b != [] {
      var a' := Assign(a, b[0].0, b[0].1);
      MergeKeysPrefix(a', b[1..]);
      AssignKeys(a, b[0].0, b[0].1);
      assert Keys(a) <= Keys(a');
    }
  }

  lemma {:induction false} MergeKeepsDistinct(a: Obj, b: Obj)
    requires DistinctKeys(a)
    ensures DistinctKeys(Merge(a, b))
    decreases |b|
  {
    if b != [] {
      AssignKeepsDistinct(a, b[0].0, b[0].1);
      MergeKeepsDistinct(Assign(a, b[0].0, b[0].1), b[1..]);
    }
  }

  /** Merging keeps every key of `a` in its place, appends the new keys of `b`, and
      keeps distinct keys distinct. */
  lemma MergeSpec(a: Obj, b: Obj)
    ensures var r := Merge(a, b);
      && (forall k :: k in Keys(r) <==> k in Keys(a) || k in Keys(b))
      && |Keys(a)| <= |Keys(r)| && Keys(r)[..|Keys(a)|] == Keys(a)
      && (DistinctKeys(a) ==> DistinctKeys(r))
  {
    forall k ensures k in Keys(Merge(a, b)) <==> k in Keys(a) || k in Keys(b) {
      MergeHasKey(a, b, k);
    }
    MergeKeysPrefix(a, b);
    if DistinctKeys(a) {
      MergeKeepsDistinct(a, b);
    }
  }

  /** The first key of an object with distinct keys does not come again, and the
      rest of the object has distinct keys too. */
  lemma DistinctTail(b: Obj)
    requires b != [] && DistinctKeys(b)
    ensures b[0].0 !in Keys(b[1..]) && DistinctKeys(b[1..])
  {
    var t := b[1..];
    forall j | 0 <= j < |t| ensures Keys(t)[j] != b[0].0 {
      assert t[j] == b[j + 1];
    }
    forall i, j | 0 <= i < j < |t| ensures t[i].0 != t[j].0 {
      assert t[i] == b[i + 1] && t[j] == b[j + 1];
    }
  }

  /** After a merge, a key of `b` has its value in `b`, any other key its value in `a`. */
  lemma {:induction false} MergeGet(a: Obj, b: Obj, k: string)
    requires DistinctKeys(b)
    ensures Get(Merge(a, b), k) == if k in Keys(b) then Get(b, k) else Get(a, k)
    decreases |b|
  {
    if b != [] {
      DistinctTail(b);
      var a' := Assign(a, b[0].0, b[0].1);
      MergeGet(a', b[1..], k);
      AssignGet(a, b[0].0, b[0].1, k);
      assert Keys(b) == [b[0].0] + Keys(b[1..]);
    }
  }

  /** Merging objects whose keys are all different concatenates them. */
  lemma {:induction false} MergeDisjoint(a: Obj, b: Obj)
    requires DistinctKeys(a + b)
    ensures Merge(a, b) == a + b
    decreases |b|
  {
    if b != [] {
      forall i | 0 <= i < |a| ensures Keys(a)[i] != b[0].0 {
        assert (a + b)[i] == a[i] && (a + b)[|a|] == b[0];
      }
      AssignNew(a, b[0].0, b[0].1);
      assert (a + [b[0]]) + b[1..] == a + b;
      MergeDisjoint(a + [b[0]], b[1..]);
    }
  }

  lemma {:induction false} AssignValuesWellFormed(o: Obj, k: string, v: Json)
    requires ValuesWellFormed(o) && WellFormed(v)
    ensures ValuesWellFormed(Assign(o, k, v))
  {
    var r := Assign(o, k, v);
    if o == [] {
      assert WellFormedMember(r, 0);
    } else if o[0].0 == k {
      forall i | 0 <= i < |r| ensures WellFormedMember(r, i) {
        if i > 0 { assert WellFormedMember(o, i); }
      }
    } else {
      forall i | 0 <= i < |o[1..]| ensures WellFormedMember(o[1..], i) {
        assert WellFormedMember(o, i + 1);
      }
      AssignValuesWellFormed(o[1..], k, v);
      var tail := Assign(o[1..], k, v);
      forall i | 0 <= i < |r| ensures WellFormedMember(r, i) {
        if i == 0 { assert WellFormedMember(o, 0); }
        else { assert WellFormedMember(tail, i - 1); }
      }
    }
  }

  /** Merging well-formed objects gives a well-formed object. */
  lemma {:induction false} MergeWellFormed(a: Obj, b: Obj)
    requires ValuesWellFormed(a) && ValuesWellFormed(b)
    ensures ValuesWellFormed(Merge(a, b))
    ensures DistinctKeys(a) ==> WellFormedObj(Merge(a, b))
    decreases |b|
  {
    MergeSpec(a, b);
    if b != [] {
      var m := b[0];
      assert m in b;
      assert m.1 < m;
      assert WellFormedMember(b, 0);
      AssignValuesWellFormed(a, m.0, m.1);
      forall i | 0 <= i < |b[1..]| ensures WellFormedMember(b[1..], i) {
        assert WellFormedMember(b, i + 1);
      }
      MergeWellFormed(Assign(a, m.0, m.1), b[1..]);
    }
  }

  /** A lookup passes over leading members with other keys. */
  lemma {:induction false} GetSkip(o: Obj, n: nat, k: string)
    requires n <= |o|
    requires forall i :: 0 <= i < n ==> o[i].0 != k
    ensures Get(o, k) == Get(o[n..], k)
  {
    if n > 0 {
      assert o[1..][n - 1..] == o[n..];
      GetSkip(o[1..], n - 1, k);
    }
  }

  /** Assigning to the key at position `n`, which no earlier member has, replaces
      that member in place. */
  lemma {:induction false} AssignAt(o: Obj, n: nat, v: Json)
    requires n < |o|
    requires forall i :: 0 <= i < n ==> o[i].0 != o[n].0
    ensures Assign(o, o[n].0, v) == o[n := (o[n].0, v)]
  {
    var k := o[n].0;
    if n == 0 {
      assert [(k, v)] + o[1..] == o[0 := (k, v)];
    } else {
      var t := o[1..];
      assert t[n - 1] == o[n];
      forall i | 0 <= i < n - 1 ensures t[i].0 != k {
        assert t[i] == o[i + 1];
      }
      AssignAt(t, n - 1, v);
      assert o[0].0 != k;
      assert [o[0]] + t[n - 1 := (k, v)] == o[n := (k, v)];
    }
  }

  /** In an object with distinct keys, looking up a member's key finds that member. */
  lemma {:induction false} GetAt(o: Obj, i: nat)
    requires DistinctKeys(o) && i < |o|
    ensures Get(o, o[i].0) == Some(o[i].1)
  {
    if i > 0 {
      assert o[0].0 != o[i].0;
      assert DistinctKeys(o[1..]) by {
        forall a, b | 0 <= a < b < |o[1..]| ensures o[1..][a].0 != o[1..][b].0 {
          assert o[a + 1].0 != o[b + 1].0;
        }
      }
      GetAt(o[1..], i - 1);
    }
  }

  /** Objects with the same distinct keys in the same order and the same lookups
      are equal. */
  lemma ObjEqual(x: Obj, y: Obj)
    requires Keys(x) == Keys(y) && DistinctKeys(x)
    requires forall k :: Get(x, k) == Get(y, k)
    ensures x == y
  {
    assert DistinctKeys(y) by {
      forall a, b | 0 <= a < b < |y| ensures y[a].0 != y[b].0 {
        assert Keys(x)[a] == Keys(y)[a] && Keys(x)[b] == Keys(y)[b];
      }
    }
    forall i | 0 <= i < |x| ensures x[i] == y[i] {
      assert Keys(x)[i] == Keys(y)[i];
      GetAt(x, i);
      GetAt(y, i);
    }
  }

  /** Spreading an object whose keys all exist already keeps the keys and their order. */
  lemma {:induction false} MergeExisting(a: Obj, b: Obj)
    requires forall k :: k in Keys(b) ==> k in Keys(a)
    ensures Keys(Merge(a, b)) == Keys(a)
    decreases |b|
  {
    if b != [] {
      assert b[0].0 == Keys(b)[0];
      AssignKeys(a, b[0].0, b[0].1);
      forall k | k in Keys(b[1..]) ensures k in Keys(Assign(a, b[0].0, b[0].1)) {
        var j :| 0 <= j < |Keys(b[1..])| && Keys(b[1..])[j] == k;
        assert Keys(b)[j + 1] == k;
      }
      MergeExisting(Assign(a, b[0].0, b[0].1), b[1..]);
    }
  }

  /** Two spreads over existing keys commute when they share no key. */
  lemma MergeCommutes(s: Obj, p: Obj, q: Obj)
    requires DistinctKeys(s) && DistinctKeys(p) && DistinctKeys(q)
    requires forall k :: k in Keys(p) ==> k in Keys(s) && k !in Keys(q)
    requires forall k :: k in Keys(q) ==> k in Keys(s)
    ensures Merge(Merge(s, p), q) == Merge(Merge(s, q), p)
  {
    var x := Merge(Merge(s, p), q);
    var y := Merge(Merge(s, q), p);
    MergeExisting(s, p);
    MergeExisting(s, q);
    MergeExisting(Merge(s, p), q);
    MergeExisting(Merge(s, q), p);
    MergeSpec(s, p);
    MergeSpec(Merge(s, p), q);
    forall k ensures Get(x, k) == Get(y, k) {
      MergeGet(Merge(s, p), q, k);
      MergeGet(s, p, k);
      MergeGet(Merge(s, q), p, k);
      MergeGet(s, q, k);
    }
    ObjEqual(x, y);
  }

  /** Spreading an object over one with the same keys in the same order gives
      the spread object back. */
  lemma MergeSameKeys(d: Obj, s: Obj)
    requires Keys(s) == Keys(d) && DistinctKeys(s)
    ensures Merge(d, s) == s
  {
    MergeExisting(d, s);
    forall k ensures Get(Merge(d, s), k) == Get(s, k) {
      MergeGet(d, s, k);
    }
    MergeSpec(d, s);
    ObjEqual(Merge(d, s), s);
  }

  // ---------------------------------------------------------------------------
  // JavaScript conversions

  /** JavaScript truthiness: `null`, `false`, `0` and `""` are falsy. */
  predicate Truthy(v: Json)
  {
    match v
    case JNull => false
    case JBool(b) => b
    case JNum(n) => n != 0
    case JStr(s) => s != ""
    case _ => true
  }

  /** JavaScript `x || fallback` on an optional value (`undefined` as None). */
  function OrElse(x: Option<Json>, fallback: Json): (r: Json)
    ensures x.Some? && Truthy(x.value) ==> r == x.value
    ensures (x.None? || !Truthy(x.value)) ==> r == fallback
  {
    if x.Some? && Truthy(x.value) then x.value else fallback
  }

  /** `String(v)`, as a template literal `${v}` converts a value. */
  function ToJsString(v: Json): string
    decreases v, 1
  {
    match v
    case JNull => "null"
    case JBool(b) => if b then "true" else "false"
    case JNum(n) => Text.IntToString(n)
    case JStr(s) => s
    case JArr(items) => Text.Join(seq(|items|, i requires 0 <= i < |items| => ArrayElementString(items[i])), ",")
    case JObj(_) => "[object Object]"
  }

  /** `Array.prototype.join` renders `null` elements as the empty string. */
  function ArrayElementString(v: Json): string
    decreases v, 2
  {
    if v.JNull? then "" else ToJsString(v)
  }
}

=== FILE: json_codec.dfy ===
/** JSON text: `JSON.stringify` and `JSON.parse`, with the round trip between them. */
module JsonCodec {
  import opened Wrappers
  import opened Json
  import Text

  // ---------------------------------------------------------------------------
  // Encoding

  function HexDigit(d: nat): (c: char)
    requires d < 16
  {
    if d < 10 then ('0' as int + d) as char else ('a' as int + d - 10) as char
  }

  /** How a character is written inside a JSON string literal. */
  function EscapeChar(c: char): (r: string)
    ensures r != []
  {
    if c == '"' then "\\\""
    else if c == '\\' then "\\\\"
    else if c == '\U{8}' then "\\b"
    else if c == '\U{c}' then "\\f"
    else if c == '\n' then "\\n"
    else if c == '\r' then "\\r"
    else if c == '\t' then "\\t"
    else if (c as int) < 0x20 then "\\u00" + [HexDigit(c as int / 16), HexDigit(c as int % 16)]
    else [c]
  }

  function EncodeChars(s: string): string
  {
    if s == [] then "" else EscapeChar(s[0]) + EncodeChars(s[1..])
  }

  function EncodeString(s: string): string
  {
    "\"" + EncodeChars(s) + "\""
  }

  /** `JSON.stringify(v)`. */
  function Encode(v: Json): (r: string)
    ensures r != []
  {
    match v
    case JNull => "null"
    case JBool(b) => if b then "true" else "false"
    case JNum(n) => Text.IntToString(n)
    case JStr(s) => EncodeString(s)
    case JArr(items) => "[" + EncodeItems(items) + "]"
    case JObj(ms) => "{" + EncodeMembers(ms) + "}"
  }

  function EncodeItems(items: seq<Json>): string
  {
    if items == [] then ""
    else Encode(items[0]) + (if |items| == 1 then "" else "," + EncodeItems(items[1..]))
  }

  function EncodeMembers(ms: Obj): string
  {
    if ms == [] then ""
    else
      var m := ms[0];
      assert m in ms;
      assert m.1 < m;
      EncodeString(m.0) + ":" + Encode(m.1) + (if |ms| == 1 then "" else "," + EncodeMembers(ms[1..]))
  }

  // ---------------------------------------------------------------------------
  // Decoding

  predicate IsJsonSpace(c: char)
  {
    c == ' ' || c == '\t' || c == '\n' || c == '\r'
  }

  function SkipSpace(s: string): (r: string)
    ensures |r| <= |s|
    ensures r == [] || !IsJsonSpace(r[0])
  {
    if s != [] && IsJsonSpace(s[0]) then SkipSpace(s[1..]) else s
  }

  predicate IsHexDigit(c: char)
  {
    Text.IsDigit(c) || ('a' <= c <= 'f') || ('A' <= c <= 'F')
  }

  function HexValue(c: char): (d: nat)
    requires IsHexDigit(c)
    ensures d < 16
  {
    if Text.IsDigit(c) then c as int - '0' as int
    else if 'a' <= c <= 'f' then c as int - 'a' as int + 10
    else c as int - 'A' as int + 10
  }

  /** The character an escape sequence stands for (the text after the backslash),
      and how many characters the sequence takes. */
  function Unescape(s: string): (r: Option<(char, nat)>)
    ensures r.Some? ==> 1 <= r.value.1 <= |s|
  {
    if s == [] then None
    else if s[0] == '"' then Some(('"', 1))
    else if s[0] == '\\' then Some(('\\', 1))
    else if s[0] == '/' then Some(('/', 1))
    else if s[0] == 'b' then Some(('\U{8}', 1))
    else if s[0] == 'f' then Some(('\U{c}', 1))
    else if s[0] == 'n' then Some(('\n', 1))
    else if s[0] == 'r' then Some(('\r', 1))
    else if s[0] == 't' then Some(('\t', 1))
    else if s[0] == 'u' && |s| >= 5 && IsHexDigit(s[1]) && IsHexDigit(s[2]) && IsHexDigit(s[3]) && IsHexDigit(s[4]) then
      var code := 4096 * HexValue(s[1]) + 256 * HexValue(s[2]) + 16 * HexValue(s[3]) + HexValue(s[4]);
      if 0xD800 <= code < 0xE000 then None else Some((code as char, 5))
    else None
  }

  /** The body of a string literal up to its closing quote, and what follows it. */
  function ParseChars(s: string): (r: Option<(string, string)>)
    ensures r.Some? ==> |r.value.1| < |s|
    decreases |s|
  {
    if s == [] then None
    else if s[0] == '"' then Some(("", s[1..]))
    else if s[0] == '\\' then
      match Unescape(s[1..])
      case None => None
      case Some((c, n)) =>
        match ParseChars(s[1 + n..])
        case None => None
        case Some((body, rest)) => Some(([c] + body, rest))
    else if (s[0] as int) < 0x20 then None
    else
      match ParseChars(s[1..])
      case None => None
      case Some((body, rest)) => Some(([s[0]] + body, rest))
  }

  function LeadingDigits(s: string): (n: nat)
    ensures n <= |s|
    ensures Text.AllDigits(s[..n])
    ensures n < |s| ==> !Text.IsDigit(s[n])
  {
    if s != [] && Text.IsDigit(s[0]) then
      var n := 1 + LeadingDigits(s[1..]);
      assert s[..n] == [s[0]] + s[1..][..n - 1];
      n
    else 0
  }

  /** A natural-number literal: `0`, or digits not starting with `0`. */
  function ParseNat(t: string): (r: Option<(nat, string)>)
    ensures r.Some? ==> |r.value.1| < |t|
  {
    if t == [] || !Text.IsDigit(t[0]) then None
    else
      var n := if t[0] == '0' then 1 else LeadingDigits(t);
      assert Text.AllDigits(t[..n]);
      Some((Text.DigitsValue(t[..n]), t[n..]))
  }

  /** An integer literal: an optional minus sign, then a natural-number literal. */
  function ParseNumber(s: string): (r: Option<(Json, string)>)
    ensures r.Some? ==> |r.value.1| < |s|
  {
    if s != [] && s[0] == '-' then
      match ParseNat(s[1..])
      case None => None
      case Some((m, rest)) => Some((JNum(-(m as int)), rest))
    else
      match ParseNat(s)
      case None => None
      case Some((m, rest)) => Some((JNum(m), rest))
  }

  function ParseLiteral(s: string, word: string, v: Json): (r: Option<(Json, string)>)
    requires word != []
    ensures r.Some? ==> |r.value.1| < |s| && r.value.0 == v
  {
    if |word| <= |s| && s[..|word|] == word then Some((v, s[|word|..])) else None
  }

  /** A string literal after its opening quote. */
  function ParseString(s: string): (r: Option<(Json, string)>)
    ensures r.Some? ==> |r.value.1| < |s|
  {
    match ParseChars(s)
    case None => None
    case Some((str, rest)) => Some((JStr(str), rest))
  }

  /** One JSON value after optional whitespace, and what follows it. */
  function ParseValue(s: string): (r: Option<(Json, string)>)
    ensures r.Some? ==> |r.value.1| < |s|
    decreases |s|, 1
  {
    var t := SkipSpace(s);
    if t == [] then None
    else if t[0] == 'n' then ParseLiteral(t, "null", JNull)
    else if t[0] == 't' then ParseLiteral(t, "true", JBool(true))
    else if t[0] == 'f' then ParseLiteral(t, "false", JBool(false))
    else if t[0] == '"' then ParseString(t[1..])
    else if t[0] == '[' then ParseArray(t[1..])
    else if t[0] == '{' then ParseObject(t[1..])
    else if t[0] == '-' || Text.IsDigit(t[0]) then ParseNumber(t)
    else None
  }

  /** An array after its opening bracket. */
  function ParseArray(s: string): (r: Option<(Json, string)>)
    ensures r.Some? ==> |r.value.1| < |s|
    decreases |s|, 3
  {
    var u := SkipSpace(s);
    if u != [] && u[0] == ']' then Some((JArr([]), u[1..]))
    else
      match ParseElems(s)
      case None => None
      case Some((items, rest)) => Some((JArr(items), rest))
  }

  /** An object after its opening brace; a repeated key keeps its first position and
      takes its last value, as `JSON.parse` builds it. */
  function ParseObject(s: string): (r: Option<(Json, string)>)
    ensures r.Some? ==> |r.value.1| < |s|
    decreases |s|, 3
  {
    var u := SkipSpace(s);
    if u != [] && u[0] == '}' then Some((JObj([]), u[1..]))
    else
      match ParseMembers(s)
      case None => None
      case Some((ms, rest)) => Some((JObj(Merge([], ms)), rest))
  }

  /** The elements of a non-empty array up to and including its closing bracket. */
  function ParseElems(s: string): (r: Option<(seq<Json>, string)>)
    ensures r.Some? ==> |r.value.1| < |s|
    decreases |s|, 2
  {
    match ParseValue(s)
    case None => None
    case Some((v, rest)) =>
      var t := SkipSpace(rest);
      if t != [] && t[0] == ']' then Some(([v], t[1..]))
      else if t != [] && t[0] == ',' then
        match ParseElems(t[1..])
        case None => None
        case Some((vs, rest')) => Some(([v] + vs, rest'))
      else None
  }

  /** The members of a non-empty object up to and including its closing brace, in
      the order written (duplicates included). */
  function ParseMembers(s: string): (r: Option<(Obj, string)>)
    ensures r.Some? ==> |r.value.1| < |s|
    decreases |s|, 2
  {
    var t := SkipSpace(s);
    if t == [] || t[0] != '"' then None
    else
      match ParseChars(t[1..])
      case None => None
      case Some((key, rest)) => ParseMemberValue(key, rest)
  }

  /** The `:value` part of a member whose key has been read. */
  function ParseMemberValue(key: string, s: string): (r: Option<(Obj, string)>)
    ensures r.Some? ==> |r.value.1| < |s|
    decreases |s|, 2
  {
    var u := SkipSpace(s);
    if u == [] || u[0] != ':' then None
    else
      match ParseValue(u[1..])
      case None => None
      case Some((v, rest)) => ParseMemberTail(key, v, rest)
  }

  /** What follows a member: the closing brace, or a comma and more members. */
  function ParseMemberTail(key: string, v: Json, s: string): (r: Option<(Obj, string)>)
    ensures r.Some? ==> |r.value.1| < |s|
    decreases |s|, 2
  {
    var w := SkipSpace(s);
    if w != [] && w[0] == '}' then Some(([(key, v)], w[1..]))
    else if w != [] && w[0] == ',' then
      match ParseMembers(w[1..])
      case None => None
      case Some((ms, rest)) => Some(([(key, v)] + ms, rest))
    else None
  }

  /** `JSON.parse(s)`, None where it throws. */
  function Decode(s: string): Option<Json>
  {
    match ParseValue(s)
    case None => None
    case Some((v, rest)) => if SkipSpace(rest) == [] then Some(v) else None
  }
}

/** Parsing what was stringified gives back the value. */
module JsonRoundTrip {
  import opened Wrappers
  import opened Json
  import opened JsonCodec
  import Text

  lemma HexRoundTrip(d: nat)
    requires d < 16
    ensures IsHexDigit(HexDigit(d)) && HexValue(HexDigit(d)) == d
  {
  }

  /** One escaped character is read back as itself. */
  lemma ParseEscapedChar(c: char, tail: string)
    ensures ParseChars(EscapeChar(c) + tail) ==
      match ParseChars(tail)
      case None => None
      case Some((body, rest)) => Some(([c] + body, rest))
  {
    var s := EscapeChar(c) + tail;
    if c == '"' || c == '\\' || c == '\U{8}' || c == '\U{c}' || c == '\n' || c == '\r' || c == '\t' {
      assert |EscapeChar(c)| == 2 && EscapeChar(c)[0] == '\\';
      assert s[1..] == [EscapeChar(c)[1]] + tail;
      assert s[2..] == tail;
    } else if (c as int) < 0x20 {
      var hi, lo := c as int / 16, c as int % 16;
      HexRoundTrip(hi);
      HexRoundTrip(lo);
      assert EscapeChar(c) == "\\u00" + [HexDigit(hi), HexDigit(lo)];
      assert s[1..] == ['u', '0', '0', HexDigit(hi), HexDigit(lo)] + tail;
      assert s[6..] == tail;
      assert Unescape(s[1..]) == Some((c, 5));
    } else {
      assert EscapeChar(c) == [c];
      assert s[1..] == tail;
    }
  }

  lemma {:induction false} ParseCharsEncode(s: string, rest: string)
    ensures ParseChars(EncodeChars(s) + "\"" + rest) == Some((s, rest))
  {
    if s == [] {
      assert EncodeChars(s) + "\"" + rest == "\"" + rest;
    } else {
      var tail := EncodeChars(s[1..]) + "\"" + rest;
      CharsEncodeSplit(s, rest);
      ParseCharsEncode(s[1..], rest);
      ParseEscapedChar(s[0], tail);
      assert [s[0]] + s[1..] == s;
    }
  }

  lemma CharsEncodeSplit(s: string, rest: string)
    requires s != []
    ensures EncodeChars(s) + "\"" + rest == EscapeChar(s[0]) + (EncodeChars(s[1..]) + "\"" + rest)
  {
  }

  predicate FollowsNumber(rest: string)
  {
    rest == [] || !Text.IsDigit(rest[0])
  }

  lemma {:induction false} LeadingDigitsOf(d: string, rest: string)
    requires Text.AllDigits(d) && FollowsNumber(rest)
    ensures LeadingDigits(d + rest) == |d|
  {
    if d != [] {
      assert (d + rest)[1..] == d[1..] + rest;
      LeadingDigitsOf(d[1..], rest);
    }
  }

  lemma ParseNatEncode(m: nat, rest: string)
    requires FollowsNumber(rest)
    ensures ParseNat(Text.NatToString(m) + rest) == Some((m, rest))
  {
    var d := Text.NatToString(m);
    var t := d + rest;
    assert t[0] == d[0];
    if d[0] == '0' {
      assert d == "0";
      assert t[..1] == d && t[1..] == rest;
    } else {
      LeadingDigitsOf(d, rest);
      assert t[..|d|] == d;
      assert t[|d|..] == rest;
    }
  }

  lemma ParseNumberEncode(n: int, rest: string)
    requires FollowsNumber(rest)
    ensures ParseNumber(Text.IntToString(n) + rest) == Some((JNum(n), rest))
  {
    var m: nat := if n < 0 then -n else n;
    var d := Text.NatToString(m);
    ParseNatEncode(m, rest);
    if n < 0 {
      assert Text.IntToString(n) + rest == "-" + (d + rest);
      assert ("-" + (d + rest))[1..] == d + rest;
    } else {
      assert Text.IntToString(n) + rest == d + rest;
      assert Text.IsDigit(d[0]);
    }
  }

  /** What a stringified value starts with. */
  predicate StartsValue(c: char)
  {
    c in "ntf\"[{-" || Text.IsDigit(c)
  }

  lemma EncodeStart(v: Json)
    ensures StartsValue(Encode(v)[0])
  {
    match v
    case JNum(n) =>
      var d := Text.NatToString(if n < 0 then -n else n);
      assert Text.IsDigit(d[0]);
    case _ =>
  }

  lemma SkipSpaceAtValue(v: Json, rest: string)
    ensures SkipSpace(Encode(v) + rest) == Encode(v) + rest
  {
    EncodeStart(v);
  }

  lemma {:induction false} ParseValueEncode(v: Json, rest: string)
    requires WellFormed(v) && FollowsNumber(rest)
    ensures ParseValue(Encode(v) + rest) == Some((v, rest))
    decreases v, 2
  {
    match v
    case JNull => ParseLiteralEncode(v, rest);
    case JBool(_) => ParseLiteralEncode(v, rest);
    case JNum(n) => ParseNumberValueEncode(n, rest);
    case JStr(str) => ParseStringEncode(str, rest);
    case JArr(items) =>
      ParseArrayEncode(items, rest);
      ParseValueOfArray(items, rest);
    case JObj(ms) =>
      ParseObjectEncode(ms, rest);
      ParseValueOfObject(ms, rest);
  }

  lemma ParseNumberValueEncode(n: int, rest: string)
    requires FollowsNumber(rest)
    ensures ParseValue(Encode(JNum(n)) + rest) == Some((JNum(n), rest))
  {
    var d := Text.NatToString(if n < 0 then -n else n);
    assert Text.IsDigit(d[0]);
    ParseValueAtNumber(Text.IntToString(n) + rest);
    ParseNumberEncode(n, rest);
  }

  lemma ParseValueAtNumber(s: string)
    requires s != [] && (s[0] == '-' || Text.IsDigit(s[0]))
    ensures ParseValue(s) == ParseNumber(s)
  {
    assert !IsJsonSpace(s[0]);
  }

  lemma ParseValueOfArray(items: seq<Json>, rest: string)
    ensures ParseValue(Encode(JArr(items)) + rest) == ParseArray(EncodeItems(items) + "]" + rest)
  {
    var body := EncodeItems(items) + "]" + rest;
    EncodeArraySplit(items, rest);
    ParseValueAtBracket("[" + body);
    assert ("[" + body)[1..] == body;
  }

  lemma ParseValueOfObject(ms: Obj, rest: string)
    ensures ParseValue(Encode(JObj(ms)) + rest) == ParseObject(EncodeMembers(ms) + "}" + rest)
  {
    var body := EncodeMembers(ms) + "}" + rest;
    EncodeObjectSplit(ms, rest);
    ParseValueAtBrace("{" + body);
    assert ("{" + body)[1..] == body;
  }

  lemma EncodeArraySplit(items: seq<Json>, rest: string)
    ensures Encode(JArr(items)) + rest == "[" + (EncodeItems(items) + "]" + rest)
  {
  }

  lemma EncodeObjectSplit(ms: Obj, rest: string)
    ensures Encode(JObj(ms)) + rest == "{" + (EncodeMembers(ms) + "}" + rest)
  {
  }

  lemma ParseValueAtBracket(s: string)
    requires s != [] && s[0] == '['
    ensures ParseValue(s) == ParseArray(s[1..])
  {
    assert SkipSpace(s) == s;
  }

  lemma ParseValueAtBrace(s: string)
    requires s != [] && s[0] == '{'
    ensures ParseValue(s) == ParseObject(s[1..])
  {
    assert SkipSpace(s) == s;
  }

  lemma ParseLiteralEncode(v: Json, rest: string)
    requires v.JNull? || v.JBool?
    ensures ParseValue(Encode(v) + rest) == Some((v, rest))
  {
    var s := Encode(v) + rest;
    assert SkipSpace(s) == s;
    if v.JNull? || v == JBool(true) {
      assert s[..4] == Encode(v) && s[4..] == rest;
    } else {
      assert s[..5] == "false" && s[5..] == rest;
    }
  }

  lemma ParseStringEncode(str: string, rest: string)
    ensures ParseValue(Encode(JStr(str)) + rest) == Some((JStr(str), rest))
  {
    var s := Encode(JStr(str)) + rest;
    assert SkipSpace(s) == s;
    assert s[1..] == EncodeChars(str) + "\"" + rest;
    ParseCharsEncode(str, rest);
  }

  lemma {:induction false} ParseArrayEncode(items: seq<Json>, rest: string)
    requires forall i :: 0 <= i < |items| ==> WellFormed(items[i])
    ensures ParseArray(EncodeItems(items) + "]" + rest) == Some((JArr(items), rest))
    decreases items, 1
  {
    if items == [] {
      assert EncodeItems(items) + "]" + rest == "]" + rest;
    } else {
      var s := EncodeItems(items) + "]" + rest;
      var tail := if |items| == 1 then "]" + rest else "," + EncodeItems(items[1..]) + "]" + rest;
      assert s == Encode(items[0]) + tail;
      SkipSpaceAtValue(items[0], tail);
      EncodeStart(items[0]);
      ParseElemsEncode(items, rest);
    }
  }

  lemma {:induction false} ParseObjectEncode(ms: Obj, rest: string)
    requires WellFormedObj(ms)
    ensures ParseObject(EncodeMembers(ms) + "}" + rest) == Some((JObj(ms), rest))
    decreases ms, 1
  {
    if ms == [] {
      assert EncodeMembers(ms) + "}" + rest == "}" + rest;
    } else {
      var s := EncodeMembers(ms) + "}" + rest;
      assert s[0] == '"';
      ParseMembersEncode(ms, rest);
      MergeDisjoint([], ms);
      assert [] + ms == ms;
    }
  }

  lemma {:induction false} ParseElemsEncode(items: seq<Json>, rest: string)
    requires items != []
    requires forall i :: 0 <= i < |items| ==> WellFormed(items[i])
    ensures ParseElems(EncodeItems(items) + "]" + rest) == Some((items, rest))
    decreases items, 0
  {
    var x := items[0];
    var follow := ItemsFollow(items, rest);
    ItemsEncodeSplit(items, rest);
    ParseValueEncode(x, follow);
    ParseElemsAt(Encode(x) + follow, x, follow);
    if |items| > 1 {
      assert follow[1..] == EncodeItems(items[1..]) + "]" + rest;
      ParseElemsEncode(items[1..], rest);
      assert [x] + items[1..] == items;
    } else {
      assert follow[1..] == rest;
      assert [x] == items;
    }
  }

  /** What follows the first element of an encoded array. */
  function ItemsFollow(items: seq<Json>, rest: string): string
    requires items != []
  {
    if |items| == 1 then "]" + rest else "," + (EncodeItems(items[1..]) + "]" + rest)
  }

  lemma ItemsEncodeSplit(items: seq<Json>, rest: string)
    requires items != []
    ensures EncodeItems(items) + "]" + rest == Encode(items[0]) + ItemsFollow(items, rest)
  {
  }

  /** After one element, a closing bracket ends the array and a comma continues it. */
  lemma ParseElemsAt(s: string, v: Json, follow: string)
    requires follow != [] && (follow[0] == ']' || follow[0] == ',')
    requires ParseValue(s) == Some((v, follow))
    ensures ParseElems(s) ==
      if follow[0] == ']' then Some(([v], follow[1..]))
      else
        match ParseElems(follow[1..])
        case None => None
        case Some((vs, r)) => Some(([v] + vs, r))
  {
    assert SkipSpace(follow) == follow;
  }

  lemma ParseMemberTailAt(k: string, v: Json, follow: string)
    requires follow != [] && (follow[0] == '}' || follow[0] == ',')
    ensures ParseMemberTail(k, v, follow) ==
      if follow[0] == '}' then Some(([(k, v)], follow[1..]))
      else
        match ParseMembers(follow[1..])
        case None => None
        case Some((ms, r)) => Some(([(k, v)] + ms, r))
  {
    assert SkipSpace(follow) == follow;
  }

  lemma ParseMemberValueAt(k: string, v: Json, follow: string)
    requires ParseValue(Encode(v) + follow) == Some((v, follow))
    ensures ParseMemberValue(k, ":" + Encode(v) + follow) == ParseMemberTail(k, v, follow)
  {
    var afterKey := ":" + Encode(v) + follow;
    assert SkipSpace(afterKey) == afterKey;
    assert afterKey[1..] == Encode(v) + follow;
  }

  lemma ParseMemberKeyAt(k: string, afterKey: string)
    ensures ParseMembers(EncodeString(k) + afterKey) == ParseMemberValue(k, afterKey)
  {
    var s := EncodeString(k) + afterKey;
    assert s == "\"" + (EncodeChars(k) + "\"" + afterKey);
    assert SkipSpace(s) == s;
    assert s[1..] == EncodeChars(k) + "\"" + afterKey;
    ParseCharsEncode(k, afterKey);
  }

  /** One member `"key":value` followed by a comma or the closing brace. */
  lemma ParseMemberHead(k: string, v: Json, follow: string)
    requires follow != [] && (follow[0] == '}' || follow[0] == ',')
    requires ParseValue(Encode(v) + follow) == Some((v, follow))
    ensures ParseMembers(EncodeString(k) + ":" + Encode(v) + follow) ==
      if follow[0] == '}' then Some(([(k, v)], follow[1..]))
      else
        match ParseMembers(follow[1..])
        case None => None
        case Some((ms, r)) => Some(([(k, v)] + ms, r))
  {
    assert EncodeString(k) + ":" + Encode(v) + follow == EncodeString(k) + (":" + Encode(v) + follow);
    ParseMemberKeyAt(k, ":" + Encode(v) + follow);
    ParseMemberValueAt(k, v, follow);
    ParseMemberTailAt(k, v, follow);
  }

  lemma {:induction false} ParseMembersEncode(ms: Obj, rest: string)
    requires ms != []
    requires forall i :: 0 <= i < |ms| ==> WellFormedMember(ms, i)
    ensures ParseMembers(EncodeMembers(ms) + "}" + rest) == Some((ms, rest))
    decreases ms, 0
  {
    var m := ms[0];
    assert m in ms;
    assert m.1 < m;
    assert WellFormedMember(ms, 0);
    var follow := MembersFollow(ms, rest);
    MembersEncodeSplit(ms, rest);
    ParseValueEncode(m.1, follow);
    ParseMemberHead(m.0, m.1, follow);
    if |ms| > 1 {
      MembersTailWellFormed(ms);
      assert follow[1..] == EncodeMembers(ms[1..]) + "}" + rest;
      ParseMembersEncode(ms[1..], rest);
      assert [m] + ms[1..] == ms;
    } else {
      assert follow[1..] == rest;
      assert [m] == ms;
    }
  }

  /** What follows the first member of an encoded object. */
  function MembersFollow(ms: Obj, rest: string): string
    requires ms != []
  {
    if |ms| == 1 then "}" + rest else "," + (EncodeMembers(ms[1..]) + "}" + rest)
  }

  lemma MembersEncodeSplit(ms: Obj, rest: string)
    requires ms != []
    ensures EncodeMembers(ms) + "}" + rest == EncodeString(ms[0].0) + ":" + Encode(ms[0].1) + MembersFollow(ms, rest)
  {
  }

  lemma MembersTailWellFormed(ms: Obj)
    requires ms != []
    requires forall i :: 0 <= i < |ms| ==> WellFormedMember(ms, i)
    ensures forall i :: 0 <= i < |ms| - 1 ==> WellFormedMember(ms[1..], i)
  {
    forall i | 0 <= i < |ms| - 1 ensures WellFormedMember(ms[1..], i) {
      assert WellFormedMember(ms, i + 1);
      assert ms[1..][i] == ms[i + 1];
    }
  }

  /** `JSON.parse(JSON.stringify(v))` gives back `v`. */
  lemma DecodeEncode(v: Json)
    requires WellFormed(v)
    ensures Decode(Encode(v)) == Some(v)
  {
    ParseValueEncode(v, "");
    assert Encode(v) + "" == Encode(v);
  }
}

/** Every value `JSON.parse` produces is well-formed: its objects have distinct keys. */
module JsonParseWellFormed {
  import opened Wrappers
  import opened Json
  import opened JsonCodec
  import Text

  lemma {:induction false} ParseValueWellFormed(s: string)
    ensures ParseValue(s).Some? ==> WellFormed(ParseValue(s).value.0)
    decreases |s|, 1
  {
    var t := SkipSpace(s);
    if t != [] && t[0] == '[' {
      assert ParseValue(s) == ParseArray(t[1..]);
      ParseArrayWellFormed(t[1..]);
    } else if t != [] && t[0] == '{' {
      assert ParseValue(s) == ParseObject(t[1..]);
      ParseObjectWellFormed(t[1..]);
    }
  }

  lemma {:induction false} ParseArrayWellFormed(s: string)
    ensures ParseArray(s).Some? ==> WellFormed(ParseArray(s).value.0)
    decreases |s|, 3
  {
    ParseElemsWellFormed(s);
  }

  lemma {:induction false} ParseElemsWellFormed(s: string)
    ensures ParseElems(s).Some? ==> forall i :: 0 <= i < |ParseElems(s).value.0| ==> WellFormed(ParseElems(s).value.0[i])
    decreases |s|, 2
  {
    ParseValueWellFormed(s);
    match ParseValue(s)
    case None =>
    case Some((v, rest)) =>
      var t := SkipSpace(rest);
      if t != [] && t[0] == ',' {
        ParseElemsWellFormed(t[1..]);
      }
  }

  lemma {:induction false} ParseObjectWellFormed(s: string)
    ensures ParseObject(s).Some? ==> WellFormed(ParseObject(s).value.0)
    decreases |s|, 3
  {
    var u := SkipSpace(s);
    if !(u != [] && u[0] == '}') {
      ParseMembersWellFormed(s);
      match ParseMembers(s)
      case None =>
      case Some((ms, rest)) =>
        MergeWellFormed([], ms);
    }
  }

  lemma {:induction false} ParseMembersWellFormed(s: string)
    ensures ParseMembers(s).Some? ==> ValuesWellFormed(ParseMembers(s).value.0)
    decreases |s|, 2
  {
    var t := SkipSpace(s);
    if t != [] && t[0] == '"' {
      match ParseChars(t[1..])
      case None =>
      case Some((key, rest)) =>
        ParseMemberValueWellFormed(key, rest);
    }
  }

  lemma {:induction false} ParseMemberValueWellFormed(key: string, s: string)
    ensures ParseMemberValue(key, s).Some? ==> ValuesWellFormed(ParseMemberValue(key, s).value.0)
    decreases |s|, 2
  {
    var u := SkipSpace(s);
    if u != [] && u[0] == ':' {
      ParseValueWellFormed(u[1..]);
      match ParseValue(u[1..])
      case None =>
      case Some((v, rest)) =>
        ParseMemberTailWellFormed(key, v, rest);
    }
  }

  lemma {:induction false} ParseMemberTailWellFormed(key: string, v: Json, s: string)
    requires WellFormed(v)
    ensures ParseMemberTail(key, v, s).Some? ==> ValuesWellFormed(ParseMemberTail(key, v, s).value.0)
    decreases |s|, 2
  {
    var w := SkipSpace(s);
    assert WellFormedMember([(key, v)], 0);
    if w != [] && w[0] == ',' {
      ParseMembersWellFormed(w[1..]);
      match ParseMembers(w[1..])
      case None =>
      case Some((ms, rest)) =>
        var r := [(key, v)] + ms;
        forall i | 0 <= i < |r| ensures WellFormedMember(r, i) {
          if i > 0 { assert WellFormedMember(ms, i - 1); }
        }
    }
  }

  /** `JSON.parse` returns only well-formed values. */
  lemma DecodeWellFormed(s: string)
    ensures Decode(s).Some? ==> WellFormed(Decode(s).value)
  {
    ParseValueWellFormed(s);
  }
}

=== FILE: main_endpoints.dfy ===
/** The HTTP endpoints (`backend/main.py`): each handler takes its validated request,
    works on the one memory manager the application holds, and answers with a
    response body or an HTTP error. The model call, the new record's identifier and
    the clock are parameters. */
module Endpoints {
  import opened Wrappers
  import opened Json
  import opened Text
  import opened MemoryStore
  import opened Models
  import opened Conversation

  datatype HttpError = HttpError(status: int, detail: string)

  // ---------------------------------------------------------------------------
  // POST /chat

  /** The chat endpoint's answer after one turn. */
  function ChatAnswer(t: Turn, now: string): (r: Result<ChatResponse, HttpError>)
    ensures t.outcome.Ok? ==> r == Ok(ChatResponse(t.outcome.value.0, t.outcome.value.1, now))
    ensures t.outcome.Err? ==> r == Err(HttpError(500, "Error processing chat: " + t.outcome.error))
  {
    match t.outcome
    case Ok((text, used)) => Ok(MakeChatResponse(text, Some(used), now))
    case Err(e) => Err(HttpError(500, "Error processing chat: " + e))
  }

  method Chat(handler: ConversationHandler, request: ChatRequest, generate: string -> Result<string, string>,
              id: string, timestamp: string, now: string) returns (r: Result<ChatResponse, HttpError>)
    modifies handler.memoryManager
    ensures var t := ChatTurn(old(handler.memoryManager.memories), request.message, request.userId,
                              request.memoryEnabled, generate, id, timestamp);
      r == ChatAnswer(t, now) && handler.memoryManager.memories == t.memories
  {
    var outcome := handler.GenerateResponse(request.message, request.userId, request.memoryEnabled,
                                            generate, id, timestamp);
    match outcome {
      case Ok((responseText, memoriesUsed)) =>
        r := Ok(MakeChatResponse(responseText, Some(memoriesUsed), now));
      case Err(e) =>
        r := Err(HttpError(500, "Error processing chat: " + e));
    }
  }

  // ---------------------------------------------------------------------------
  // POST /enhance

  /** What the handler's body raises: an `HTTPException` or any other exception,
      given by its text. */
  datatype Raised = HttpRaised(status: nat, detail: string) | ErrorRaised(text: string)

  /** `str(e)`; for an `HTTPException` it is "<status>: <detail>". */
  function RaisedText(e: Raised): string
  {
    match e
    case HttpRaised(status, detail) => NatToString(status) + ": " + detail
    case ErrorRaised(text) => text
  }

  /** Python's name for the type of a value a JSON body holds. */
  function PyTypeName(v: Json): string
  {
    match v
    case JNull => "NoneType"
    case JBool(_) => "bool"
    case JNum(_) => "int"
    case JStr(_) => "str"
    case JArr(_) => "list"
    case JObj(_) => "dict"
  }

  /** The `AttributeError` text for calling `strip` on a value that is not a string. */
  function NoStripText(v: Json): string
  {
    "'" + PyTypeName(v) + "' object has no attribute 'strip'"
  }

  /** The text of the instruction before and after the quoted prompt. */
  const InstructionHead :=
    "You are a prompt enhancement assistant. Take the user's simple prompt and make it more detailed, "
    + "specific, and effective for an AI conversation.\n\nUser's original prompt: \""
  const InstructionTail := "\"\n\nEnhanced prompt (return ONLY the enhanced prompt, nothing else):"

  /** The instruction sent to the model around the user's prompt. */
  function EnhanceInstruction(prompt: string): string
  {
    InstructionHead + prompt + InstructionTail
  }

  /** The detail of the 400 raised for a blank prompt. */
  const EmptyPromptDetail := "Prompt cannot be empty"

  /** How the `except` clause opens the detail of the 500 it raises. */
  const EnhanceFailure := "Error enhancing prompt: "

  /** The body of the `try` block: the prompt (absent as ""), the blank check, the
      model call and the answer with the original and the stripped reply. */
  function EnhanceBody(request: Obj, generate: string -> Result<string, string>): Result<Obj, Raised>
  {
    var prompt := Get(request, "prompt").GetOr(JStr(""));
    if !prompt.JStr? then Err(ErrorRaised(NoStripText(prompt)))
    else if Strip(prompt.s) == "" then Err(HttpRaised(400, EmptyPromptDetail))
    else
      match generate(EnhanceInstruction(prompt.s))
      case Err(e) => Err(ErrorRaised(e))
      case Ok(text) => Ok([("original", JStr(prompt.s)), ("enhanced", JStr(Strip(text)))])
  }

  /** The endpoint as written: `except Exception` also catches the 400 raised inside
      the `try`, so every failure becomes a 500. */
  function EnhanceAsWritten(request: Obj, generate: string -> Result<string, string>): (r: Result<Obj, HttpError>)
    ensures r.Err? ==> r.error.status == 500
  {
    match EnhanceBody(request, generate)
    case Ok(answer) => Ok(answer)
    case Err(e) => Err(HttpError(500, EnhanceFailure + RaisedText(e)))
  }

  /** A blank prompt is answered with a 500 whose detail wraps the intended 400. */
  lemma BlankPromptAsWritten(generate: string -> Result<string, string>)
    ensures EnhanceAsWritten([("prompt", JStr("   "))], generate)
         == Err(HttpError(500, EnhanceFailure + "400: " + EmptyPromptDetail))
  {
    BlankPromptRaises(generate);
    EmptyPromptText();
    assert EnhanceFailure + ("400: " + EmptyPromptDetail) == EnhanceFailure + "400: " + EmptyPromptDetail;
  }

  /** `str(HTTPException(400, "Prompt cannot be empty"))`. */
  lemma EmptyPromptText()
    ensures RaisedText(HttpRaised(400, EmptyPromptDetail)) == "400: " + EmptyPromptDetail
  {
    StatusText400();
    assert "400" + ": " == "400: ";
  }

  lemma StatusText400()
    ensures NatToString(400) == "400"
  {
    assert NatToString(4) == [DigitChar(4)] == "4";
    assert NatToString(40) == NatToString(4) + [DigitChar(0)] == "40";
    assert NatToString(400) == NatToString(40) + [DigitChar(0)] == "400";
  }

  lemma BlankPromptRaises(generate: string -> Result<string, string>)
    ensures EnhanceBody([("prompt", JStr("   "))], generate) == Err(HttpRaised(400, EmptyPromptDetail))
  {
    assert Strip("   ") == "" by {
      assert StripStart("   ") == 3;
    }
  }

  /** The endpoint as intended: an `HTTPException` raised inside the `try` passes
      through, every other failure becomes a 500. */
  function Enhance(request: Obj, generate: string -> Result<string, string>): (r: Result<Obj, HttpError>)
  {
    match EnhanceBody(request, generate)
    case Ok(answer) => Ok(answer)
    case Err(HttpRaised(status, detail)) => Err(HttpError(status, detail))
    case Err(ErrorRaised(text)) => Err(HttpError(500, EnhanceFailure + text))
  }

  /** A missing or blank prompt, and only that, is a client error: 400 "Prompt
      cannot be empty". */
  lemma EnhanceRejectsBlank(request: Obj, generate: string -> Result<string, string>)
    ensures var prompt := Get(request, "prompt");
      (Enhance(request, generate) == Err(HttpError(400, EmptyPromptDetail)))
      <==> (prompt.None? || (prompt.value.JStr? && Strip(prompt.value.s) == ""))
  {
    if Get(request, "prompt").None? {
      assert Strip("") == "";
    }
  }

  /** A prompt that is not a string fails in `strip`, a server error. */
  lemma EnhanceRejectsNonString(request: Obj, generate: string -> Result<string, string>)
    requires Get(request, "prompt").Some? && !Get(request, "prompt").value.JStr?
    ensures Enhance(request, generate)
         == Err(HttpError(500, EnhanceFailure + NoStripText(Get(request, "prompt").value)))
  {
  }

  /** A successful answer echoes the prompt, which is a string that is not blank, and
      carries the model's reply with the surrounding whitespace removed. */
  lemma EnhanceAnswer(request: Obj, generate: string -> Result<string, string>)
    requires Enhance(request, generate).Ok?
    ensures Get(request, "prompt").Some? && Get(request, "prompt").value.JStr?
    ensures var prompt := Get(request, "prompt").value.s;
      var reply := generate(EnhanceInstruction(prompt));
      var answer := Enhance(request, generate).value;
      && Strip(prompt) != "" && reply.Ok?
      && Keys(answer) == ["original", "enhanced"]
      && Get(answer, "original") == Some(JStr(prompt))
      && Get(answer, "enhanced") == Some(JStr(Strip(reply.value)))
  {
    EnhanceOk(request, generate);
  }

  lemma EnhanceOk(request: Obj, generate: string -> Result<string, string>)
    requires Enhance(request, generate).Ok?
    ensures Get(request, "prompt").Some? && Get(request, "prompt").value.JStr?
    ensures var prompt := Get(request, "prompt").value.s;
      && Strip(prompt) != ""
      && generate(EnhanceInstruction(prompt)).Ok?
      && Enhance(request, generate).value
         == [("original", JStr(prompt)), ("enhanced", JStr(Strip(generate(EnhanceInstruction(prompt)).value)))]
  {
  }

  // ---------------------------------------------------------------------------
  // POST /remember

  /** `{"key": key, "type": "explicit", **(metadata or {})}`. */
  function RememberMetadata(request: RememberRequest): Obj
  {
    Merge([("key", JStr(request.key)), ("type", JStr("explicit"))], request.metadata.GetOr([]))
  }

  /** The caller's metadata wins over the two fields the endpoint sets. */
  lemma RememberMetadataGet(request: RememberRequest, k: string)
    requires request.metadata.Some? ==> DistinctKeys(request.metadata.value)
    ensures var md := request.metadata.GetOr([]);
      Get(RememberMetadata(request), k)
        == if k in Keys(md) then Get(md, k)
           else if k == "key" then Some(JStr(request.key))
           else if k == "type" then Some(JStr("explicit"))
           else None
  {
    MergeGet([("key", JStr(request.key)), ("type", JStr("explicit"))], request.metadata.GetOr([]), k);
  }

  /** The record the endpoint stores. */
  function ExplicitMemory(request: RememberRequest, id: string, timestamp: string): Memory
  {
    Memory(id, request.key + ": " + request.value, request.userId, Some(timestamp),
           "Explicit user request", RememberMetadata(request))
  }

  method Remember(manager: MemoryManager, request: RememberRequest, id: string, timestamp: string)
    returns (response: RememberResponse)
    modifies manager
    ensures manager.memories == old(manager.memories) + [ExplicitMemory(request, id, timestamp)]
    ensures response == RememberResponse(true, id, "Successfully stored memory: " + request.key)
  {
    var metadata := Merge([("key", JStr(request.key)), ("type", JStr("explicit"))], request.metadata.GetOr([]));
    var memoryId := manager.StoreMemory(request.key + ": " + request.value, request.userId, Some(metadata),
                                        Some("Explicit user request"), id, timestamp);
    response := RememberResponse(true, memoryId, "Successfully stored memory: " + request.key);
  }

  lemma LowerAppend(a: string, b: string)
    ensures Lower(a + b) == Lower(a) + Lower(b)
  {
  }

  /** A remembered fact is found again by its key: after storing it, a recall with
      the key as the query has it among the candidates, and returns it unless
      `limit` records at least as good are returned instead. */
  lemma RememberThenRecall(ms: seq<Memory>, request: RememberRequest, id: string, timestamp: string, limit: int)
    requires limit >= 0
    ensures var m := ExplicitMemory(request, id, timestamp);
      var r := Retrieve(ms + [m], request.key, request.userId, limit);
      && Qualifies(request.key, m.content)
      && (m in r || (|r| == limit && forall x :: x in r ==> Overlap(request.key, x.content) >= Overlap(request.key, m.content)))
  {
    var m := ExplicitMemory(request, id, timestamp);
    LowerAppend(request.key, ": " + request.value);
    assert MatchAt(Lower(m.content), Lower(request.key), 0);
    if m !in Retrieve(ms + [m], request.key, request.userId, limit) {
      RetrieveTopRanked(ms + [m], request.key, request.userId, limit, m);
    }
  }

  // ---------------------------------------------------------------------------
  // POST /recall

  method Recall(manager: MemoryManager, request: RecallRequest) returns (response: RecallResponse)
    ensures response.memories == Retrieve(manager.memories, request.query, request.userId, request.limit)
    ensures response.count == |response.memories|
  {
    var memories := manager.RetrieveMemories(request.query, request.userId, request.limit);
    response := RecallResponse(memories, |memories|);
  }

  /** A validated recall returns at most `limit` records, all the user's own. */
  lemma RecallBounded(ms: seq<Memory>, request: RecallRequest)
    requires MinRecallLimit <= request.limit <= MaxRecallLimit
    ensures var r := Retrieve(ms, request.query, request.userId, request.limit);
      |r| <= request.limit && forall m :: m in r ==> m in ms && m.userId == request.userId
  {
    RetrieveCount(ms, request.query, request.userId, request.limit);
    RetrieveSound(ms, request.query, request.userId, request.limit);
  }

  // ---------------------------------------------------------------------------
  // GET /status

  /** The count `/status` reports for the `user_id` query parameter. */
  function StatusCount(ms: seq<Memory>, userId: Option<string>): nat
  {
    var user := userId.GetOr(DefaultUserId);
    if user != "" then |UserMemories(ms, user)| else |ms|
  }

  method Status(manager: MemoryManager, userId: Option<string>, now: string) returns (response: StatusResponse)
    ensures response == StatusResponse("operational", StatusCount(manager.memories, userId), Some(now), "operational")
  {
    var user := userId.GetOr(DefaultUserId);
    var stats := manager.GetMemoryStats(Some(user));
    var count := Get(stats, "total_memories").GetOr(JNum(0));
    var storage := Get(stats, "status").GetOr(JStr("unknown"));
    if !count.JNum? || !storage.JStr? {
      assert false;
    }
    response := MakeStatusResponse(Some("operational"), count.n, Some(now), storage.s);
  }

  /** Remembering a fact raises the user's status count by exactly one. */
  lemma RememberRaisesStatusCount(ms: seq<Memory>, request: RememberRequest, id: string, timestamp: string)
    requires request.userId != ""
    ensures StatusCount(ms + [ExplicitMemory(request, id, timestamp)], Some(request.userId))
         == StatusCount(ms, Some(request.userId)) + 1
  {
    StoreCountsForOwner(ms, ExplicitMemory(request, id, timestamp), request.userId);
  }

  /** An empty `user_id` parameter counts every user's records. */
  lemma StatusEmptyUser(ms: seq<Memory>)
    ensures StatusCount(ms, Some("")) == |ms|
    ensures StatusCount(ms, None) == |UserMemories(ms, DefaultUserId)|
  {
  }
}

=== FILE: memory_manager.dfy ===
/** The backend's memory store (`backend/memory_manager.py`): the list of memory
    records, the detector that decides whether a chat message is worth keeping,
    keyword retrieval and the statistics. Reading and writing the JSON file that
    backs the list is not part of this model; the list the file held is the
    constructor's argument. */
module MemoryStore {
  import opened Wrappers
  import opened Json
  import opened Text

  /** One record. A record read back from the file may lack a timestamp. */
  datatype Memory = Memory(
    id: string,
    content: string,
    userId: string,
    timestamp: Option<string>,
    source: string,
    metadata: Obj)

  // ---------------------------------------------------------------------------
  // Memory-worthiness

  /** The five regular expressions, each `\b(p1|...|pn)\b` over these phrases. */
  const MemoryPatterns: seq<seq<string>> := [
    ["i like", "i love", "i prefer", "my favorite", "i enjoy"],
    ["remember", "don't forget", "keep in mind", "note that"],
    ["i want to", "i'm trying to", "i always", "i never", "my goal"],
    ["my name is", "i am", "i work as", "i live in", "i'm from"],
    ["i hate", "i dislike", "i don't like"]
  ]

  /** `\w` on ASCII text: letters, digits and the underscore. */
  predicate IsWordChar(c: char)
  {
    'a' <= c <= 'z' || 'A' <= c <= 'Z' || '0' <= c <= '9' || c == '_'
  }

  /** `\b` before position `i`: a word character on exactly one side. */
  predicate Boundary(s: string, i: nat)
    requires i <= |s|
  {
    (0 < i && IsWordChar(s[i - 1])) != (i < |s| && IsWordChar(s[i]))
  }

  /** The phrase occurs at `i` as whole words. */
  predicate PhraseAt(s: string, phrase: string, i: nat)
  {
    MatchAt(s, phrase, i) && Boundary(s, i) && Boundary(s, i + |phrase|)
  }

  /** `re.search(r'\b(p1|...|pn)\b', s)` finds a match. */
  predicate SearchGroup(group: seq<string>, s: string)
  {
    exists j, i :: 0 <= j < |group| && 0 <= i <= |s| && PhraseAt(s, group[j], i)
  }

  /** Some pattern matches the lower-cased message. */
  predicate IsMemoryWorthy(message: string)
  {
    exists g :: 0 <= g < |MemoryPatterns| && SearchGroup(MemoryPatterns[g], Lower(message))
  }

  lemma LowerIdempotent(s: string)
    ensures Lower(Lower(s)) == Lower(s)
  {
    forall i | 0 <= i < |s| ensures Lower(Lower(s))[i] == Lower(s)[i] {
      assert Lower(s)[i] == LowerChar(s[i]);
    }
  }

  /** The detector ignores case: a message and its lower-cased form agree. */
  lemma WorthinessIgnoresCase(message: string)
    ensures IsMemoryWorthy(Lower(message)) == IsMemoryWorthy(message)
  {
    LowerIdempotent(message);
  }

  /** A statement of personal information is kept. */
  lemma NameIsWorthy()
    ensures IsMemoryWorthy("My name is Alice")
  {
    var s := Lower("My name is Alice");
    assert s == "my name is alice";
    assert PhraseAt(s, MemoryPatterns[3][0], 0);
  }

  /** A request to remember is kept whatever its case, also in mid-sentence. */
  lemma RememberIsWorthy()
    ensures IsMemoryWorthy("Please REMEMBER this")
  {
    var s := Lower("Please REMEMBER this");
    assert s[6] == ' ' && s[15] == ' ';
    assert s[7..15] == "remember";
    assert PhraseAt(s, MemoryPatterns[1][0], 7);
  }

  // ---------------------------------------------------------------------------
  // Retrieval

  /** `[m for m in memories if m.get("user_id") == user_id]`. */
  function UserMemories(ms: seq<Memory>, userId: string): (r: seq<Memory>)
    ensures |r| <= |ms|
  {
    if ms == [] then []
    else (if ms[0].userId == userId then [ms[0]] else []) + UserMemories(ms[1..], userId)
  }

  /** The user's records are exactly the stored records carrying that user. */
  lemma {:induction false} UserMemoriesMembers(ms: seq<Memory>, userId: string)
    ensures forall m :: m in UserMemories(ms, userId) <==> m in ms && m.userId == userId
  {
    if ms != [] {
      UserMemoriesMembers(ms[1..], userId);
      assert ms == [ms[0]] + ms[1..];
    }
  }

  lemma {:induction false} UserMemoriesAppend(ms: seq<Memory>, m: Memory, userId: string)
    ensures UserMemories(ms + [m], userId)
         == UserMemories(ms, userId) + (if m.userId == userId then [m] else [])
  {
    if ms != [] {
      assert (ms + [m])[1..] == ms[1..] + [m];
      UserMemoriesAppend(ms[1..], m, userId);
    }
  }

  /** The number of words the query and the content share, case-insensitively. */
  function Overlap(query: string, content: string): nat
  {
    |WordSet(Lower(query)) * WordSet(Lower(content))|
  }

  /** A record is a candidate when it shares a word with the query or contains
      the whole query. */
  predicate Qualifies(query: string, content: string)
  {
    Overlap(query, content) > 0 || Contains(Lower(content), Lower(query))
  }

  datatype ScoredMemory = ScoredMemory(memory: Memory, score: nat)

  /** The scoring loop's list: the qualifying records with their overlap, in order. */
  function Scored(ms: seq<Memory>, query: string): (r: seq<ScoredMemory>)
    ensures |r| <= |ms|
  {
    if ms == [] then []
    else
      var last := ms[|ms| - 1];
      var init := Scored(ms[..|ms| - 1], query);
      if Qualifies(query, last.content) then init + [ScoredMemory(last, Overlap(query, last.content))]
      else init
  }

  /** One more record extends the scored list by its entry when it qualifies. */
  lemma ScoredStep(ms: seq<Memory>, i: nat, query: string)
    requires i < |ms|
    ensures Scored(ms[..i + 1], query)
         == if Qualifies(query, ms[i].content) then Scored(ms[..i], query) + [ScoredMemory(ms[i], Overlap(query, ms[i].content))]
            else Scored(ms[..i], query)
  {
    assert ms[..i + 1][..i] == ms[..i];
  }

  /** The scored list holds exactly the qualifying records, each with its overlap. */
  lemma {:induction false} ScoredMembers(ms: seq<Memory>, query: string)
    ensures forall e :: e in Scored(ms, query) ==>
              e.memory in ms && Qualifies(query, e.memory.content) && e.score == Overlap(query, e.memory.content)
    ensures forall m :: m in ms && Qualifies(query, m.content) ==>
              ScoredMemory(m, Overlap(query, m.content)) in Scored(ms, query)
  {
    if ms != [] {
      var init := ms[..|ms| - 1];
      ScoredMembers(init, query);
      assert ms == init + [ms[|ms| - 1]];
    }
  }

  predicate SortedByScore(s: seq<ScoredMemory>)
  {
    forall i, j :: 0 <= i < j < |s| ==> s[i].score >= s[j].score
  }

  /** Inserts `x` before the first entry whose score is not higher: an entry that
      came first in the input stays first among equal scores. */
  function InsertByScore(x: ScoredMemory, s: seq<ScoredMemory>): (r: seq<ScoredMemory>)
  {
    if s == [] || x.score >= s[0].score then [x] + s
    else [s[0]] + InsertByScore(x, s[1..])
  }

  /** `list.sort(key=score, reverse=True)`: Python's sort is stable, also reversed. */
  function SortByScore(s: seq<ScoredMemory>): (r: seq<ScoredMemory>)
  {
    if s == [] then [] else InsertByScore(s[0], SortByScore(s[1..]))
  }

  /** Insertion adds exactly the one entry. */
  lemma {:induction false} InsertPermutes(x: ScoredMemory, s: seq<ScoredMemory>)
    ensures multiset(InsertByScore(x, s)) == multiset(s) + multiset{x}
  {
    if s != [] && x.score < s[0].score {
      InsertPermutes(x, s[1..]);
      assert s == [s[0]] + s[1..];
    }
  }

  /** The sort is a permutation. */
  lemma {:induction false} SortPermutes(s: seq<ScoredMemory>)
    ensures multiset(SortByScore(s)) == multiset(s)
  {
    if s != [] {
      SortPermutes(s[1..]);
      InsertPermutes(s[0], SortByScore(s[1..]));
      assert s == [s[0]] + s[1..];
    }
  }

  lemma SortedCons(h: ScoredMemory, t: seq<ScoredMemory>)
    requires SortedByScore(t)
    requires forall e :: e in t ==> h.score >= e.score
    ensures SortedByScore([h] + t)
  {
    var r := [h] + t;
    forall i, j | 0 <= i < j < |r| ensures r[i].score >= r[j].score {
      if i == 0 { assert r[j] in t; }
      else { assert r[i] == t[i - 1] && r[j] == t[j - 1]; }
    }
  }

  lemma InsertBound(x: ScoredMemory, s: seq<ScoredMemory>, b: nat)
    requires x.score <= b && forall e :: e in s ==> e.score <= b
    ensures forall e :: e in InsertByScore(x, s) ==> e.score <= b
  {
    InsertPermutes(x, s);
    forall e | e in InsertByScore(x, s) ensures e.score <= b {
      assert e in multiset(InsertByScore(x, s));
      if e != x { assert e in multiset(s); }
    }
  }

  lemma {:induction false} InsertSorted(x: ScoredMemory, s: seq<ScoredMemory>)
    requires SortedByScore(s)
    ensures SortedByScore(InsertByScore(x, s))
  {
    if s == [] || x.score >= s[0].score {
      forall e | e in s ensures x.score >= e.score {
        var i :| 0 <= i < |s| && s[i] == e;
        assert i == 0 || s[0].score >= s[i].score;
      }
      SortedCons(x, s);
    } else {
      var t := s[1..];
      assert SortedByScore(t) by {
        forall i, j | 0 <= i < j < |t| ensures t[i].score >= t[j].score {
          assert t[i] == s[i + 1] && t[j] == s[j + 1];
        }
      }
      InsertSorted(x, t);
      forall e | e in t ensures e.score <= s[0].score {
        var i :| 0 <= i < |t| && t[i] == e;
        assert t[i] == s[i + 1];
      }
      InsertBound(x, t, s[0].score);
      SortedCons(s[0], InsertByScore(x, t));
    }
  }

  /** The sort orders by non-increasing score. */
  lemma {:induction false} SortSorted(s: seq<ScoredMemory>)
    ensures SortedByScore(SortByScore(s))
  {
    if s != [] {
      SortSorted(s[1..]);
      InsertSorted(s[0], SortByScore(s[1..]));
    }
  }

  /** The entries with score `k`, in order. */
  function WithScore(s: seq<ScoredMemory>, k: nat): seq<ScoredMemory>
  {
    if s == [] then [] else (if s[0].score == k then [s[0]] else []) + WithScore(s[1..], k)
  }

  lemma {:induction false} WithScoreAppend(a: seq<ScoredMemory>, b: seq<ScoredMemory>, k: nat)
    ensures WithScore(a + b, k) == WithScore(a, k) + WithScore(b, k)
  {
    if a == [] {
      assert a + b == b;
    } else {
      var h: seq<ScoredMemory> := if a[0].score == k then [a[0]] else [];
      assert (a + b)[0] == a[0];
      assert (a + b)[1..] == a[1..] + b;
      WithScoreAppend(a[1..], b, k);
      calc {
        WithScore(a + b, k);
        h + WithScore(a[1..] + b, k);
        h + (WithScore(a[1..], k) + WithScore(b, k));
        (h + WithScore(a[1..], k)) + WithScore(b, k);
        WithScore(a, k) + WithScore(b, k);
      }
    }
  }

  lemma {:induction false} InsertWithScore(x: ScoredMemory, s: seq<ScoredMemory>, k: nat)
    ensures WithScore(InsertByScore(x, s), k)
         == (if x.score == k then [x] else []) + WithScore(s, k)
  {
    var hx: seq<ScoredMemory> := if x.score == k then [x] else [];
    if s == [] || x.score >= s[0].score {
      assert ([x] + s)[0] == x && ([x] + s)[1..] == s;
    } else {
      var t := InsertByScore(x, s[1..]);
      InsertWithScore(x, s[1..], k);
      assert ([s[0]] + t)[0] == s[0] && ([s[0]] + t)[1..] == t;
      var h: seq<ScoredMemory> := if s[0].score == k then [s[0]] else [];
      assert WithScore([s[0]] + t, k) == h + (hx + WithScore(s[1..], k));
      assert h == [] || hx == [];
    }
  }

  /** The sort is stable: the entries of each score keep their relative order. */
  lemma {:induction false} SortStable(s: seq<ScoredMemory>, k: nat)
    ensures WithScore(SortByScore(s), k) == WithScore(s, k)
  {
    if s != [] {
      SortStable(s[1..], k);
      InsertWithScore(s[0], SortByScore(s[1..]), k);
    }
  }

  /** `s[:n]`: a negative `n` drops `-n` entries from the end. */
  function Take<T>(s: seq<T>, n: int): (r: seq<T>)
    ensures r <= s
    ensures n >= 0 ==> |r| == if n < |s| then n else |s|
    ensures n < 0 ==> |r| == if |s| + n > 0 then |s| + n else 0
  {
    if n >= 0 then (if n < |s| then s[..n] else s)
    else if |s| + n > 0 then s[..|s| + n] else []
  }

  function MemoriesOf(s: seq<ScoredMemory>): (r: seq<Memory>)
    ensures |r| == |s| && forall i :: 0 <= i < |s| ==> r[i] == s[i].memory
  {
    seq(|s|, i requires 0 <= i < |s| => s[i].memory)
  }

  /** The candidates of the user, best overlap first, ties in storage order. */
  function Ranked(ms: seq<Memory>, query: string, userId: string): seq<ScoredMemory>
  {
    SortByScore(Scored(UserMemories(ms, userId), query))
  }

  /** What `retrieve_memories` returns. */
  function Retrieve(ms: seq<Memory>, query: string, userId: string, limit: int): seq<Memory>
  {
    MemoriesOf(Take(Ranked(ms, query, userId), limit))
  }

  /** Every record returned belongs to the user, is stored, and qualifies. */
  lemma RetrieveSound(ms: seq<Memory>, query: string, userId: string, limit: int)
    ensures forall m :: m in Retrieve(ms, query, userId, limit) ==>
              m in ms && m.userId == userId && Qualifies(query, m.content)
  {
    var ranked := Ranked(ms, query, userId);
    var r := Retrieve(ms, query, userId, limit);
    UserMemoriesMembers(ms, userId);
    ScoredMembers(UserMemories(ms, userId), query);
    SortPermutes(Scored(UserMemories(ms, userId), query));
    forall m | m in r ensures m in ms && m.userId == userId && Qualifies(query, m.content) {
      var i :| 0 <= i < |r| && r[i] == m;
      var e := Take(ranked, limit)[i];
      assert e in multiset(ranked);
    }
  }

  /** The records returned come best overlap first. */
  lemma RetrieveOrdered(ms: seq<Memory>, query: string, userId: string, limit: int)
    ensures var r := Retrieve(ms, query, userId, limit);
      forall i, j :: 0 <= i < j < |r| ==> Overlap(query, r[i].content) >= Overlap(query, r[j].content)
  {
    var ranked := Ranked(ms, query, userId);
    ScoredMembers(UserMemories(ms, userId), query);
    SortPermutes(Scored(UserMemories(ms, userId), query));
    SortSorted(Scored(UserMemories(ms, userId), query));
    var t := Take(ranked, limit);
    forall i | 0 <= i < |t| ensures t[i].score == Overlap(query, t[i].memory.content) {
      assert t[i] in multiset(ranked);
    }
  }

  /** How many records come back: all candidates, cut by `limit` as a slice cuts. */
  lemma RetrieveCount(ms: seq<Memory>, query: string, userId: string, limit: int)
    ensures var n := |Scored(UserMemories(ms, userId), query)|;
      |Retrieve(ms, query, userId, limit)| ==
        if limit >= 0 then (if limit < n then limit else n)
        else if n + limit > 0 then n + limit else 0
  {
    var s := Scored(UserMemories(ms, userId), query);
    SortPermutes(s);
    assert |multiset(SortByScore(s))| == |multiset(s)|;
  }

  /** When the cut of a sorted list leaves out an entry's record, the cut is full
      and every entry in it scores at least as high. */
  lemma CutKeepsBest(ranked: seq<ScoredMemory>, limit: int, e: ScoredMemory)
    requires SortedByScore(ranked) && 0 <= limit && e in ranked
    requires e.memory !in MemoriesOf(Take(ranked, limit))
    ensures |Take(ranked, limit)| == limit
    ensures forall i :: 0 <= i < limit ==> Take(ranked, limit)[i].score >= e.score
  {
    var p :| 0 <= p < |ranked| && ranked[p] == e;
    var t := Take(ranked, limit);
    if p < |t| {
      assert false;
    }
    forall i | 0 <= i < limit ensures t[i].score >= e.score {
      assert t[i] == ranked[i];
    }
  }

  /** A candidate that is left out lost to `limit` records at least as good. */
  lemma RetrieveTopRanked(ms: seq<Memory>, query: string, userId: string, limit: int, m: Memory)
    requires limit >= 0
    requires m in ms && m.userId == userId && Qualifies(query, m.content)
    requires m !in Retrieve(ms, query, userId, limit)
    ensures var r := Retrieve(ms, query, userId, limit);
      |r| == limit && forall x :: x in r ==> Overlap(query, x.content) >= Overlap(query, m.content)
  {
    var s := Scored(UserMemories(ms, userId), query);
    var ranked := SortByScore(s);
    UserMemoriesMembers(ms, userId);
    ScoredMembers(UserMemories(ms, userId), query);
    SortPermutes(s);
    SortSorted(s);
    var e := ScoredMemory(m, Overlap(query, m.content));
    assert e in multiset(ranked);
    CutKeepsBest(ranked, limit, e);
    var t := Take(ranked, limit);
    forall i | 0 <= i < |t| ensures t[i].score == Overlap(query, t[i].memory.content) {
      assert t[i] in multiset(s);
    }
  }

  /** Among records of equal overlap, those returned are the first ones in storage
      order. */
  lemma RetrieveTiesInStorageOrder(ms: seq<Memory>, query: string, userId: string, limit: int, k: nat)
    ensures var s := Scored(UserMemories(ms, userId), query);
      WithScore(Take(SortByScore(s), limit), k) <= WithScore(s, k)
  {
    var s := Scored(UserMemories(ms, userId), query);
    var ranked := SortByScore(s);
    var t := Take(ranked, limit);
    assert t == ranked[..|t|];
    assert ranked == t + ranked[|t|..];
    WithScoreAppend(t, ranked[|t|..], k);
    SortStable(s, k);
  }

  // ---------------------------------------------------------------------------
  // Conversation memories

  /** The record `process_conversation_for_memory` stores for a worthy message. */
  function ConversationMemory(userMessage: string, assistantResponse: string, userId: string,
                              id: string, timestamp: string): Memory
  {
    Memory(id, userMessage, userId, Some(timestamp),
           "User: " + Prefix(userMessage, 100) + "...",
           [("type", JStr("conversation")), ("assistant_response", JStr(Prefix(assistantResponse, 200)))])
  }

  /** The stored source quotes at most 100 characters of the message. */
  lemma ConversationMemoryBounds(userMessage: string, assistantResponse: string, userId: string,
                                 id: string, timestamp: string)
    ensures var m := ConversationMemory(userMessage, assistantResponse, userId, id, timestamp);
      && |m.source| <= 109 && m.source[..6] == "User: "
      && m.source[6..|m.source| - 3] <= userMessage
  {
    var m := ConversationMemory(userMessage, assistantResponse, userId, id, timestamp);
    var quoted := Prefix(userMessage, 100);
    assert m.source == "User: " + quoted + "...";
    assert m.source[6..|m.source| - 3] == quoted;
  }

  /** The metadata is a well-formed object quoting at most 200 characters of the reply. */
  lemma ConversationMetadataBounds(userMessage: string, assistantResponse: string, userId: string,
                                   id: string, timestamp: string)
    ensures var m := ConversationMemory(userMessage, assistantResponse, userId, id, timestamp);
      && WellFormedObj(m.metadata)
      && exists r :: Get(m.metadata, "assistant_response") == Some(JStr(r)) && |r| <= 200 && r <= assistantResponse
  {
    var md := ConversationMemory(userMessage, assistantResponse, userId, id, timestamp).metadata;
    var r := Prefix(assistantResponse, 200);
    assert md[1] == ("assistant_response", JStr(r));
    assert DistinctKeys(md) by { assert md[0].0 != md[1].0; }
    assert ValuesWellFormed(md) by { assert WellFormedMember(md, 0) && WellFormedMember(md, 1); }
    assert Get(md, "assistant_response") == Get(md[1..], "assistant_response");
  }

  // ---------------------------------------------------------------------------
  // The manager

  class MemoryManager {
    var memories: seq<Memory>

    /** Starts from the records the storage file held. */
    constructor (saved: seq<Memory>)
      ensures memories == saved
    {
      memories := saved;
    }

    method DetectMemoryWorthyContent(message: string) returns (worthy: bool)
      ensures worthy <==> IsMemoryWorthy(message)
    {
      var messageLower := Lower(message);
      for g := 0 to |MemoryPatterns|
        invariant forall g' :: 0 <= g' < g ==> !SearchGroup(MemoryPatterns[g'], messageLower)
      {
        if SearchGroup(MemoryPatterns[g], messageLower) {
          return true;
        }
      }
      return false;
    }

    /** Appends one record; the identifier and the time are the caller's. A missing
        or empty source becomes `""`, a missing or empty metadata object `{}`. */
    method StoreMemory(content: string, userId: string, metadata: Option<Obj>, source: Option<string>,
                       id: string, timestamp: string) returns (memoryId: string)
      modifies this
      ensures memoryId == id
      ensures memories == old(memories) + [Memory(id, content, userId, Some(timestamp),
                                                  source.GetOr(""), metadata.GetOr([]))]
    {
      var memory := Memory(id, content, userId, Some(timestamp), source.GetOr(""), metadata.GetOr([]));
      memories := memories + [memory];
      memoryId := id;
    }

    method RetrieveMemories(query: string, userId: string, limit: int) returns (result: seq<Memory>)
      ensures result == Retrieve(memories, query, userId, limit)
    {
      var userMemories := UserMemories(memories, userId);
      var queryLower := Lower(query);
      var queryWords := WordSet(queryLower);
      var scored: seq<ScoredMemory> := [];
      for i := 0 to |userMemories|
        invariant scored == Scored(userMemories[..i], query)
      {
        var memory := userMemories[i];
        var contentLower := Lower(memory.content);
        var contentWords := WordSet(contentLower);
        var overlap := |queryWords * contentWords|;
        assert overlap == Overlap(query, memory.content);
        ScoredStep(userMemories, i, query);
        if overlap > 0 || Contains(contentLower, queryLower) {
          scored := scored + [ScoredMemory(memory, overlap)];
        }
      }
      assert userMemories[..|userMemories|] == userMemories;
      var ranked := SortByScore(scored);
      result := MemoriesOf(Take(ranked, limit));
    }

    /** Stores the message when it is memory-worthy and reports the new identifier. */
    method ProcessConversationForMemory(userMessage: string, assistantResponse: string, userId: string,
                                        id: string, timestamp: string) returns (memoryId: Option<string>)
      modifies this
      ensures IsMemoryWorthy(userMessage) ==>
        memoryId == Some(id) &&
        memories == old(memories) + [ConversationMemory(userMessage, assistantResponse, userId, id, timestamp)]
      ensures !IsMemoryWorthy(userMessage) ==> memoryId == None && memories == old(memories)
    {
      var worthy := DetectMemoryWorthyContent(userMessage);
      if worthy {
        var source := "User: " + Prefix(userMessage, 100) + "...";
        var metadata := [("type", JStr("conversation")), ("assistant_response", JStr(Prefix(assistantResponse, 200)))];
        var stored := StoreMemory(userMessage, userId, Some(metadata), Some(source), id, timestamp);
        memoryId := Some(stored);
      } else {
        memoryId := None;
      }
    }

    /** The statistics object: the user's record count (every record when no user,
        or an empty one, is named), the user as given, and the status. */
    function GetMemoryStats(userId: Option<string>): (stats: Obj)
      reads this
      ensures WellFormedObj(stats)
      ensures Keys(stats) == ["total_memories", "user_id", "status"]
      ensures Get(stats, "total_memories")
           == Some(JNum(if userId.Some? && userId.value != "" then |UserMemories(memories, userId.value)|
                        else |memories|))
      ensures Get(stats, "user_id") == Some(if userId.Some? then JStr(userId.value) else JNull)
      ensures Get(stats, "status") == Some(JStr("operational"))
    {
      var count := if userId.Some? && userId.value != "" then |UserMemories(memories, userId.value)|
                   else |memories|;
      var stats := [("total_memories", JNum(count)),
                    ("user_id", if userId.Some? then JStr(userId.value) else JNull),
                    ("status", JStr("operational"))];
      assert WellFormedMember(stats, 0) && WellFormedMember(stats, 1) && WellFormedMember(stats, 2);
      stats
    }
  }

  /** Storing a record for a user raises that user's count by one and leaves every
      other user's count alone. */
  lemma StoreCountsForOwner(ms: seq<Memory>, m: Memory, userId: string)
    ensures |UserMemories(ms + [m], userId)| == |UserMemories(ms, userId)| + (if m.userId == userId then 1 else 0)
  {
    UserMemoriesAppend(ms, m, userId);
  }
}

=== FILE: models.dfy ===
/** The request and response bodies of the HTTP API (`backend/models.py`). A request
    body arrives as a JSON object; validation either builds the request or names the
    first field it rejects (FastAPI then answers 422 without calling the handler). */
module Models {
  import opened Wrappers
  import opened Json
  import opened MemoryStore

  const DefaultUserId := "default_user"

  datatype FieldError =
    | Missing(field: string)
    | WrongType(field: string)
    | TooShort(field: string)
    | OutOfRange(field: string)

  datatype ChatRequest = ChatRequest(message: string, userId: string, memoryEnabled: bool, voiceData: Option<string>)
  datatype ChatResponse = ChatResponse(response: string, memoriesUsed: seq<Memory>, timestamp: string)
  datatype RememberRequest = RememberRequest(key: string, value: string, userId: string, metadata: Option<Obj>)
  datatype RememberResponse = RememberResponse(success: bool, memoryId: string, message: string)
  datatype RecallRequest = RecallRequest(query: string, userId: string, limit: int)
  datatype RecallResponse = RecallResponse(memories: seq<Memory>, count: int)
  datatype StatusResponse = StatusResponse(status: string, memoryCount: int, lastUpdate: Option<string>, storageStatus: string)

  // ---------------------------------------------------------------------------
  // Fields

  /** A `str` field: required when there is no default, at least `minLength` long. */
  function StringField(body: Obj, name: string, default: Option<string>, minLength: nat): (r: Result<string, FieldError>)
    ensures r.Ok? ==> |r.value| >= minLength
    ensures r.Ok? ==> Get(body, name) == Some(JStr(r.value)) || (Get(body, name).None? && default == Some(r.value))
    ensures Get(body, name).None? && default.None? ==> r == Err(Missing(name))
    ensures var v := Get(body, name); v.Some? && v.value.JStr? && |v.value.s| >= minLength ==> r == Ok(v.value.s)
  {
    match Get(body, name)
    case None => if default.Some? && |default.value| >= minLength then Ok(default.value) else Err(Missing(name))
    case Some(JStr(s)) => if |s| >= minLength then Ok(s) else Err(TooShort(name))
    case Some(_) => Err(WrongType(name))
  }

  /** A `bool` field with a default. */
  function BoolField(body: Obj, name: string, default: bool): (r: Result<bool, FieldError>)
    ensures Get(body, name).None? ==> r == Ok(default)
    ensures var v := Get(body, name); v.Some? && v.value.JBool? ==> r == Ok(v.value.b)
    ensures r.Err? <==> Get(body, name).Some? && !Get(body, name).value.JBool?
  {
    match Get(body, name)
    case None => Ok(default)
    case Some(JBool(b)) => Ok(b)
    case Some(_) => Err(WrongType(name))
  }

  /** An `int` field with a default, bounded by `ge=lo` and `le=hi`. */
  function BoundedIntField(body: Obj, name: string, default: int, lo: int, hi: int): (r: Result<int, FieldError>)
    ensures r.Ok? ==> (lo <= r.value <= hi || (Get(body, name).None? && r.value == default))
    ensures Get(body, name).None? ==> r == Ok(default)
    ensures var v := Get(body, name);
      v.Some? && v.value.JNum? ==> r == if lo <= v.value.n <= hi then Ok(v.value.n) else Err(OutOfRange(name))
  {
    match Get(body, name)
    case None => Ok(default)
    case Some(JNum(n)) => if lo <= n <= hi then Ok(n) else Err(OutOfRange(name))
    case Some(_) => Err(WrongType(name))
  }

  /** An `Optional[str]` field: absent or `null` is None. */
  function OptionalStringField(body: Obj, name: string): (r: Result<Option<string>, FieldError>)
    ensures (Get(body, name).None? || Get(body, name) == Some(JNull)) ==> r == Ok(None)
    ensures var v := Get(body, name); v.Some? && v.value.JStr? ==> r == Ok(Some(v.value.s))
    ensures r.Ok? && r.value.Some? ==> Get(body, name) == Some(JStr(r.value.value))
  {
    match Get(body, name)
    case None => Ok(None)
    case Some(JNull) => Ok(None)
    case Some(JStr(s)) => Ok(Some(s))
    case Some(_) => Err(WrongType(name))
  }

  /** An `Optional[Dict[str, Any]]` field: absent or `null` is None. */
  function OptionalObjectField(body: Obj, name: string): (r: Result<Option<Obj>, FieldError>)
    ensures (Get(body, name).None? || Get(body, name) == Some(JNull)) ==> r == Ok(None)
    ensures var v := Get(body, name); v.Some? && v.value.JObj? ==> r == Ok(Some(v.value.members))
    ensures r.Ok? && r.value.Some? ==> Get(body, name) == Some(JObj(r.value.value))
  {
    match Get(body, name)
    case None => Ok(None)
    case Some(JNull) => Ok(None)
    case Some(JObj(o)) => Ok(Some(o))
    case Some(_) => Err(WrongType(name))
  }

  // ---------------------------------------------------------------------------
  // Requests

  function ParseChatRequest(body: Obj): (r: Result<ChatRequest, FieldError>)
    ensures r.Ok? ==> |r.value.message| >= 1 && Get(body, "message") == Some(JStr(r.value.message))
    ensures Get(body, "message").None? ==> r == Err(Missing("message"))
  {
    var message :- StringField(body, "message", None, 1);
    var userId :- StringField(body, "user_id", Some(DefaultUserId), 0);
    var memoryEnabled :- BoolField(body, "memory_enabled", true);
    var voiceData :- OptionalStringField(body, "voice_data");
    Ok(ChatRequest(message, userId, memoryEnabled, voiceData))
  }

  /** A body with a non-empty message text, a user text, a boolean switch and no
      audio is accepted with exactly those fields. */
  lemma ChatRequestOf(body: Obj, message: string, userId: string, memoryEnabled: bool)
    requires message != ""
    requires Get(body, "message") == Some(JStr(message)) && Get(body, "user_id") == Some(JStr(userId))
    requires Get(body, "memory_enabled") == Some(JBool(memoryEnabled)) && Get(body, "voice_data").None?
    ensures ParseChatRequest(body) == Ok(ChatRequest(message, userId, memoryEnabled, None))
  {
    assert StringField(body, "message", None, 1) == Ok(message);
    assert StringField(body, "user_id", Some(DefaultUserId), 0) == Ok(userId);
  }

  /** A body holding only a non-empty message takes every default. */
  lemma ChatRequestDefaults(message: string)
    requires message != ""
    ensures ParseChatRequest([("message", JStr(message))])
         == Ok(ChatRequest(message, DefaultUserId, true, None))
  {
  }

  function ParseRememberRequest(body: Obj): (r: Result<RememberRequest, FieldError>)
    ensures r.Ok? ==> |r.value.key| >= 1 && |r.value.value| >= 1
    ensures r.Ok? && r.value.metadata.Some? ==> Get(body, "metadata") == Some(JObj(r.value.metadata.value))
  {
    var key :- StringField(body, "key", None, 1);
    var value :- StringField(body, "value", None, 1);
    var userId :- StringField(body, "user_id", Some(DefaultUserId), 0);
    var metadata :- OptionalObjectField(body, "metadata");
    Ok(RememberRequest(key, value, userId, metadata))
  }

  /** A body whose key and value are non-empty texts, whose user is a text and whose
      metadata is absent, `null` or an object is accepted with exactly those fields. */
  lemma RememberRequestOf(body: Obj, key: string, value: string, userId: string)
    requires key != "" && value != ""
    requires Get(body, "key") == Some(JStr(key)) && Get(body, "value") == Some(JStr(value))
    requires Get(body, "user_id") == Some(JStr(userId))
    requires var m := Get(body, "metadata"); m.None? || m.value.JNull? || m.value.JObj?
    ensures var m := Get(body, "metadata");
      ParseRememberRequest(body)
        == Ok(RememberRequest(key, value, userId, if m.Some? && m.value.JObj? then Some(m.value.members) else None))
  {
    assert StringField(body, "key", None, 1) == Ok(key);
    assert StringField(body, "value", None, 1) == Ok(value);
    assert StringField(body, "user_id", Some(DefaultUserId), 0) == Ok(userId);
  }

  /** Metadata parsed from a well-formed body is a well-formed object. */
  lemma RememberMetadataWellFormed(body: Obj)
    requires WellFormedObj(body)
    requires ParseRememberRequest(body).Ok? && ParseRememberRequest(body).value.metadata.Some?
    ensures WellFormedObj(ParseRememberRequest(body).value.metadata.value)
  {
    GetWellFormed(body, "metadata");
  }

  const DefaultRecallLimit := 5
  const MinRecallLimit := 1
  const MaxRecallLimit := 20

  function ParseRecallRequest(body: Obj): (r: Result<RecallRequest, FieldError>)
    ensures r.Ok? ==> |r.value.query| >= 1 && MinRecallLimit <= r.value.limit <= MaxRecallLimit
    ensures r.Ok? && Get(body, "limit").None? ==> r.value.limit == DefaultRecallLimit
  {
    var query :- StringField(body, "query", None, 1);
    var userId :- StringField(body, "user_id", Some(DefaultUserId), 0);
    var limit :- BoundedIntField(body, "limit", DefaultRecallLimit, MinRecallLimit, MaxRecallLimit);
    Ok(RecallRequest(query, userId, limit))
  }

  /** A limit outside 1..20 is rejected once the query and user are valid. */
  lemma RecallLimitOutOfRange(query: string, limit: int)
    requires query != "" && (limit < MinRecallLimit || limit > MaxRecallLimit)
    ensures ParseRecallRequest([("query", JStr(query)), ("limit", JNum(limit))]) == Err(OutOfRange("limit"))
  {
  }

  // ---------------------------------------------------------------------------
  // Responses: the fields with defaults

  /** `ChatResponse(...)` where `memories_used` defaults to the empty list. */
  function MakeChatResponse(response: string, memoriesUsed: Option<seq<Memory>>, timestamp: string): (r: ChatResponse)
    ensures memoriesUsed.None? ==> r.memoriesUsed == []
    ensures memoriesUsed.Some? ==> r.memoriesUsed == memoriesUsed.value
    ensures r.response == response && r.timestamp == timestamp
  {
    ChatResponse(response, memoriesUsed.GetOr([]), timestamp)
  }

  /** `StatusResponse(...)` where `status` defaults to "operational" and
      `last_update` to None. */
  function MakeStatusResponse(status: Option<string>, memoryCount: int, lastUpdate: Option<string>,
                              storageStatus: string): (r: StatusResponse)
    ensures status.None? ==> r.status == "operational"
    ensures status.Some? ==> r.status == status.value
    ensures r.memoryCount == memoryCount && r.lastUpdate == lastUpdate && r.storageStatus == storageStatus
  {
    StatusResponse(status.GetOr("operational"), memoryCount, lastUpdate, storageStatus)
  }
}

=== FILE: text.dfy ===
/** The string operations the core relies on: Python's `lower`, `split`, `split(sep)`,
    `strip`, `in` and slicing, and the decimal rendering of numbers. Strings are
    sequences of Unicode scalar values, as Python's `str` is. */
module Text {

  /** Python's `str.isspace`: the characters `split()` and `strip()` treat as whitespace. */
  predicate IsSpace(c: char)
  {
    || c == ' '
    || ('\t' <= c <= '\r')
    || ('\U{1c}' <= c <= '\U{1f}')
    || c == '\U{85}' || c == '\U{a0}' || c == '\U{1680}'
    || ('\U{2000}' <= c <= '\U{200a}')
    || c == '\U{2028}' || c == '\U{2029}' || c == '\U{202f}' || c == '\U{205f}' || c == '\U{3000}'
  }

  predicate IsDigit(c: char)
  {
    '0' <= c <= '9'
  }

  predicate AllDigits(s: string)
  {
    forall i :: 0 <= i < |s| ==> IsDigit(s[i])
  }

  function LowerChar(c: char): char
  {
    if 'A' <= c <= 'Z' then (c as int + 32) as char else c
  }

  /** `s.lower()` on the ASCII letters. */
  function Lower(s: string): (r: string)
    ensures |r| == |s|
    ensures forall i :: 0 <= i < |r| ==> !('A' <= r[i] <= 'Z')
  {
    seq(|s|, i requires 0 <= i < |s| => LowerChar(s[i]))
  }

  /** `s[:n]` for a non-negative `n`. */
  function Prefix(s: string, n: nat): (r: string)
    ensures |r| == if n < |s| then n else |s|
    ensures r <= s
  {
    if n < |s| then s[..n] else s
  }

  // ---------------------------------------------------------------------------
  // Substrings

  predicate MatchAt(hay: string, needle: string, i: nat)
  {
    i + |needle| <= |hay| && hay[i..i + |needle|] == needle
  }

  /** Python's `needle in hay` on strings. */
  predicate Contains(hay: string, needle: string)
  {
    exists i :: 0 <= i <= |hay| && MatchAt(hay, needle, i)
  }

  /** A string contains whatever a middle part of it contains. */
  lemma ContainsWithin(a: string, mid: string, b: string, needle: string)
    requires Contains(mid, needle)
    ensures Contains(a + mid + b, needle)
  {
    var j :| 0 <= j <= |mid| && MatchAt(mid, needle, j);
    var big := a + mid + b;
    assert big[|a| + j..|a| + j + |needle|] == mid[j..j + |needle|];
    assert MatchAt(big, needle, |a| + j);
  }

  lemma ContainsLeft(a: string, b: string, needle: string)
    requires Contains(a, needle)
    ensures Contains(a + b, needle)
  {
    var j :| 0 <= j <= |a| && MatchAt(a, needle, j);
    assert (a + b)[j..j + |needle|] == a[j..j + |needle|];
    assert MatchAt(a + b, needle, j);
  }

  lemma ContainsRight(a: string, b: string, needle: string)
    requires Contains(b, needle)
    ensures Contains(a + b, needle)
  {
    var j :| 0 <= j <= |b| && MatchAt(b, needle, j);
    assert (a + b)[|a| + j..|a| + j + |needle|] == b[j..j + |needle|];
    assert MatchAt(a + b, needle, |a| + j);
  }

  lemma ContainsSelf(s: string)
    ensures Contains(s, s)
  {
    assert MatchAt(s, s, 0);
  }

  // ---------------------------------------------------------------------------
  // str.split() with no separator

  /** A word of `split()`: non-empty and free of whitespace. */
  predicate IsWord(w: string)
  {
    w != [] && forall j :: 0 <= j < |w| ==> !IsSpace(w[j])
  }

  function LeadingWordLength(s: string): (n: nat)
    ensures n <= |s|
    ensures forall i :: 0 <= i < n ==> !IsSpace(s[i])
    ensures n < |s| ==> IsSpace(s[n])
  {
    if s == [] || IsSpace(s[0]) then 0 else 1 + LeadingWordLength(s[1..])
  }

  /** `s.split()`: the maximal runs of non-whitespace characters, in order. */
  function Words(s: string): (words: seq<string>)
    ensures forall i :: 0 <= i < |words| ==> IsWord(words[i])
    decreases |s|
  {
    if s == [] then []
    else if IsSpace(s[0]) then Words(s[1..])
    else
      var n := LeadingWordLength(s);
      [s[..n]] + Words(s[n..])
  }

  function WordSet(s: string): set<string>
  {
    set w | w in Words(s)
  }

  // ---------------------------------------------------------------------------
  // str.split(sep) with a one-character separator, and its inverse

  function Count(s: string, c: char): nat
  {
    if s == [] then 0 else (if s[0] == c then 1 else 0) + Count(s[1..], c)
  }

  /** `sep.join(parts)`. */
  function Join(parts: seq<string>, sep: string): string
  {
    if parts == [] then ""
    else if |parts| == 1 then parts[0]
    else parts[0] + sep + Join(parts[1..], sep)
  }

  /** Joining one more part appends the separator and the part. */
  lemma {:induction false} JoinSnoc(parts: seq<string>, x: string, sep: string)
    requires parts != []
    ensures Join(parts + [x], sep) == Join(parts, sep) + sep + x
  {
    if |parts| == 1 {
      assert (parts + [x])[1..] == [x];
    } else {
      assert (parts + [x])[1..] == parts[1..] + [x];
      JoinSnoc(parts[1..], x, sep);
    }
  }

  /** Every part of a join occurs in it. */
  lemma {:induction false} JoinContains(parts: seq<string>, sep: string, i: nat)
    requires i < |parts|
    ensures Contains(Join(parts, sep), parts[i])
  {
    if |parts| == 1 {
      ContainsSelf(parts[0]);
    } else if i == 0 {
      ContainsSelf(parts[0]);
      ContainsWithin([], parts[0], sep + Join(parts[1..], sep), parts[0]);
      assert [] + parts[0] + (sep + Join(parts[1..], sep)) == Join(parts, sep);
    } else {
      JoinContains(parts[1..], sep, i - 1);
      ContainsWithin(parts[0] + sep, Join(parts[1..], sep), [], parts[i]);
      assert parts[0] + sep + Join(parts[1..], sep) + [] == Join(parts, sep);
    }
  }

  /** `s.split(sep)`: one piece per separator plus one, none containing the separator,
      empty pieces kept. */
  function SplitOn(s: string, sep: char): (pieces: seq<string>)
    ensures |pieces| == Count(s, sep) + 1
    ensures forall i :: 0 <= i < |pieces| ==> sep !in pieces[i]
  {
    if s == [] then [""]
    else
      var rest := SplitOn(s[1..], sep);
      if s[0] == sep then [""] + rest
      else [[s[0]] + rest[0]] + rest[1..]
  }

  lemma JoinConsHead(c: char, parts: seq<string>, sep: string)
    requires parts != []
    ensures Join([[c] + parts[0]] + parts[1..], sep) == [c] + Join(parts, sep)
  {
  }

  /** Joining the pieces of a split with the separator gives back the string. */
  lemma {:induction false} JoinSplitOn(s: string, sep: char)
    ensures Join(SplitOn(s, sep), [sep]) == s
  {
    if s != [] {
      var rest := SplitOn(s[1..], sep);
      JoinSplitOn(s[1..], sep);
      if s[0] == sep {
        assert SplitOn(s, sep) == [""] + rest;
        assert ([""] + rest)[1..] == rest;
      } else {
        JoinConsHead(s[0], rest, [sep]);
      }
    }
  }

  // ---------------------------------------------------------------------------
  // str.strip()

  function StripStart(s: string): (i: nat)
    ensures i <= |s|
    ensures forall k :: 0 <= k < i ==> IsSpace(s[k])
    ensures i < |s| ==> !IsSpace(s[i])
  {
    if s != [] && IsSpace(s[0]) then 1 + StripStart(s[1..]) else 0
  }

  function StripEnd(s: string, lo: nat): (j: nat)
    requires lo <= |s|
    ensures lo <= j <= |s|
    ensures forall k :: j <= k < |s| ==> IsSpace(s[k])
    ensures j > lo ==> !IsSpace(s[j - 1])
    decreases |s|
  {
    if |s| > lo && IsSpace(s[|s| - 1]) then StripEnd(s[..|s| - 1], lo) else |s|
  }

  /** Every character of `t` is whitespace (`t` may be empty). */
  predicate Blank(t: string)
  {
    forall k :: 0 <= k < |t| ==> IsSpace(t[k])
  }

  /** `s.strip()`: the result neither starts nor ends with whitespace, and it is
      empty exactly when `s` is all whitespace. */
  function Strip(s: string): (r: string)
    ensures |r| <= |s|
    ensures r == [] || (!IsSpace(r[0]) && !IsSpace(r[|r| - 1]))
    ensures r == [] <==> Blank(s)
  {
    var i := StripStart(s);
    assert i == |s| ==> Blank(s);
    s[i..StripEnd(s, i)]
  }

  /** What `strip` removes is whitespace only: `s` is a whitespace prefix, then the
      result, then a whitespace suffix. */
  lemma StripInfix(s: string)
    ensures exists i :: 0 <= i <= |s| - |Strip(s)| && s[i..i + |Strip(s)|] == Strip(s)
                        && Blank(s[..i]) && Blank(s[i + |Strip(s)|..])
  {
    var i := StripStart(s);
    assert Blank(s[..i]) && Blank(s[StripEnd(s, i)..]);
  }

  // ---------------------------------------------------------------------------
  // Decimal numbers

  function DigitChar(d: nat): (c: char)
    requires d < 10
    ensures IsDigit(c)
  {
    ('0' as int + d) as char
  }

  function DigitValue(c: char): nat
    requires IsDigit(c)
  {
    c as int - '0' as int
  }

  /** The value of a string of decimal digits. */
  function DigitsValue(s: string): nat
    requires AllDigits(s)
  {
    if s == [] then 0 else 10 * DigitsValue(s[..|s| - 1]) + DigitValue(s[|s| - 1])
  }

  /** `str(n)` for a natural number: digits only, no leading zero, and reading them
      back gives `n`. */
  function NatToString(n: nat): (r: string)
    ensures r != [] && AllDigits(r)
    ensures r[0] == '0' ==> n == 0
    ensures DigitsValue(r) == n
  {
    if n < 10 then [DigitChar(n)]
    else
      var p := NatToString(n / 10);
      var r := p + [DigitChar(n % 10)];
      assert r[..|r| - 1] == p;
      r
  }

  /** `str(i)` for a Python or JavaScript integer. */
  function IntToString(i: int): (r: string)
    ensures r != []
  {
    if i < 0 then "-" + NatToString(-i) else NatToString(i)
  }
}

=== FILE: theme.dfy ===
/** The theme settings provider (`frontend/src/contexts/ThemeContext.jsx`). The
    settings are a plain JavaScript object, updated by spreading partial objects
    over it; every change is saved in browser storage and applied to the
    document's root element as two colour properties and five attributes. */
module Theme {
  import opened Wrappers
  import opened Json
  import opened JsonCodec
  import JsonRoundTrip
  import Text
  import opened Browser

  function Preset(primary: string, secondary: string, name: string): Json
  {
    JObj([("primary", JStr(primary)), ("secondary", JStr(secondary)), ("name", JStr(name))])
  }

  /** `THEME_PRESETS`. */
  const ThemePresets: Obj := [
    ("deepspace", Preset("#8b5cf6", "#22d3ee", "Deep Space")),
    ("ocean", Preset("#3b82f6", "#06b6d4", "Ocean Blue")),
    ("forest", Preset("#10b981", "#84cc16", "Forest Green")),
    ("sunset", Preset("#f97316", "#fb923c", "Sunset Orange")),
    ("rose", Preset("#ec4899", "#f472b6", "Rose Pink"))
  ]

  /** `DEFAULT_SETTINGS`. */
  const DefaultSettings: Obj := [
    ("mode", JStr("dark")),
    ("colorTheme", JStr("deepspace")),
    ("customColors", JNull),
    ("fontSize", JStr("medium")),
    ("bubbleStyle", JStr("modern")),
    ("viewDensity", JStr("comfortable")),
    ("backgroundPattern", JStr("none"))
  ]

  const ThemeKey := "memora_theme_settings"

  // ---------------------------------------------------------------------------
  // Loading

  /** The members `{...v}` copies: an object's own members, an array's or a
      string's elements under their indices, and nothing for other values. */
  function SpreadMembers(v: Json): Obj
  {
    match v
    case JObj(ms) => ms
    case JArr(items) => seq(|items|, i requires 0 <= i < |items| => (Text.NatToString(i), items[i]))
    case JStr(s) => seq(|s|, i requires 0 <= i < |s| => (Text.NatToString(i), JStr([s[i]])))
    case _ => []
  }

  /** The initial settings: the defaults when nothing (or an empty string) is
      stored, else the defaults overridden by the parsed stored value. None where
      `JSON.parse` throws, which the provider does not catch. */
  function LoadedSettings(saved: Option<string>): (r: Option<Obj>)
    ensures (saved.None? || saved == Some("")) ==> r == Some(DefaultSettings)
    ensures r.None? ==> saved.Some? && Decode(saved.value).None?
  {
    if saved.None? || saved.value == "" then Some(DefaultSettings)
    else
      match Decode(saved.value)
      case None => None
      case Some(v) => Some(Merge(DefaultSettings, SpreadMembers(v)))
  }

  /** Settings with exactly the default keys, in the default order. */
  predicate Shaped(s: Obj)
  {
    Keys(s) == Keys(DefaultSettings) && WellFormedObj(s)
  }

  lemma DefaultsShaped()
    ensures Shaped(DefaultSettings)
  {
    var d := DefaultSettings;
    assert ValuesWellFormed(d) by {
      forall i | 0 <= i < |d| ensures WellFormedMember(d, i) { }
    }
    DefaultsDistinct();
  }

  lemma DefaultsDistinct()
    ensures DistinctKeys(DefaultSettings)
  {
    var d := DefaultSettings;
    forall i, j | 0 <= i < j < |d| ensures d[i].0 != d[j].0 {
      if |d[i].0| == |d[j].0| {
        assert d[i].0[0] != d[j].0[0];
      }
    }
  }

  /** Saving shaped settings and loading them back gives the same settings, with
      their keys in the same order. */
  lemma SaveThenLoad(s: Obj)
    requires Shaped(s)
    ensures LoadedSettings(Some(Encode(JObj(s)))) == Some(s)
  {
    JsonRoundTrip.DecodeEncode(JObj(s));
    MergeSameKeys(DefaultSettings, s);
  }

  // ---------------------------------------------------------------------------
  // Colours and tokens

  /** `String(v)`, with `undefined` as None: how attribute values and property
      keys are converted. */
  function StringOf(v: Option<Json>): string
  {
    if v.None? then "undefined" else ToJsString(v.value)
  }

  /** `settings.customColors || THEME_PRESETS[settings.colorTheme]`, None for
      `undefined`. */
  function CurrentColors(s: Obj): Option<Json>
  {
    var custom := Get(s, "customColors");
    if custom.Some? && Truthy(custom.value) then custom else Get(ThemePresets, StringOf(Get(s, "colorTheme")))
  }

  /** Reading `colors.primary` throws unless the colours are neither `undefined` nor `null`. */
  predicate CanApply(s: Obj)
  {
    CurrentColors(s).Some? && !CurrentColors(s).value.JNull?
  }

  /** `colors[name]`: only objects have the colour members. */
  function ColorMember(colors: Json, name: string): Option<Json>
  {
    if colors.JObj? then Get(colors.members, name) else None
  }

  /** The value `setProperty` receives: `undefined` becomes "undefined", and
      `null` or an empty text removes the property (None). */
  function StyleValue(v: Option<Json>): (r: Option<string>)
    ensures r.Some? ==> r.value != ""
    ensures forall t :: v == Some(JStr(t)) && t != "" ==> r == Some(t)
  {
    var text := if v.Some? && v.value.JNull? then "" else StringOf(v);
    if text == "" then None else Some(text)
  }

  /** The root's inline style after the two colour properties are set. */
  function Styled(style: map<string, string>, s: Obj): map<string, string>
    requires CanApply(s)
  {
    var colors := CurrentColors(s).value;
    SetStyle(SetStyle(style, "--color-primary", StyleValue(ColorMember(colors, "primary"))),
             "--color-secondary", StyleValue(ColorMember(colors, "secondary")))
  }

  const AttributeNames: set<string> := {"data-theme", "data-bubble-style", "data-view-density", "data-font-size", "data-bg-pattern"}

  function AttributeMap(theme: string, bubbleStyle: string, viewDensity: string, fontSize: string, pattern: string): (r: map<string, string>)
    ensures r.Keys == AttributeNames
  {
    map[
      "data-theme" := theme,
      "data-bubble-style" := bubbleStyle,
      "data-view-density" := viewDensity,
      "data-font-size" := fontSize,
      "data-bg-pattern" := pattern
    ]
  }

  /** Setting the five attributes one by one writes the attribute map over the old attributes. */
  lemma AttributesWritten(m: map<string, string>, theme: string, bubbleStyle: string, viewDensity: string,
                          fontSize: string, pattern: string)
    ensures m["data-theme" := theme]["data-bubble-style" := bubbleStyle]["data-view-density" := viewDensity]
             ["data-font-size" := fontSize]["data-bg-pattern" := pattern]
         == m + AttributeMap(theme, bubbleStyle, viewDensity, fontSize, pattern)
  {
    var x := m["data-theme" := theme]["data-bubble-style" := bubbleStyle]["data-view-density" := viewDensity]
             ["data-font-size" := fontSize]["data-bg-pattern" := pattern];
    var y := m + AttributeMap(theme, bubbleStyle, viewDensity, fontSize, pattern);
    assert forall n :: (n in x <==> n in y) && (n in x ==> x[n] == y[n]);
  }

  /** The five data attributes. */
  function AttributeTokens(s: Obj): (r: map<string, string>)
    ensures r.Keys == AttributeNames
  {
    AttributeMap(StringOf(Get(s, "mode")), StringOf(Get(s, "bubbleStyle")), StringOf(Get(s, "viewDensity")),
                 StringOf(Get(s, "fontSize")), StringOf(Get(s, "backgroundPattern")))
  }

  /** The root's style and attributes after `applyTheme(s)`: unchanged when the
      colours cannot be read, since the first statement throws. */
  function Rendered(style: map<string, string>, attributes: map<string, string>, s: Obj): (map<string, string>, map<string, string>)
  {
    if CanApply(s) then (Styled(style, s), attributes + AttributeTokens(s)) else (style, attributes)
  }

  /** Applying new settings overwrites every token the previous application
      wrote: the result does not depend on the earlier settings. */
  lemma ReapplyReplaces(style: map<string, string>, attributes: map<string, string>, s1: Obj, s2: Obj)
    requires CanApply(s1) && CanApply(s2)
    ensures Rendered(Rendered(style, attributes, s1).0, Rendered(style, attributes, s1).1, s2)
         == Rendered(style, attributes, s2)
  {
    var c1 := CurrentColors(s1).value;
    var c2 := CurrentColors(s2).value;
    SetStyleAgain(style, "--color-primary", "--color-secondary",
      StyleValue(ColorMember(c1, "primary")), StyleValue(ColorMember(c1, "secondary")),
      StyleValue(ColorMember(c2, "primary")), StyleValue(ColorMember(c2, "secondary")));
    OverwriteSameKeys(attributes, AttributeTokens(s1), AttributeTokens(s2));
  }

  /** The root after a run of applications, each of which can read its colours. */
  function RenderedAll(style: map<string, string>, attributes: map<string, string>, ss: seq<Obj>): (map<string, string>, map<string, string>)
    requires forall i :: 0 <= i < |ss| ==> CanApply(ss[i])
    decreases |ss|
  {
    if ss == [] then (style, attributes)
    else
      var r := Rendered(style, attributes, ss[0]);
      RenderedAll(r.0, r.1, ss[1..])
  }

  /** After any run of applications the root holds what applying the last settings
      alone gives. */
  lemma {:induction false} RenderedAllLast(style: map<string, string>, attributes: map<string, string>, ss: seq<Obj>)
    requires ss != [] && forall i :: 0 <= i < |ss| ==> CanApply(ss[i])
    ensures RenderedAll(style, attributes, ss) == Rendered(style, attributes, ss[|ss| - 1])
    decreases |ss|
  {
    if |ss| > 1 {
      var r := Rendered(style, attributes, ss[0]);
      RenderedAllLast(r.0, r.1, ss[1..]);
      ReapplyReplaces(style, attributes, ss[0], ss[|ss| - 1]);
    }
  }

  // ---------------------------------------------------------------------------
  // The settings panel's updates (`frontend/src/components/SettingsPanel.jsx`)

  datatype PanelAction =
    | SetMode(mode: string)
    | PickPreset(key: string)
    | ApplyCustom(primary: string, secondary: string)
    | SetFontSize(size: string)
    | SetBubbleStyle(style: string)
    | SetViewDensity(density: string)
    | SetBackgroundPattern(pattern: string)
    | Reset

  /** The partial object each action passes to `updateSettings`. */
  function Payload(a: PanelAction): Obj
    requires !a.Reset?
  {
    match a
    case SetMode(m) => [("mode", JStr(m))]
    case PickPreset(k) => [("colorTheme", JStr(k)), ("customColors", JNull)]
    case ApplyCustom(p, q) =>
      [("customColors", JObj([("primary", JStr(p)), ("secondary", JStr(q))])), ("colorTheme", JStr("custom"))]
    case SetFontSize(x) => [("fontSize", JStr(x))]
    case SetBubbleStyle(x) => [("bubbleStyle", JStr(x))]
    case SetViewDensity(x) => [("viewDensity", JStr(x))]
    case SetBackgroundPattern(x) => [("backgroundPattern", JStr(x))]
  }

  function AfterAction(s: Obj, a: PanelAction): Obj
  {
    if a.Reset? then DefaultSettings else Merge(s, Payload(a))
  }

  function AfterActions(s: Obj, actions: seq<PanelAction>): Obj
    decreases |actions|
  {
    if actions == [] then s else AfterActions(AfterAction(s, actions[0]), actions[1..])
  }

  /** The keys of the defaults, in order. */
  const SettingNames: seq<string> :=
    ["mode", "colorTheme", "customColors", "fontSize", "bubbleStyle", "viewDensity", "backgroundPattern"]

  lemma DefaultKeys()
    ensures Keys(DefaultSettings) == SettingNames
  {
  }

  /** The panel offers only the preset keys. */
  predicate Offered(a: PanelAction)
  {
    a.PickPreset? ==> a.key in Keys(ThemePresets)
  }

  /** Every payload is a well-formed object over keys the defaults have. */
  lemma PayloadShape(a: PanelAction)
    requires !a.Reset?
    ensures DistinctKeys(Payload(a)) && ValuesWellFormed(Payload(a))
    ensures forall k :: k in Keys(Payload(a)) ==> k in SettingNames
  {
    var p := Payload(a);
    if a.ApplyCustom? {
      var c: Obj := [("primary", JStr(a.primary)), ("secondary", JStr(a.secondary))];
      assert WellFormedMember(c, 0) && WellFormedMember(c, 1);
      assert WellFormedObj(c);
    }
    assert ValuesWellFormed(p) by {
      forall i | 0 <= i < |p| ensures WellFormedMember(p, i) { }
    }
  }

  predicate IsText(v: Option<Json>)
  {
    v.Some? && v.value.JStr?
  }

  /** The colours resolve to an object with a primary and a secondary text. */
  predicate Resolvable(s: Obj)
  {
    && CanApply(s)
    && IsText(ColorMember(CurrentColors(s).value, "primary"))
    && IsText(ColorMember(CurrentColors(s).value, "secondary"))
  }

  /** The colours depend on the two colour fields only. */
  lemma ColorsFromFields(s: Obj, t: Obj)
    requires Get(s, "customColors") == Get(t, "customColors")
    requires Get(s, "colorTheme") == Get(t, "colorTheme")
    ensures CurrentColors(s) == CurrentColors(t)
  {
  }

  /** Each preset has a primary and a secondary text. */
  lemma PresetColors(primary: string, secondary: string, name: string)
    ensures IsText(ColorMember(Preset(primary, secondary, name), "primary"))
    ensures IsText(ColorMember(Preset(primary, secondary, name), "secondary"))
  {
    var m := Preset(primary, secondary, name).members;
    assert Get(m, "secondary") == Get(m[1..], "secondary");
  }

  /** A colour object with a primary and a secondary text. */
  predicate ColorsText(v: Json)
  {
    IsText(ColorMember(v, "primary")) && IsText(ColorMember(v, "secondary"))
  }

  /** Every entry of the preset table has primary and secondary colour texts. */
  lemma PresetsAllColors()
    ensures forall i :: 0 <= i < |ThemePresets| ==> ColorsText(ThemePresets[i].1)
  {
    forall p, q, n ensures ColorsText(Preset(p, q, n)) {
      PresetColors(p, q, n);
    }
  }

  /** Every preset key names an entry with primary and secondary colour texts. */
  lemma PresetsResolvable(k: string)
    requires k in Keys(ThemePresets)
    ensures Get(ThemePresets, k).Some?
    ensures ColorsText(Get(ThemePresets, k).value)
  {
    PresetsAllColors();
    var v := Get(ThemePresets, k).value;
    assert (k, v) in ThemePresets;
  }

  /** Settings naming a preset, without custom colours, resolve to that preset. */
  lemma PresetSelected(s: Obj, k: string)
    requires Get(s, "customColors") == Some(JNull) && Get(s, "colorTheme") == Some(JStr(k))
    requires k in Keys(ThemePresets)
    ensures CurrentColors(s) == Get(ThemePresets, k)
    ensures Resolvable(s)
  {
    PresetsResolvable(k);
  }

  lemma DefaultsResolvable()
    ensures Resolvable(DefaultSettings)
  {
    var d := DefaultSettings;
    assert d[1].0 == "colorTheme";
    assert Get(d, "colorTheme") == Some(JStr("deepspace"));
    assert d[2].0 == "customColors";
    assert Get(d[1..], "customColors") == Some(JNull);
    assert Get(d, "customColors") == Some(JNull);
    assert "deepspace" == ThemePresets[0].0;
    PresetSelected(d, "deepspace");
  }

  /** One panel action keeps the settings shaped. */
  lemma ActionKeepsShape(s: Obj, a: PanelAction)
    requires Shaped(s)
    ensures Shaped(AfterAction(s, a))
  {
    if a.Reset? {
      DefaultsShaped();
    } else {
      var p := Payload(a);
      PayloadShape(a);
      DefaultKeys();
      MergeExisting(s, p);
      MergeWellFormed(s, p);
    }
  }

  lemma PickPresetResolvable(s: Obj, k: string)
    requires k in Keys(ThemePresets)
    ensures Resolvable(Merge(s, Payload(PickPreset(k))))
  {
    var p := Payload(PickPreset(k));
    var r := Merge(s, p);
    assert DistinctKeys(p) by { assert p[0].0 != p[1].0; }
    MergeGet(s, p, "customColors");
    MergeGet(s, p, "colorTheme");
    assert Get(p, "customColors") == Get(p[1..], "customColors") == Some(JNull);
    assert Get(r, "colorTheme") == Some(JStr(k));
    PresetSelected(r, k);
  }

  lemma ApplyCustomResolvable(s: Obj, primary: string, secondary: string)
    ensures Resolvable(Merge(s, Payload(ApplyCustom(primary, secondary))))
  {
    var p := Payload(ApplyCustom(primary, secondary));
    var r := Merge(s, p);
    var c := JObj([("primary", JStr(primary)), ("secondary", JStr(secondary))]);
    assert DistinctKeys(p) by { assert p[0].0 != p[1].0; }
    MergeGet(s, p, "customColors");
    assert Get(r, "customColors") == Some(c) && Truthy(c);
    assert ColorsText(c) by {
      assert Get(c.members, "secondary") == Get(c.members[1..], "secondary");
    }
    assert CurrentColors(r) == Some(c);
  }

  lemma OtherActionResolvable(s: Obj, a: PanelAction)
    requires Resolvable(s)
    requires !a.Reset? && !a.PickPreset? && !a.ApplyCustom?
    ensures Resolvable(Merge(s, Payload(a)))
  {
    var p := Payload(a);
    var r := Merge(s, p);
    PayloadShape(a);
    assert "customColors" !in Keys(p) && "colorTheme" !in Keys(p);
    MergeGet(s, p, "customColors");
    MergeGet(s, p, "colorTheme");
    ColorsFromFields(r, s);
  }

  /** One offered panel action keeps the colours resolvable. */
  lemma ActionKeepsResolvable(s: Obj, a: PanelAction)
    requires Resolvable(s) && Offered(a)
    ensures Resolvable(AfterAction(s, a))
  {
    match a
    case Reset => DefaultsResolvable();
    case PickPreset(k) => PickPresetResolvable(s, k);
    case ApplyCustom(pr, se) => ApplyCustomResolvable(s, pr, se);
    case _ => OtherActionResolvable(s, a);
  }

  /** From shaped, resolvable settings (the defaults are), any run of the panel's
      actions keeps the settings shaped and the colours resolvable, so applying
      the theme never throws. */
  lemma {:induction false} PanelKeepsResolvable(s: Obj, actions: seq<PanelAction>)
    requires Shaped(s) && Resolvable(s)
    requires forall i :: 0 <= i < |actions| ==> Offered(actions[i])
    ensures Shaped(AfterActions(s, actions)) && Resolvable(AfterActions(s, actions))
    decreases |actions|
  {
    if actions != [] {
      ActionKeepsShape(s, actions[0]);
      ActionKeepsResolvable(s, actions[0]);
      PanelKeepsResolvable(AfterAction(s, actions[0]), actions[1..]);
    }
  }

  /** Switching to light mode and then to large text gives the defaults with just
      those two fields changed. */
  lemma ModeThenFontSize()
    ensures Merge(Merge(DefaultSettings, [("mode", JStr("light"))]), [("fontSize", JStr("large"))])
         == DefaultSettings[0 := ("mode", JStr("light"))][3 := ("fontSize", JStr("large"))]
  {
    var d := DefaultSettings;
    var d1 := d[0 := ("mode", JStr("light"))];
    assert Merge(d, [("mode", JStr("light"))]) == Assign(d, "mode", JStr("light"));
    AssignAt(d, 0, JStr("light"));
    assert Merge(d1, [("fontSize", JStr("large"))]) == Assign(d1, "fontSize", JStr("large"));
    assert d1[3].0 == "fontSize" && d1[0].0 != "fontSize" && d1[1].0 != "fontSize" && d1[2].0 != "fontSize";
    AssignAt(d1, 3, JStr("large"));
  }

  /** The two switches give the same settings in either order. */
  lemma ModeFontSizeCommute()
    ensures Merge(Merge(DefaultSettings, [("mode", JStr("light"))]), [("fontSize", JStr("large"))])
         == Merge(Merge(DefaultSettings, [("fontSize", JStr("large"))]), [("mode", JStr("light"))])
  {
    var light := [("mode", JStr("light"))];
    var large := [("fontSize", JStr("large"))];
    DefaultsShaped();
    DefaultKeys();
    assert Keys(light) == ["mode"] && Keys(large) == ["fontSize"];
    MergeCommutes(DefaultSettings, light, large);
  }

  // ---------------------------------------------------------------------------
  // The provider

  class ThemeStore {
    var settings: Obj
    const storage: Storage
    const root: DocumentRoot

    /** Mounting: the settings are loaded, then the effect saves and applies them. */
    constructor (storage: Storage, root: DocumentRoot)
      requires LoadedSettings(storage.GetItem(ThemeKey)).Some?
      modifies storage, root
      ensures this.storage == storage && this.root == root
      ensures settings == LoadedSettings(old(storage.GetItem(ThemeKey))).value
      ensures storage.entries == old(storage.entries)[ThemeKey := Encode(JObj(settings))]
      ensures (root.style, root.attributes) == Rendered(old(root.style), old(root.attributes), settings)
    {
      settings := LoadedSettings(storage.GetItem(ThemeKey)).value;
      this.storage := storage;
      this.root := root;
      new;
      var _ := Effect();
    }

    /** `applyTheme(s)`: false where reading the colours throws, before anything is written. */
    method ApplyTheme(s: Obj) returns (applied: bool)
      modifies root
      ensures applied == CanApply(s)
      ensures (root.style, root.attributes) == Rendered(old(root.style), old(root.attributes), s)
    {
      var colors := CurrentColors(s);
      if colors.None? || colors.value.JNull? {
        return false;
      }
      var primary := StyleValue(ColorMember(colors.value, "primary"));
      var secondary := StyleValue(ColorMember(colors.value, "secondary"));
      var theme := StringOf(Get(s, "mode"));
      var bubbleStyle := StringOf(Get(s, "bubbleStyle"));
      var viewDensity := StringOf(Get(s, "viewDensity"));
      var fontSize := StringOf(Get(s, "fontSize"));
      var pattern := StringOf(Get(s, "backgroundPattern"));
      root.SetProperty("--color-primary", primary);
      root.SetProperty("--color-secondary", secondary);
      root.SetAttribute("data-theme", theme);
      root.SetAttribute("data-bubble-style", bubbleStyle);
      root.SetAttribute("data-view-density", viewDensity);
      root.SetAttribute("data-font-size", fontSize);
      root.SetAttribute("data-bg-pattern", pattern);
      AttributesWritten(old(root.attributes), theme, bubbleStyle, viewDensity, fontSize, pattern);
      applied := true;
    }

    /** The effect after each change of the settings: save the whole object, then apply it. */
    method Effect() returns (applied: bool)
      modifies storage, root
      ensures storage.entries == old(storage.entries)[ThemeKey := Encode(JObj(settings))]
      ensures applied == CanApply(settings)
      ensures (root.style, root.attributes) == Rendered(old(root.style), old(root.attributes), settings)
    {
      storage.SetItem(ThemeKey, Encode(JObj(settings)));
      applied := ApplyTheme(settings);
    }

    /** `updateSettings(partial)`: spread the partial object over the settings. */
    method UpdateSettings(partial: Obj) returns (applied: bool)
      modifies this, storage, root
      ensures settings == Merge(old(settings), partial)
      ensures storage.entries == old(storage.entries)[ThemeKey := Encode(JObj(settings))]
      ensures applied == CanApply(settings)
      ensures (root.style, root.attributes) == Rendered(old(root.style), old(root.attributes), settings)
    {
      settings := Merge(settings, partial);
      applied := Effect();
    }

    /** `resetSettings()`: back to the defaults, which always apply. */
    method ResetSettings() returns (applied: bool)
      modifies this, storage, root
      ensures settings == DefaultSettings
      ensures storage.entries == old(storage.entries)[ThemeKey := Encode(JObj(DefaultSettings))]
      ensures applied
      ensures (root.style, root.attributes) == Rendered(old(root.style), old(root.attributes), DefaultSettings)
    {
      settings := DefaultSettings;
      DefaultsResolvable();
      applied := Effect();
    }
  }
}

=== FILE: use_chat.dfy ===
/** The chat session hook (`frontend/src/hooks/useChat.js`): the message list, the
    loading flag and the last error, with the list kept in browser storage under
    `chat_<userId>`. Each React state update is one assignment; each save effect
    that follows a change of the list is folded into the method that changed it. */
module ChatHook {
  import opened Wrappers
  import opened Json
  import opened JsonCodec
  import JsonRoundTrip
  import JsonParseWellFormed
  import opened Browser
  import opened ApiClient

  function StorageKey(userId: string): string
  {
    "chat_" + userId
  }

  /** The fields every message starts with. */
  function MessageBase(id: int, role: string, content: string, timestamp: string): Obj
  {
    [("id", JNum(id)), ("role", JStr(role)), ("content", JStr(content)), ("timestamp", JStr(timestamp))]
  }

  /** `{id, role, content, timestamp, ...metadata}`. */
  function NewMessage(id: int, role: string, content: string, timestamp: string, metadata: Obj): Obj
  {
    Merge(MessageBase(id, role, content, timestamp), metadata)
  }

  /** A new message starts with the four base keys in order; a metadata key
      overrides the base field of the same name, and every other base field
      keeps its value. */
  lemma NewMessageFields(id: int, role: string, content: string, timestamp: string, metadata: Obj, k: string)
    requires DistinctKeys(metadata)
    ensures var ks := Keys(NewMessage(id, role, content, timestamp, metadata));
      |ks| >= 4 && ks[..4] == ["id", "role", "content", "timestamp"]
    ensures Get(NewMessage(id, role, content, timestamp, metadata), k)
         == if k in Keys(metadata) then Get(metadata, k) else Get(MessageBase(id, role, content, timestamp), k)
  {
    MergeSpec(MessageBase(id, role, content, timestamp), metadata);
    MergeGet(MessageBase(id, role, content, timestamp), metadata, k);
  }

  /** Messages built from well-formed metadata are well-formed objects. */
  lemma NewMessageWellFormed(id: int, role: string, content: string, timestamp: string, metadata: Obj)
    requires ValuesWellFormed(metadata)
    ensures WellFormedObj(NewMessage(id, role, content, timestamp, metadata))
  {
    var base := MessageBase(id, role, content, timestamp);
    assert ValuesWellFormed(base) by {
      forall i | 0 <= i < |base| ensures WellFormedMember(base, i) { }
    }
    MergeWellFormed(base, metadata);
  }

  /** The metadata of an assistant reply: `memories_used` or the empty list. */
  function ReplyMetadata(reply: ChatReply): Obj
  {
    [("memories_used", OrElse(reply.memoriesUsed, JArr([])))]
  }

  /** The list as a JSON array. */
  function AsArray(messages: seq<Obj>): Json
  {
    JArr(seq(|messages|, i requires 0 <= i < |messages| => JObj(messages[i])))
  }

  /** `JSON.stringify(messages)`. */
  function SavedForm(messages: seq<Obj>): string
  {
    Encode(AsArray(messages))
  }

  /** The save effect: a non-empty list is written whole; an empty one writes nothing. */
  function Persisted(entries: map<string, string>, key: string, messages: seq<Obj>): (r: map<string, string>)
    ensures messages == [] ==> r == entries
    ensures messages != [] ==> key in r && r[key] == SavedForm(messages)
    ensures forall k :: k != key ==> (k in r <==> k in entries) && (k in r ==> r[k] == entries[k])
  {
    if |messages| > 0 then entries[key := SavedForm(messages)] else entries
  }

  predicate AllWellFormed(messages: seq<Obj>)
  {
    forall i :: 0 <= i < |messages| ==> WellFormedObj(messages[i])
  }

  predicate AllObjects(items: seq<Json>)
  {
    forall i :: 0 <= i < |items| ==> items[i].JObj?
  }

  /** The load effect: a stored entry that is truthy and parses to an array of
      objects replaces the list; a missing, empty or unparsable entry leaves it. */
  function LoadedMessages(saved: Option<string>, current: seq<Obj>): (r: seq<Obj>)
    ensures AllWellFormed(current) ==> AllWellFormed(r)
  {
    if saved.None? || saved.value == "" then current
    else
      JsonParseWellFormed.DecodeWellFormed(saved.value);
      match Decode(saved.value)
      case Some(JArr(items)) =>
        if AllObjects(items) then seq(|items|, i requires 0 <= i < |items| => items[i].members) else current
      case _ => current
  }

  /** Saving a list and loading it back gives the same list, in order. */
  lemma SaveThenLoad(messages: seq<Obj>, current: seq<Obj>)
    requires AllWellFormed(messages)
    ensures LoadedMessages(Some(SavedForm(messages)), current) == messages
  {
    var v := AsArray(messages);
    assert WellFormed(v) by {
      forall i | 0 <= i < |v.items| ensures WellFormed(v.items[i]) {
        assert v.items[i] == JObj(messages[i]);
      }
    }
    JsonRoundTrip.DecodeEncode(v);
    assert AllObjects(v.items);
    var loaded := seq(|v.items|, i requires 0 <= i < |v.items| => v.items[i].members);
    assert loaded == messages;
  }

  class ChatSession {
    const userId: string
    const storage: Storage
    var messages: seq<Obj>
    var isLoading: bool
    /** `null` as None. */
    var error: Option<Json>

    ghost predicate Valid()
      reads this
    {
      AllWellFormed(messages)
    }

    /** Mounting: the list starts empty, the load effect reads the stored entry,
        and the save effect writes back whatever was loaded. */
    constructor (userId: string, storage: Storage)
      modifies storage
      ensures this.userId == userId && this.storage == storage
      ensures messages == LoadedMessages(old(storage.GetItem(StorageKey(userId))), [])
      ensures storage.entries == Persisted(old(storage.entries), StorageKey(userId), messages)
      ensures !isLoading && error == None
      ensures Valid()
    {
      this.userId := userId;
      this.storage := storage;
      isLoading := false;
      error := None;
      messages := LoadedMessages(storage.GetItem(StorageKey(userId)), []);
      new;
      if |messages| > 0 {
        storage.SetItem(StorageKey(userId), SavedForm(messages));
      }
    }

    /** Appends one message, then the save effect stores the whole list. */
    method AddMessage(role: string, content: string, metadata: Obj, id: int, timestamp: string) returns (message: Obj)
      requires Valid() && ValuesWellFormed(metadata)
      modifies this, storage
      ensures message == NewMessage(id, role, content, timestamp, metadata)
      ensures messages == old(messages) + [message]
      ensures storage.entries == old(storage.entries)[StorageKey(userId) := SavedForm(messages)]
      ensures isLoading == old(isLoading) && error == old(error)
      ensures Valid()
    {
      message := NewMessage(id, role, content, timestamp, metadata);
      NewMessageWellFormed(id, role, content, timestamp, metadata);
      messages := messages + [message];
      storage.SetItem(StorageKey(userId), SavedForm(messages));
    }

    /** Sends one message: clears the error, raises the loading flag and appends the
        user's message; then appends the assistant's reply, or records the error
        and appends a system message; the loading flag is lowered on both paths.
        The outcome of the call is passed back, a failure being rethrown. */
    method SendChatMessage(message: string, memoryEnabled: bool,
                           send: (string, string, bool) -> Result<ChatReply, ApiError>,
                           sentId: int, sentAt: string, replyId: int, replyAt: string)
      returns (outcome: Result<ChatReply, ApiError>)
      requires Valid()
      modifies this, storage
      ensures outcome == send(message, userId, memoryEnabled)
      ensures |messages| == |old(messages)| + 2 && messages[..|old(messages)|] == old(messages)
      ensures messages[|old(messages)|] == NewMessage(sentId, "user", message, sentAt, [])
      ensures outcome.Ok? ==>
                && messages[|old(messages)| + 1] == NewMessage(replyId, "assistant", outcome.value.response, replyAt, ReplyMetadata(outcome.value))
                && error == None
      ensures outcome.Err? ==>
                var shown := ErrorMessage(outcome.error, "Failed to send message");
                && messages[|old(messages)| + 1] == NewMessage(replyId, "system", "Error: " + ToJsString(shown), replyAt, [])
                && error == Some(shown)
      ensures !isLoading
      ensures storage.entries == old(storage.entries)[StorageKey(userId) := SavedForm(messages)]
      ensures Valid()
    {
      error := None;
      isLoading := true;
      var _ := AddMessage("user", message, [], sentId, sentAt);
      outcome := send(message, userId, memoryEnabled);
      if outcome.Ok? {
        var _ := AddMessage("assistant", outcome.value.response, ReplyMetadata(outcome.value), replyId, replyAt);
      } else {
        var shown := ErrorMessage(outcome.error, "Failed to send message");
        error := Some(shown);
        var _ := AddMessage("system", "Error: " + ToJsString(shown), [], replyId, replyAt);
      }
      isLoading := false;
    }

    /** Empties the list and removes this user's stored entry only. */
    method ClearMessages()
      modifies this, storage
      ensures messages == []
      ensures storage.entries == old(storage.entries) - {StorageKey(userId)}
      ensures isLoading == old(isLoading) && error == old(error)
      ensures Valid()
    {
      messages := [];
      storage.RemoveItem(StorageKey(userId));
    }
  }
}

=== FILE: use_memory.dfy ===
/** The memory hook (`frontend/src/hooks/useMemory.js`): the last status snapshot,
    the loading flag and the last error. Each call to the backend is a function
    parameter; a rejected call is returned as `Err`, as the hook rethrows it. */
module MemoryHook {
  import opened Wrappers
  import opened Json
  import opened ApiClient

  /** `recall`'s limit when the caller gives none. */
  const DefaultRecallLimit := 5

  /** The limit `recall` sends: the caller's, or 5 when left out. */
  function RecallLimit(limit: Option<int>): (n: int)
    ensures limit.None? ==> n == DefaultRecallLimit
    ensures limit.Some? ==> n == limit.value
  {
    limit.GetOr(DefaultRecallLimit)
  }

  class MemoryStatus {
    const userId: string
    /** `null` as None. */
    var memoryStats: Option<Json>
    var isLoading: bool
    var error: Option<Json>

    constructor (userId: string)
      ensures this.userId == userId
      ensures memoryStats == None && !isLoading && error == None
    {
      this.userId := userId;
      memoryStats := None;
      isLoading := false;
      error := None;
    }

    /** Fetches the status: on success the snapshot becomes the answer, on failure
        the snapshot stays and the error is recorded. */
    method FetchStatus(getStatus: string -> Result<Json, ApiError>) returns (outcome: Result<Json, ApiError>)
      modifies this
      ensures outcome == getStatus(userId)
      ensures outcome.Ok? ==> memoryStats == Some(outcome.value) && error == None
      ensures outcome.Err? ==> memoryStats == old(memoryStats) && error == Some(ErrorMessage(outcome.error, "Failed to fetch status"))
      ensures !isLoading
    {
      isLoading := true;
      error := None;
      outcome := getStatus(userId);
      if outcome.Ok? {
        memoryStats := Some(outcome.value);
      } else {
        error := Some(ErrorMessage(outcome.error, "Failed to fetch status"));
      }
      isLoading := false;
    }

    /** Searches the memories; the snapshot is never touched. */
    method Recall(query: string, limit: Option<int>, recallMemories: (string, string, int) -> Result<Json, ApiError>)
      returns (outcome: Result<Json, ApiError>)
      modifies this
      ensures outcome == recallMemories(query, userId, RecallLimit(limit))
      ensures memoryStats == old(memoryStats)
      ensures outcome.Ok? ==> error == None
      ensures outcome.Err? ==> error == Some(ErrorMessage(outcome.error, "Failed to recall memories"))
      ensures !isLoading
    {
      isLoading := true;
      error := None;
      outcome := recallMemories(query, userId, RecallLimit(limit));
      if outcome.Err? {
        error := Some(ErrorMessage(outcome.error, "Failed to recall memories"));
      }
      isLoading := false;
    }

    /** Stores a memory and then refreshes the status. A failed store leaves the
        snapshot alone; a failed refresh after a successful store is reported as
        the failure of the whole call, with the store's fallback text. */
    method Remember(key: string, value: string, metadata: Option<Json>,
                    rememberInfo: (string, string, string, Json) -> Result<Json, ApiError>,
                    getStatus: string -> Result<Json, ApiError>)
      returns (outcome: Result<Json, ApiError>)
      modifies this
      ensures var stored := rememberInfo(key, value, userId, metadata.GetOr(JNull));
        && (stored.Err? ==>
              outcome == stored && memoryStats == old(memoryStats)
              && error == Some(ErrorMessage(stored.error, "Failed to store memory")))
        && (stored.Ok? && getStatus(userId).Ok? ==>
              outcome == stored && memoryStats == Some(getStatus(userId).value) && error == None)
        && (stored.Ok? && getStatus(userId).Err? ==>
              outcome == Err(getStatus(userId).error) && memoryStats == old(memoryStats)
              && error == Some(ErrorMessage(getStatus(userId).error, "Failed to store memory")))
      ensures !isLoading
    {
      isLoading := true;
      error := None;
      var stored := rememberInfo(key, value, userId, metadata.GetOr(JNull));
      if stored.Err? {
        outcome := stored;
      } else {
        var refreshed := FetchStatus(getStatus);
        outcome := if refreshed.Ok? then stored else Err(refreshed.error);
      }
      if outcome.Err? {
        error := Some(ErrorMessage(outcome.error, "Failed to store memory"));
      }
      isLoading := false;
    }
  }
}

=== FILE: wrappers.dfy ===
/** Optional values and results with an error, used wherever the source returns None,
    raises, or rejects a promise. */
module Wrappers {

  datatype Option<+T> = None | Some(value: T) {
    /** The value, or `default` when there is none (Python's `x or d` on an optional value). */
    function GetOr(default: T): T
    {
      match this
      case Some(v) => v
      case None => default
    }
  }

  datatype Result<+T, +E> = Ok(value: T) | Err(error: E) {
    predicate IsFailure()
    {
      Err?
    }

    function PropagateFailure<U>(): Result<U, E>
      requires Err?
    {
      Err(error)
    }

    function Extract(): T
      requires Ok?
    {
      value
    }
  }
}
